=== FILE: README.md ===
# AI glossary browser — a Dafny model of its logic

The glossary browser is a React front end over a small Express JSON API. The API keeps users,
categories and terms in an in-memory store, which it fills at start-up from `categories.json` and
`terms.json`. Next to the application sit three offline Node scripts that work on the terms data
file:

- a duplicate finder that groups terms by name, scores them and recommends which copies to remove;
- a report of related names that no term defines;
- a sorted list of the defined names.

This project models the parts of that system that are logic rather than rendering. Each part is one
Dafny module of pure functions over immutable datatypes:

- **Data and server**
  - `Schema`: the record shapes and the zod validation of request bodies.
  - `Storage`: the `MemStorage` store, kept as insertion-ordered sequences so that the order of a
    JavaScript `Map` stays visible.
  - `Routes`: the JSON routes, as functions from store, session and request to store, session and
    response.
  - `Numbers`: the global `parseInt` the routes apply to `:id` (server/routes.ts lines 116, 144 and
    163; the model table cites the first).
- **Client**
  - `Utils`: the list helpers.
  - `TermDialog`: the add/edit dialog's prefill and submit.
  - `UseTerms` and `StaticTerms`: the two term-list hooks.
  - `Sidebar`, `Dashboard` and `PublicDashboard`: the sidebar and the two dashboard pages, each as a
    state record plus a step function.
  - `TermCard`: the term card's category decorations.
- **Scripts**
  - `Reports`: `missing.cjs` and `extract-terms.cjs`.
  - `Similarity` and `Quality`: the duplicate finder's text helpers and quality score.
  - `LineNumbers`: the duplicate finder's line scanner.
  - `Duplicates`: the duplicate finder's grouping, recommendations and summary.
- **Shared helpers**: `Common` (`Option`), `Text` (ASCII `toLowerCase`, `trim`, `split`, `join`,
  `includes` and the default string sort) and `Seqs` (`filter`, `find` and the subsequence
  relation).

Conventions of the model:

- Strings are `seq<char>`. Case mapping and white space are ASCII only.
- A JSON value is the `Schema.Value` datatype.
- `null` and `undefined` results are `Option`.
- The duplicate finder's quality scores are exact integers in thousandths of a point. Similarity is
  a `real`.
- The term card's colour table is stored by colour family. Each value of the table at
  client/src/components/term-card.tsx:15-28, and the fallback at line 45, is the background, text
  and border shade of one family (`bg-<family>-50 text-<family>-700 border-<family>-200`).
  `TermCard.CategoryHues` keeps the family per category and `TermCard.Shades` spells out the three
  classes.
- File contents, the regular-expression test of the line-number fallback and the learning-path list
  of the sidebar are parameters.

Two behaviours of the code are modelled as the code has them:

- The insert schema accepts empty strings for `term`, `category` and `definition`, because
  `drizzle-zod` derives a plain `z.string()` from a `notNull` text column. Only the login schema and
  the client form ask for a length of at least one.
- The static term hook's no-filter sentinel is `"All"` with a capital A, unlike the `"all"` used
  everywhere else.

## Model

| member | source | states |
|---|---|---|
| Schema.ParseInsertTerm | shared/schema.ts:17-46 | a body is accepted exactly when it is an object whose `term`, `category` and `definition` are strings and whose four list fields are absent, `null` or string arrays; the result carries those values, and an absent list is told apart from `null` |
| Schema.ParseUpdateTerm | shared/schema.ts:48-50 | a body is accepted exactly when every supplied insert field has the insert type and `id` is a number; unsupplied fields are reported as not supplied |
| Schema.ParseLogin | shared/schema.ts:67-70 | a body is accepted exactly when username and password are strings of length at least one, and the result holds them |
| Schema.InsertIgnoresOtherKeys | shared/schema.ts:38-46 | keys outside the seven picked columns, `id` and `learningpaths` among them, never change whether or how a body is accepted |
| Schema.InsertRequiresTextFields | shared/schema.ts:19-22 | a body without `term`, `category` or `definition` is rejected |
| Schema.InsertListFieldsOptional | shared/schema.ts:21-25 | removing any of the four list fields from an accepted body keeps it accepted |
| Schema.UpdateRequiresNumericId | shared/schema.ts:48-50 | a body whose `id` is missing or not a number is rejected, whatever else it holds |
| Schema.UpdateIdOnly | shared/schema.ts:48-50 | a body holding only a numeric id is accepted as an update that supplies no field |
| Schema.WithArray | shared/schema.ts:21-25 | an array field written into a JSON object is read back by the array-field validator as the same field |
| Schema.WithString | shared/schema.ts:19-22 | an optional string written into a JSON object reads back unchanged |
| Schema.WithArrayFrame | shared/schema.ts:21-25 | writing one array field leaves every other key as it was |
| Schema.WithStringFrame | shared/schema.ts:19-22 | writing one string field leaves every other key as it was |
| Schema.WithArraysFields | shared/schema.ts:21-25 | all four list fields written into a JSON object read back as written |
| Schema.WithArraysFrame | shared/schema.ts:21-25 | writing the four list fields leaves every other key as it was |
| Schema.UpdateTextFields | shared/schema.ts:48-50 | an update body's id and optional text fields read back as written |
| Schema.EncodeInsertText | shared/schema.ts:19-22 | the encoded create body holds the three text fields as strings |
| Schema.EncodeInsertArrays | shared/schema.ts:21-25 | the encoded create body holds each list field in the form the validator reads back |
| Schema.InsertRoundTrip | shared/schema.ts:38-46 | every insert request survives JSON encoding and validation unchanged |
| Schema.UpdateRoundTrip | shared/schema.ts:48-50 | every update request survives JSON encoding and validation unchanged |
| Schema.LoginRoundTrip | shared/schema.ts:67-70 | a login body is accepted exactly when neither field is empty |
| Storage.GetUser | server/storage.ts:129-131 | finds a user exactly when one has that id, and returns a stored user with that id |
| Storage.GetUserByUsername | server/storage.ts:133-137 | returns nothing exactly when no user has the name, else the first user in insertion order that has it |
| Storage.CreateUser | server/storage.ts:139-144 | the new user gets the counter's id, is appended and can be found by that id, which no user had before; the counter advances and the store stays valid |
| Storage.GetCategoryByName | server/storage.ts:151-155 | returns nothing exactly when no category has the name, else the first one in insertion order |
| Storage.CreateCategory | server/storage.ts:157-165 | the new category gets the counter's id and is appended; the counter advances and the store stays valid |
| Storage.CreateCategoryKeepsDuplicates | server/storage.ts:157-165 | creating a category whose name is taken breaks the uniqueness the table declares, and lookups by name still find the older one |
| Storage.GetTerm | server/storage.ts:178-180 | finds a term exactly when one has that id, and returns a stored term with that id |
| Storage.GetTermsByCategory | server/storage.ts:172-176 | exactly the stored terms whose category equals the argument, case-sensitively, in store order |
| Storage.SearchTerms | server/storage.ts:182-195 | exactly the stored terms whose name, definition, an alias or a tag contains the lower-cased query after lower-casing, in store order |
| Storage.SearchEmptyQuery | server/storage.ts:182-195 | the empty query returns every term |
| Storage.SearchIgnoresCase | server/storage.ts:182-195 | the query's letter case does not change the result |
| Storage.SearchFindsName | server/storage.ts:182-195 | searching for a stored term's own name finds that term |
| Storage.SearchIgnoresOtherFields | server/storage.ts:182-195 | category, related names, references and learning paths play no part in whether a term matches |
| Storage.CreateTerm | server/storage.ts:197-212 | the new term gets the counter's id, stores an unsupplied list as `null`, is appended and can be found by that id, which no term had before; the counter advances, so ids are never reused |
| Storage.CreateTermFrame | server/storage.ts:197-212 | creating a term changes no other id's lookup |
| Storage.CreateTermKeepsRequest | server/storage.ts:197-212 | when every list field is supplied, reading the stored term back as a create request gives the request |
| Storage.MergeIdempotent | server/storage.ts:220-221 | merging the same update twice gives what merging it once gives |
| Storage.MergeIdOnly | server/storage.ts:220-221 | an update carrying only the term's own id changes nothing |
| Storage.MergeLaterWins | server/storage.ts:220-221 | a later update that supplies every field overrides an earlier one |
| Storage.UpdateTerm | server/storage.ts:214-226 | a missing id gives `undefined` and changes nothing; otherwise the term with that id becomes the shallow merge, keeps its place and can be read back; no id changes and the store stays valid |
| Storage.UpdateTermFrame | server/storage.ts:214-226 | updating a term changes no other id's lookup |
| Storage.UpdateTermIdempotent | server/storage.ts:214-226 | sending the same update twice leaves the store as sending it once |
| Storage.DeleteTerm | server/storage.ts:228-234 | reports `true` exactly when the id was present; afterwards the id is absent, the other terms keep their order, a miss changes nothing, and the store stays valid |
| Storage.DeleteMissing | server/storage.ts:228-234 | deleting an absent id keeps every term |
| Storage.DeleteTermFrame | server/storage.ts:228-234 | deleting a term changes no other id's lookup |
| Storage.DeleteTermTwice | server/storage.ts:228-234 | a second delete of the same id reports `false` |
| Storage.KeyedFilter | server/storage.ts:228-234 | dropping entries keeps the ids positive, below the counter and ascending |
| Storage.AddCategories | server/storage.ts:56-71 | the file's categories are appended in file order, record `i` under the counter plus `i`, and the store stays valid |
| Storage.AddTerms | server/storage.ts:73-95 | the file's terms are appended in file order, record `i` under the counter plus `i` (a stored `id` is overridden), absent lists as `null`, and the store stays valid |
| Storage.Init | server/storage.ts:34-54 | start-up yields a valid store holding only the admin user, then the categories and the terms of the files, numbered 1, 2, … by position; a missing file adds nothing |
| Storage.InitAdmin | server/storage.ts:45-137 | after start-up `admin` is found by name with password `admin123`, and no other name is |
| Storage.SaveCategories | server/storage.ts:115-126 | one record per category, in store order, holding its name and description |
| Storage.SaveTermsAsWritten | server/storage.ts:97-113 | one record per term, in store order: the record the file layout calls for, minus its learning paths |
| Storage.SaveAsWrittenReload | server/storage.ts:73-113 | for every store, restarting on the file as written gives back each term renumbered from 1 with `null` lists as empty lists and no learning paths |
| Storage.SaveAsWrittenAgrees | server/storage.ts:97-113 | the save as written and the corrected save write the same file exactly when no term carries learning paths |
| Storage.SaveTerms | server/storage.ts:97-113 | the corrected projection: one record per term, in store order, without id, with `null` lists written as `[]` and with the learning paths kept |
| Storage.SaveLoadRoundTrip | server/storage.ts:73-126 | restarting on the saved files gives back every category and term in order, renumbered from 1, with `null` lists read back as empty lists and category icons dropped |
| Storage.SaveLoadStable | server/storage.ts:73-126 | after one restart, saving again writes the same records |
| Storage.SaveDropsLearningPaths | server/storage.ts:100-108 | a term with learning paths comes back from a save and a restart with none |
| Numbers.DigitPrefix | server/routes.ts:116 | the longest prefix of digits: all digits, and the next character is not one |
| Numbers.ParseUnsigned | server/routes.ts:116 | without a hexadecimal prefix, NaN exactly when the text does not start with a decimal digit |
| Numbers.ParseInt | server/routes.ts:116 | NaN exactly when no digits follow the white space and sign; otherwise the signed value of the digits |
| Numbers.Decimal | server/routes.ts:116 | the decimal numeral of a number is a non-empty digit string without a leading zero |
| Numbers.DecimalValue | server/routes.ts:116 | the digits of the numeral denote the number |
| Numbers.DigitPrefixAppend | server/routes.ts:116 | the digit prefix of digits followed by text is those digits and the digit prefix of the text |
| Numbers.ParseUnsignedDecimal | server/routes.ts:116 | a numeral followed by a non-digit reads back as its number |
| Numbers.ParseIntDecimal | server/routes.ts:116 | the id the client writes into a URL reads back as the same id, even with trailing text |
| Numbers.ParseIntSkipsSpace | server/routes.ts:116 | leading white space never changes the result |
| Numbers.ParseIntNaN | server/routes.ts:116 | text with no digit where the number should start is NaN |
| Routes.TermListFor | server/routes.ts:95-112 | a non-empty search gives the search results; otherwise a non-empty category other than `all` gives that category's terms; otherwise every term |
| Routes.Login | server/routes.ts:43-60 | 400 exactly when the body fails the login schema; 200 exactly when the first user with that name has that password, which signs the session in as that user; otherwise 401 with the session unchanged; the store never changes |
| Routes.Me | server/routes.ts:71-82 | 401 without a signed-in session, 404 when its id names no user, else 200 with that user's id and name |
| Routes.ReadTerm | server/routes.ts:114-127 | 200 with the term exactly when the id parses and names a stored term, else 404 |
| Routes.Create | server/routes.ts:129-140 | 201 with the created term exactly when the body passes the insert schema, else 400 with the store unchanged |
| Routes.UpdateBody | server/routes.ts:144-145 | the merged body holds the path's id and every other key of the request body |
| Routes.Update | server/routes.ts:142-159 | 400 when the merged body fails the update schema (always so for a NaN id); 404 when no term has the id; else 200 with the merged term; a failure leaves the store unchanged |
| Routes.Delete | server/routes.ts:161-174 | 200 exactly when the id parses and names a stored term, which is then removed; else 404 with the store unchanged |
| Routes.HandleKeeps | server/routes.ts:35-174 | reads never change the store; every failure leaves store and session unchanged; only login and logout touch the session; the store stays valid |
| Routes.MutationNeedsSession | server/routes.ts:35-174 | a create, update or delete without a signed-in session is refused with 401 and changes neither store nor session |
| Routes.CategoryAllIsNoFilter | server/routes.ts:102-106 | `category=all` lists every term, as no category does |
| Routes.SearchOverridesCategory | server/routes.ts:100-101 | with a non-empty search the category parameter is irrelevant |
| Routes.CreateThenRead | server/routes.ts:114-140 | a term created through the API can be read back at the URL the client builds from its id |
| Routes.DeleteThenRead | server/routes.ts:114-174 | after a successful delete, reading and deleting the same id both give 404 |
| Routes.PutIgnoresBodyId | server/routes.ts:144-145 | an `id` inside a PUT body is ignored; the path's id wins |
| Routes.PutNaNIsInvalid | server/routes.ts:144-156 | a PUT to a path that is not a number is a validation error, not a missing term |
| Routes.LoginThenMe | server/routes.ts:43-82 | signing in as a stored user with the right password makes `me` answer with that user |
| Routes.AdminLogin | server/routes.ts:43-53 | after start-up the admin account signs in with its password, as user 1, and the session holds that id |
| Routes.LogoutThenMutate | server/routes.ts:35-69 | after signing out every mutation is refused with 401 |
| Utils.TrimmedNonEmpty | client/src/lib/utils.ts:26 | every kept piece is non-empty, trimmed and comma-free, and there are no more than there were pieces |
| Utils.TrimmedNonEmptyConcat | client/src/lib/utils.ts:26 | trimming and dropping empties works piecewise over a concatenation |
| Utils.FormatArrayFromText | client/src/lib/utils.ts:24-27 | empty text gives no items; every item is non-empty, trimmed and comma-free |
| Utils.FormatArraySplit | client/src/lib/utils.ts:26 | the items are the trimmed comma-separated pieces in order, empty ones dropped |
| Utils.FormatArrayConcat | client/src/lib/utils.ts:26 | the items of two texts joined by a comma are the items of the first, then of the second |
| Utils.FormatArrayPadded | client/src/lib/utils.ts:26 | leading white space does not change the items |
| Utils.FormatArrayJoin | client/src/lib/utils.ts:26 | joining clean items with a comma and white space and splitting again gives back the items |
| Utils.FormatArrayStable | client/src/lib/utils.ts:26 | re-joining the items with `,` and splitting again changes nothing |
| Utils.FormatUrlsFromText | client/src/lib/utils.ts:19-22 | empty text gives no lines; the result is, in order and untrimmed, exactly the newline-separated lines whose trimmed form starts with `http`, a repeated line as often as it occurs |
| Utils.FormatUrlsJoin | client/src/lib/utils.ts:21 | joining link lines with newlines and splitting again gives back the lines |
| TermDialog.Prefill | client/src/components/add-edit-term-dialog.tsx:54-76 | when the edited term changes: no term gives the all-empty form; a term gives its text fields, each list joined with `", "` (references with newlines), and an absent list as empty text |
| TermDialog.Submit | client/src/components/add-edit-term-dialog.tsx:17-110 | nothing is sent exactly when term, category or definition is empty; otherwise an update carrying the edited term's id when editing, else a create, of the converted form |
| TermDialog.EmptyFormRejected | client/src/components/add-edit-term-dialog.tsx:17-75 | the reset form cannot be submitted |
| TermDialog.PrefillSubmitRoundTrip | client/src/components/add-edit-term-dialog.tsx:55-91 | opening a term for editing and submitting it unchanged sends the term's own fields and lists when its list items are clean and its references are link lines |
| TermDialog.UnchangedEditKeepsTerm | client/src/components/add-edit-term-dialog.tsx:55-91 | for such a term, the server then stores exactly the term it already had |
| TermDialog.UnchangedEditFillsMissingList | client/src/components/add-edit-term-dialog.tsx:59-83 | an absent list comes back from an unchanged edit as an empty list |
| UseTerms.EffectiveCategory | client/src/hooks/use-terms.ts:10-46 | a category filters exactly when it is non-empty and not `all` |
| UseTerms.EffectiveSearch | client/src/hooks/use-terms.ts:13-49 | a search filters exactly when it is non-empty |
| UseTerms.QueryKey | client/src/hooks/use-terms.ts:9-15 | the key starts with `/api/terms` |
| UseTerms.QueryKeyDistinguishes | client/src/hooks/use-terms.ts:9-15 | two calls share a key exactly when their effective category and search agree |
| UseTerms.QueryParam | client/src/hooks/use-terms.ts:45-53 | absent exactly when no pair has the name; otherwise the first value given under it, and, when every name occurs at most once, the one value given under it |
| UseTerms.UrlParamsNamesOnce | client/src/hooks/use-terms.ts:45-53 | the hook's query string names each parameter at most once |
| UseTerms.ApiTerms | client/src/hooks/use-terms.ts:44-62 | the list the API sends for the hook's query string is the list the route computes from the hook's own arguments |
| UseTerms.StaticTerms | client/src/hooks/use-terms.ts:25-42 | exactly the file's records that are in the category (when one is in force) and match the search (when one is in force), in file order, each kept as often as the file lists it |
| UseTerms.StaticMatchIff | client/src/hooks/use-terms.ts:31-40 | the static search matches what the server search matches, or a term whose category contains the query |
| UseTerms.ApiIgnoresCategoryWhenSearching | client/src/hooks/use-terms.ts:44-51 | with both filters in force the API branch returns terms of other categories |
| UseTerms.StaticAppliesCategoryWhenSearching | client/src/hooks/use-terms.ts:25-42 | with both filters in force the static branch applies both |
| StaticTerms.StaticCategories | client/src/hooks/use-static-terms.ts:11-14 | one category per record, category `i` with the record's own id when it has one and `i + 1` otherwise, and the record's name, description and icon |
| StaticTerms.AssignStaticIds | client/src/hooks/use-static-terms.ts:16-19 | one term per record, term `i` built from record `i` with id `i + 1` unless the record has its own id |
| StaticTerms.StaticCategoriesAsServer | client/src/hooks/use-static-terms.ts:11-14 | for records without their own ids, the static categories are the ones the server loads from the same file |
| StaticTerms.StaticCategoryIdWins | client/src/hooks/use-static-terms.ts:11-14 | an id stored in a category record is kept by the browser, while the server renumbers the category |
| StaticTerms.StaticTermsAsServer | client/src/hooks/use-static-terms.ts:16-19 | for records without their own ids, the static terms are the ones the server loads from the same file |
| StaticTerms.StaticIdWins | client/src/hooks/use-static-terms.ts:16-19 | an id stored in the record overrides the positional one, because the spread comes last |
| StaticTerms.FilterStatic | client/src/hooks/use-static-terms.ts:26-42 | exactly the terms in the category (unless it is `All` or absent) that match the search (when non-empty) over name, definition, aliases and tags, in order, each kept as often as it is listed |
| StaticTerms.StaticSearchIsServerSearch | client/src/hooks/use-static-terms.ts:32-39 | with no category, the static search gives the server's search results |
| StaticTerms.StaticCategoryIsServerCategory | client/src/hooks/use-static-terms.ts:28-29 | with no search, a category other than `All` gives the server's category list |
| StaticTerms.LowercaseAllIsACategory | client/src/hooks/use-static-terms.ts:28 | a lower-case `all` is taken as a category name, so over terms of no such category it lists nothing |
| StaticTerms.TermStatic | client/src/hooks/use-static-terms.ts:80 | nothing exactly when no term has the id, else the first listed term with that id |
| StaticTerms.TermStaticAsServer | client/src/hooks/use-static-terms.ts:16-80 | the static lookup gives what the server's lookup gives on the same file |
| Sidebar.Step | client/src/components/sidebar.tsx:90-214 | selecting a category closes the mobile menu, opens only the categories, forgets the path and reports the category (and a cleared path to a listener); selecting a path records it, opens only the paths, and reports the path's first category (and the path to a listener) exactly when the path is listed with a category; other events report nothing |
| Sidebar.StepKeepsOneSection | client/src/components/sidebar.tsx:45-167 | after any toggle or selection at most one section is open, and once so it stays so |
| Sidebar.ToggleTwice | client/src/components/sidebar.tsx:117-145 | toggling a section twice restores its own flag |
| Sidebar.SelectionClosesMobile | client/src/components/sidebar.tsx:101-162 | every selection closes the mobile menu |
| Sidebar.CategoryAfterPathClearsPath | client/src/components/sidebar.tsx:90-148 | choosing a category after a learning path forgets the path |
| Sidebar.CategoryTermCount | client/src/components/sidebar.tsx:86-88 | the count is the number of listed terms whose category is exactly the name |
| Sidebar.PathProgress | client/src/components/sidebar.tsx:170-191 | `null` exactly when no listed term has a truthy position on the path; otherwise the total is positive, at most the list's length, and splits into positions below 1000 and the rest |
| Sidebar.PathProgressCounts | client/src/components/sidebar.tsx:170-191 | the total is the number of listed terms on the path, the ordered count those at a position below 1000, the unordered count the rest |
| Sidebar.PositionZeroNotOnPath | client/src/components/sidebar.tsx:173-175 | a term at position 0 counts as not on the path |
| Sidebar.IconFor | client/src/components/sidebar.tsx:62-84 | no name gives the folder; any other icon comes only from its own name |
| Sidebar.IconNameRoundTrip | client/src/components/sidebar.tsx:62-84 | each of the eighteen icons is reached from its own name |
| Sidebar.IconNamesExact | client/src/components/sidebar.tsx:83 | names match exactly: `FolderOpen`, a lower-cased icon name and the empty name all give the folder |
| Dashboard.QueryArgs | client/src/pages/dashboard.tsx:23-26 | the category is passed exactly when it is not `all`, the search exactly when it is not empty |
| Dashboard.Step | client/src/pages/dashboard.tsx:31-93 | changing category clears the search; only category and search events touch the filters; add opens the dialog with no term, edit with the term, closing clears it; view selects and opens, navigation selects without opening, closing clears; confirm sends the pending term's id, if any; a delete's success clears the pending term |
| Dashboard.StepConsistent | client/src/pages/dashboard.tsx:14-93 | the page starts, and stays, with a term edited only in an open dialog and a detail dialog open only on a selected term |
| Dashboard.InitialShowsAll | client/src/pages/dashboard.tsx:14-26 | on mount the page lists every stored term |
| Dashboard.CategoryChangeShowsCategory | client/src/pages/dashboard.tsx:23-34 | after choosing a category the page lists that category's terms, or every term for `all` |
| Dashboard.SearchIgnoresCategory | client/src/pages/dashboard.tsx:23-38 | a non-empty search lists the search results whatever category is selected |
| Dashboard.DeleteThenConfirm | client/src/pages/dashboard.tsx:50-74 | asking to delete a term and confirming sends one request, for that term's id |
| Dashboard.DeleteRace | client/src/pages/dashboard.tsx:55-65 | a success arriving after a second delete request clears the second term, so confirming that dialog sends nothing |
| PublicDashboard.Step | client/src/pages/public-dashboard.tsx:20-37 | changing category clears the search; viewing selects and opens the detail; closing clears both; the dialog events leave the filters alone |
| PublicDashboard.StepConsistent | client/src/pages/public-dashboard.tsx:10-37 | the detail dialog is open exactly when a term is selected, from mount on |
| PublicDashboard.InitialShowsAll | client/src/pages/public-dashboard.tsx:10-18 | on mount the page lists every stored term |
| PublicDashboard.SameListAsAdmin | client/src/pages/public-dashboard.tsx:15-18 | for the same filters the public page lists what the admin page lists |
| PublicDashboard.CategoryChangeShowsCategory | client/src/pages/public-dashboard.tsx:15-23 | after choosing a category the page lists that category's terms, or every term for `all` |
| TermCard.CategoryColor | client/src/components/term-card.tsx:15-45 | a listed category gets its own colours, any other name the neutral ones |
| TermCard.HuesDistinct | client/src/components/term-card.tsx:15-28 | the twelve categories belong to twelve different colour families, none of them the neutral one |
| TermCard.ShadesDistinct | client/src/components/term-card.tsx:15-28 | different colour families give different class strings |
| TermCard.ColorsDistinct | client/src/components/term-card.tsx:15-28 | the twelve categories get twelve different colours, none of them neutral |
| TermCard.ColorLookupExact | client/src/components/term-card.tsx:45 | another spelling of a listed category gets the neutral colours |
| TermCard.Sanitize | client/src/components/term-card.tsx:49 | each character is lower-cased, and anything but a lower-case letter or digit becomes a dash |
| TermCard.CollapseDashes | client/src/components/term-card.tsx:49 | no two dashes in a row remain, the first character is kept and nothing new appears |
| TermCard.CollapseKeepsLetters | client/src/components/term-card.tsx:49 | collapsing only removes dashes |
| TermCard.CollapseOfCollapsed | client/src/components/term-card.tsx:49 | text without a run of dashes is left alone |
| TermCard.CollapseRun | client/src/components/term-card.tsx:49 | a run of dashes gives what one dash gives: doubling a dash anywhere changes nothing |
| TermCard.ClassSuffix | client/src/components/term-card.tsx:49 | the suffix holds only `a-z`, `0-9` and single dashes, and is empty only for an empty category |
| TermCard.CategoryClassName | client/src/components/term-card.tsx:48-50 | the class is `category-` followed by the suffix |
| TermCard.ClassKeepsLetters | client/src/components/term-card.tsx:49 | the lower-cased letters and digits of the category survive, in order |
| TermCard.ClassSuffixStable | client/src/components/term-card.tsx:49 | deriving the suffix of a suffix changes nothing |
| TermCard.ClassNamesCollide | client/src/components/term-card.tsx:49 | names that differ only in case and punctuation share a class |
| Reports.Names | data/missing.cjs:9-12 | one name per record, record `i`'s `term` at position `i` |
| Reports.RelatedNames | data/missing.cjs:17-24 | a name is listed exactly when some record's `related` holds it; a record without `related` adds none |
| Reports.Missing | data/missing.cjs:7-28 | strictly ascending; a name is listed exactly when some record relates it and no record's `term` is exactly it |
| Reports.DefiningRemovesMissing | data/missing.cjs:9-25 | adding a record that defines a name takes it off the list, and adds no name but the record's own related ones |
| Reports.Render | data/missing.cjs:30-38 | the lines are the header, a rule, the names, a rule and a total that counts the names |
| Reports.MissingHeaderMatchesTotal | data/missing.cjs:30-38 | the header and the total both count the missing names |
| Reports.Extracted | data/extract-terms.cjs:7-15 | strictly ascending; a name is listed exactly when some record defines it, each once |
| Reports.ExtractHeaderSaysUndefined | data/extract-terms.cjs:17 | the header as written prints `undefined` instead of any count |
| Reports.ExtractHeaderMatchesTotal | data/extract-terms.cjs:17-25 | with the count read from the sorted list, header and total both count the distinct names |
| Similarity.CollapseWs | data/find-dups.cjs:145 | no two spaces in a row remain, a leading white space becomes a space, and the characters other than white space are exactly the input's, in order |
| Similarity.NormalizeText | data/find-dups.cjs:141-147 | the result holds only lower-case letters, digits and single inner spaces, with none at either end |
| Similarity.NormalizeKeepsWords | data/find-dups.cjs:141-147 | apart from spaces, the result is exactly the letters and digits of the lower-cased text, in order |
| Similarity.CollapseOfNormal | data/find-dups.cjs:145 | text already in that form is left alone |
| Similarity.NormalizeIdempotent | data/find-dups.cjs:141-147 | normalising normalised text changes nothing |
| Similarity.Words | data/find-dups.cjs:156-157 | the word set is never empty, since empty text has the one word `""` |
| Similarity.CalculateSimilarity | data/find-dups.cjs:155-163 | the similarity lies in [0, 1] and is 1 exactly when the word sets agree |
| Similarity.SimilaritySymmetric | data/find-dups.cjs:155-163 | the similarity does not depend on the order of the arguments |
| Similarity.SameNormalFormFullySimilar | data/find-dups.cjs:155-163 | texts that differ only in case, punctuation and spacing are fully similar |
| Similarity.IsDuplicate | data/find-dups.cjs:171-190 | a duplicate, with confidence 1 and the one reason, exactly when the lower-cased, trimmed names agree; otherwise confidence 0 and no reasons |
| Similarity.DuplicateEquivalence | data/find-dups.cjs:179-182 | the duplicate relation is reflexive, symmetric and transitive |
| Similarity.DuplicateIgnoresCase | data/find-dups.cjs:179-182 | case and surrounding white space do not matter |
| Similarity.DuplicateKeepsPunctuation | data/find-dups.cjs:179-182 | inner punctuation does matter |
| Quality.LengthPoints | data/find-dups.cjs:201-202 | one point per 200 characters, capped at two points from 400 characters on |
| Quality.QualityScore | data/find-dups.cjs:197-229 | never below −1; at most 2.5 plus the list weights; below the list weights alone for a definition under 100 characters |
| Quality.AbsentListsCountAsEmpty | data/find-dups.cjs:205-214 | an absent list scores as an empty one |
| Quality.AddingRaisesScore | data/find-dups.cjs:205-214 | one more alias, related name, tag or reference raises the score by 0.3, 0.2, 0.1 or 0.5 |
| Quality.LengthCapped | data/find-dups.cjs:202 | beyond 400 characters the definition's length no longer matters |
| Quality.PenaltyThreshold | data/find-dups.cjs:202-226 | reaching 100 characters lifts the penalty |
| Quality.BonusCaseSensitive | data/find-dups.cjs:217-221 | the coverage bonus is case-sensitive: `AI` earns it and `ai` does not |
| LineNumbers.CharCount | data/find-dups.cjs:76-77 | the count is at most the length, and zero exactly when the character is absent |
| LineNumbers.Classified | data/find-dups.cjs:59-60 | one classification per line, in order |
| LineNumbers.ScanFacts | data/find-dups.cjs:59-86 | in either reading, the starts found so far ascend strictly, are 1-based lines already read, and are exactly the lines where an object opens at depth 0 inside the array |
| LineNumbers.ObjectStartLines | data/find-dups.cjs:55-86 | in either reading, the scan's starts: strictly ascending 1-based lines, each line recorded exactly when it opens an object at depth 0 inside the array |
| LineNumbers.NestedCloseLeavesArray | data/find-dups.cjs:68-72 | as written, a line ending in `]` that opens no list leaves the array at any depth |
| LineNumbers.NestedCloseStaysInArray | data/find-dups.cjs:68-72 | in the corrected scan, a `]` line inside an object does not leave the array |
| LineNumbers.ReadingsAgree | data/find-dups.cjs:59-86 | on a file whose `[` and `]` lines all come at depth 0, the scan as written and the corrected scan agree |
| LineNumbers.ClassifyTrimmed | data/find-dups.cjs:60-77 | a trimmed line is classified by its first and last character and its brace counts |
| LineNumbers.ScanFromFinishes | data/find-dups.cjs:59-86 | in either reading, scanning on from the state after any number of lines gives the state after all of them |
| LineNumbers.ScanAsWrittenMissesObject | data/find-dups.cjs:68-72 | as written, a nested list's `]` ends the array, so the second object of the example is never found |
| LineNumbers.ScanFindsBothObjects | data/find-dups.cjs:59-86 | the corrected scan finds both objects of the example |
| LineNumbers.BackSearch | data/find-dups.cjs:105-110 | the nearest line at or above the start, and not above the bound, that opens an object; none exactly when no line in range does |
| LineNumbers.OpensObjectIsTrimmedBrace | data/find-dups.cjs:106 | a line opens an object exactly when its trimmed text starts with `{` |
| LineNumbers.FallbackLine | data/find-dups.cjs:96-114 | the fallback is a positive line |
| LineNumbers.FallbackLineSound | data/find-dups.cjs:96-114 | the index plus 2 when no line matches the name; otherwise a line that opens an object at most ten lines above the first match |
| LineNumbers.FindTermLineNumbers | data/find-dups.cjs:51-119 | as written: one positive line per term, the scanned starts when there is one per term, otherwise the fallback line of each term |
| LineNumbers.FindTermLineNumbersCorrected | data/find-dups.cjs:51-119 | the same with the corrected scan, which leaves the array only at depth 0 |
| LineNumbers.NestedFileLineNumbers | data/find-dups.cjs:68-72 | on the nested example file the scan as written finds a different number of starts than there are terms, so it falls back, while the corrected scan finds both objects |
| Duplicates.Records | data/find-dups.cjs:28-35 | the loaded entries' records, in order |
| Duplicates.LoadFromArray | data/find-dups.cjs:125-134 | every record is kept in place, from the `direct` source at `sample_data`, with array index `i` and line `i + 1` |
| Duplicates.LoadFile | data/find-dups.cjs:18-39 | an unreadable file adds nothing; otherwise its records in order, tagged with its name, path, array index and line |
| Duplicates.LoadFromFiles | data/find-dups.cjs:15-43 | the records of every readable file, file after file |
| Duplicates.ScoreAll | data/find-dups.cjs:240-251 | term `i` keeps its index and entry and carries its name key and quality score |
| Duplicates.AddToGroupsShape | data/find-dups.cjs:243-251 | the item joins the end of the group of its key, or opens a new last group exactly when no group has the key; every other group is unchanged |
| Duplicates.AddToGroupsSize | data/find-dups.cjs:243-251 | filing an item adds exactly one to the total size of the groups |
| Duplicates.GroupBy | data/find-dups.cjs:238-252 | no two groups share a key |
| Duplicates.GroupByFacts | data/find-dups.cjs:238-252 | every term's key has a group, every group holds exactly the terms of its key in list order, no group is empty, and together they hold every term once |
| Duplicates.InsertDesc | data/find-dups.cjs:260 | inserting adds exactly the one element |
| Duplicates.InsertKeepsDescending | data/find-dups.cjs:260 | inserting keeps the list highest score first |
| Duplicates.InsertKeepsStable | data/find-dups.cjs:260 | inserting a later term keeps equal scores in list order |
| Duplicates.SortDesc | data/find-dups.cjs:260 | the sort is a permutation, highest score first |
| Duplicates.SortStable | data/find-dups.cjs:260 | terms of equal score stay in list order |
| Duplicates.SortEach | data/find-dups.cjs:257-261 | each group's members, sorted |
| Duplicates.FilterAscending | data/find-dups.cjs:240-252 | a filtered list keeps the terms in list order |
| Duplicates.ReportedGroup | data/find-dups.cjs:257-265 | every reported group is the sorted group of one key shared by two or more terms |
| Duplicates.SortedKeyGroup | data/find-dups.cjs:257-261 | the sorted terms of one key all have that key, highest score first, equal scores in list order |
| Duplicates.ReportedGroupShape | data/find-dups.cjs:257-265 | a reported group has two or more terms, highest score first, equal scores in list order |
| Duplicates.DuplicateGroupFacts | data/find-dups.cjs:234-268 | every duplicate group has two or more terms, highest score first, equal scores in list order |
| Duplicates.DuplicateGroupShareName | data/find-dups.cjs:241-265 | the terms of a duplicate group share one lower-cased, trimmed name |
| Duplicates.KeyOfReported | data/find-dups.cjs:257-265 | a member of a reported group is the list's term at its own index |
| Duplicates.OtherMember | data/find-dups.cjs:258 | a key group of two or more has a term other than any given one |
| Duplicates.ReportedHasTwin | data/find-dups.cjs:257-265 | a reported term has another term with its key |
| Duplicates.TwinIsReported | data/find-dups.cjs:257-265 | a term with another term of its key is reported |
| Duplicates.ReportedIffTwin | data/find-dups.cjs:234-268 | a term lands in a duplicate group exactly when another term has the same lower-cased, trimmed name |
| Duplicates.RemovalsOf | data/find-dups.cjs:277-292 | one removal for each member after the first, which is kept |
| Duplicates.Recommendations | data/find-dups.cjs:273-294 | one removal for each group member beyond the first |
| Duplicates.RemovalSource | data/find-dups.cjs:276-293 | every removal comes from a non-first member of some group, against that group's first |
| Duplicates.RemovalFacts | data/find-dups.cjs:273-294 | every removal names a duplicate of the term kept instead, which scores at least as high |
| Duplicates.SurplusSorted | data/find-dups.cjs:260 | sorting the groups does not change how many members they hold beyond their first |
| Duplicates.SurplusOfMultiple | data/find-dups.cjs:258 | groups of one term add no removals |
| Duplicates.SurplusIsSizeLessCount | data/find-dups.cjs:277-278 | the members beyond each first are all members less one per group |
| Duplicates.DistinctKeysCard | data/find-dups.cjs:238-252 | groups with distinct keys have as many keys as groups |
| Duplicates.KeyInItems | data/find-dups.cjs:241 | a listed term's key is among the terms' keys |
| Duplicates.GroupKeysFromItems | data/find-dups.cjs:238-252 | every group's key is some term's key |
| Duplicates.ItemKeysInGroups | data/find-dups.cjs:238-252 | every term's key is some group's key |
| Duplicates.RemovalCount | data/find-dups.cjs:238-294 | removals plus groups make up every term |
| Duplicates.GroupCount | data/find-dups.cjs:238-252 | there is one group per distinct key |
| Duplicates.RemovalsLeaveOnePerKey | data/find-dups.cjs:420-425 | the terms less the removals are the number of distinct name keys |
| Duplicates.Load | data/find-dups.cjs:400-404 | a terms array loads its records, a list of files loads every readable file's records |
| Duplicates.Analyze | data/find-dups.cjs:395-426 | the summary counts the loaded terms and the duplicate groups, lists the removals, and its final count is the number of distinct name keys |
| Text.Lower | data/find-dups.cjs:241 | lower-casing maps each character on its own and keeps the length |
| Text.Trim | data/find-dups.cjs:241 | the result has no white space at either end, and is empty exactly when the text is all white space |
| Text.Split | client/src/lib/utils.ts:21-26 | there is always at least one piece, and no piece holds the separator |
| Text.JoinSplit | client/src/lib/utils.ts:21-26 | splitting and re-joining with the same separator gives back the text |
| Text.SplitJoin | client/src/lib/utils.ts:21-26 | joining separator-free pieces and splitting again gives back the pieces |
| Text.SortDistinct | data/missing.cjs:28 | `Array.from(set).sort()` gives the distinct values, strictly ascending |
| Text.SortedUnique | data/missing.cjs:28 | a strictly ascending list is determined by its elements |
| Text.ContainsIff | server/storage.ts:187-193 | `includes` holds exactly when the text occurs at some position |
| Seqs.Filter | server/storage.ts:173-175 | the elements that pass, as an order-preserving subsequence that misses none of them |
| Seqs.FilterMultiplicity | server/storage.ts:173-175 | a filter keeps each passing element exactly as often as it occurs and no other element |
| Seqs.FilterWhenTwice | client/src/hooks/use-static-terms.ts:26-42 | two filters, each applied only when its condition holds, keep exactly the elements passing both that apply, in order and with their multiplicity |
| Seqs.Find | client/src/hooks/use-static-terms.ts:80 | nothing exactly when no element passes, else the first that does |

## Left out

- File and console I/O: reading and writing the data files, `JSON.parse`, `path.basename` (the base
  name is a field of the loaded file) and every console message. The scripts' printed text appears
  only for the two reports' header and total lines.
- `displayResults`, `exportRemovalList` and the `Date` stamp of the duplicate finder: they only
  print or write results the model computes.
- The `location`, `reason` and `keepLocation` strings of a removal, and `toFixed`: they are
  formatting of fields the model keeps (source, line, index, scores).
- Floating point: scores are exact thousandths and similarity an exact `real`. Double rounding, and
  the ties in the score sort that rounding could create or break, are not modelled. Learning-path
  positions are `int` (`Term.learningpaths` in schema.dfy), though shared/schema.ts:63 types them
  `number`, so a fractional position such as 999.5 cannot be expressed.
- LineNumbers.FallbackLine: the regular expression `"term"\s*:\s*"<name>"`, with its escaping, is a
  parameter `matches`, so the model states where the fallback looks and what it defaults to but
  not which lines match.
- Unicode: `toLowerCase`, `trim` and `\s` are modelled on ASCII. Other characters are left alone
  and are never white space.
- Quality.LengthPoints, Quality.QualityScore and Text.SortDistinct: a string is a sequence of
  Unicode scalar values, so lengths count characters, not the UTF-16 code units JavaScript's
  `.length` counts, and `Text.Less` compares code points where the default `sort()` compares code
  units. The two agree below U+10000 and differ above it: an emoji counts once towards the
  100-character penalty threshold instead of twice, and sorts after U+FF01 instead of before it.
- Express and session plumbing, cookies, `createServer`, the categories route's 500 path and every
  other 500 path, and a failing `session.destroy`. Logout always succeeds in the model.
- Routes.UpdateBody: a body that is a JSON array or string contributes no keys. The model treats
  every non-object body that way and does not model the index keys a spread of an array or string
  would add.
- React Query caching, invalidation and `fetch`: `useTerm`, `useCategories`, `useCreateTerm`,
  `useUpdateTerm`, `useDeleteTerm`, `useCategoriesStatic` and the API branches of the static
  hooks. They send requests the `Routes` module models.
- Environment detection (`isStatic`, `isStaticMode`, `isGitHubPages`): both branches of each hook
  are modelled as separate functions.
- `useLearningPathsStatic`: the sidebar imports it from the static-terms hook file
  (client/src/components/sidebar.tsx:3), but that file exports only `useTermsStatic`,
  `useCategoriesStatic` and `useTermStatic`, so the hook has no definition in the source. The
  learning-path list is a parameter of `Sidebar.Step`.
- Scrolling, toasts, `debounce`, `cn` and all rendering.
- Sidebar.PathProgress, Sidebar.IconFor and TermCard.CategoryColor: a name such as `constructor`,
  `toString` or `__proto__`, which JavaScript objects inherit, is treated like any unknown name.
  For a path id the source differs: `term.learningpaths[pathId]` then finds an inherited function
  or object, so every term with a `learningpaths` object passes the filter, neither `< 1000` nor
  `>= 1000` holds, and the source returns `{total: k, ordered: 0, unordered: 0}`. The model's
  `total == ordered + unordered` and its "null iff no term has a truthy position" hold only for
  path ids that are not inherited names.
- The server's initial load is started in the constructor without being awaited. The model runs it
  to completion before any request.
- Duplicates.Analyze: `typeof input[0] === 'string'` picks the loader. The model takes the choice
  as the input's constructor; for an empty input both loaders give no terms.
- Duplicates.DuplicatesOf: that the groups come in first-appearance order of their keys follows
  from `GroupBy` appending new keys at the end (`AddToGroups`). It is not stated as a separate
  lemma.
- LineNumbers.ScanAsWrittenMissesObject: the example file is given as the classification of its
  lines. The lemmas `ClassifyOpen` through `ClassifyCloseComma` derive each of those records from
  its line, one line at a time.
- UseTerms.QueryParam: a query string that repeats a name reaches the route as an array under
  Express's query parser, and the search route then fails at `toLowerCase` and answers 500. The
  hook never builds such a string (`UseTerms.UrlParamsNamesOnce`), so the model reads the first
  value and does not model that path.
- TermDialog.Prefill: the form is reset only when the edited term changes, not each time the
  dialog opens. Adding, typing, cancelling and adding again therefore shows the text typed before;
  the model gives the form a reset produces and does not model the form's state between resets.
- Storage.SaveTerms, Storage.SaveTermsAsWritten and Storage.SaveCategories: the saves after a
  create, update or delete happen only when `NODE_ENV` is `"development"`
  (server/storage.ts:161, 208, 222 and 230). The save functions are stand-alone projections of the
  store, and that guard is not modelled; outside development nothing is written back.
- StaticTerms.StaticTermOf and StaticTerms.StaticCategoryOf: a record that stores `"id": null`
  gets `id: null` from `{ id: index + 1, ...term }` in the browser. The records' `id` is an
  `Option`, which does not tell an absent id from a `null` one, so the model gives such a record
  its position `i + 1`.
- Dashboard.DeleteRace: the race is shown, not corrected. The page's delete flow keeps its written
  behaviour.

## Findings

| source | as written | input that shows it | evidently intended | confidence | as-written member | corrected member |
|---|---|---|---|---|---|---|
| data/find-dups.cjs:68-72 | every line that ends in `]` leaves the array, at any brace depth | a file whose first object ends with a multi-line list (`"related": [` … `]`): the second object's `{` is never recorded, the count mismatches and every term falls back to the regex search | leave the array only at depth 0, so nested lists do not end it | medium, not executed | LineNumbers.NestedFileLineNumbers | LineNumbers.FindTermLineNumbersCorrected |
| data/extract-terms.cjs:17 | the header prints `definedTerms.length`, and a `Set` has no `length` | any terms file: the header reads "Found undefined terms …" | print the number of distinct names, as the total line does | high, not executed | Reports.ExtractHeaderSaysUndefined | Reports.ExtractHeaderMatchesTotal |
| server/storage.ts:100-108 | the save projection lists every field but `learningpaths` | with `NODE_ENV` set to `development`, a term loaded with learning paths, then any create, update or delete: the rewritten `terms.json` has no learning paths, and the next start-up loads none (outside development nothing is rewritten) | keep the learning paths the file carries and the sidebar reads | medium, not executed | Storage.SaveAsWrittenReload | Storage.SaveLoadRoundTrip |

=== FILE: common.dfy ===
/** Optional values, standing in for the source's `undefined` / `null` results. */
module Common {

  datatype Option<+T> = None | Some(value: T) {

    /** Returns the wrapped value, or `default` when there is none (JavaScript's `x || default`
        for a value that is always truthy when present). */
    function GetOr(default: T): T {
      match this
      case Some(v) => v
      case None => default
    }
  }

  /** JavaScript truthiness of an optional string: present and non-empty. */
  predicate Truthy(s: Option<string>) {
    s.Some? && |s.value| > 0
  }
}

=== FILE: dashboard.dfy ===
/** The admin dashboard page: the filter state it passes to the term-list hook, the three dialogs it
    opens and closes, and the delete request it sends from the confirmation dialog. */
module Dashboard {
  import opened Common
  import opened Schema
  import opened Storage
  import Routes
  import UseTerms

  datatype DashboardState = DashboardState(
    category: string,
    search: string,
    addEditOpen: bool,
    detailOpen: bool,
    deleteOpen: bool,
    editing: Option<Term>,
    selected: Option<Term>,
    toDelete: Option<Term>)

  /** On mount: every category, no search, every dialog closed. */
  const Initial: DashboardState := DashboardState("all", "", false, false, false, None, None, None)

  datatype Event =
    | ChangeCategory(category: string)
    | Search(query: string)
    | AddTerm
    | EditTerm(term: Term)
    | DeleteTerm(term: Term)
    | ConfirmDelete
    | DeleteSucceeded
    | DeleteFailed
    | ViewTerm(term: Term)
    | NavigateToTerm(term: Term)
    | CloseAddEdit
    | CloseDetail
    | CloseDelete

  /** The filters the page hands to the term-list hook: `all` and an empty search become "none". */
  function QueryArgs(category: string, search: string): (r: (Option<string>, Option<string>))
    ensures r.0.None? <==> category == "all"
    ensures r.1.None? <==> search == ""
    ensures r.0.Some? ==> r.0.value == category
    ensures r.1.Some? ==> r.1.value == search
  {
    (if category == "all" then None else Some(category), if search == "" then None else Some(search))
  }

  /** The list the page shows for a state, as the API computes it from the page's filters. */
  function Shown(s: Store, st: DashboardState): seq<Term> {
    var args := QueryArgs(st.category, st.search);
    UseTerms.ApiTerms(s, args.0, args.1)
  }

  /** The page's reaction to one event, and the id of the delete request it sends, if any. The
      confirmation dialog's confirm button runs the page's confirm handler and then closes the
      dialog; a delete's success handler clears the term to delete, whatever it is by then. */
  function Step(st: DashboardState, ev: Event): (res: (DashboardState, Option<int>))
    ensures ev.ConfirmDelete? ==> res.1 == (if st.toDelete.Some? then Some(st.toDelete.value.id) else None)
    ensures !ev.ConfirmDelete? ==> res.1.None?
    ensures ev.ChangeCategory? ==> res.0 == st.(category := ev.category, search := "")
    ensures ev.Search? ==> res.0 == st.(search := ev.query)
    ensures !ev.ChangeCategory? && !ev.Search? ==> res.0.category == st.category && res.0.search == st.search
    ensures ev.AddTerm? ==> res.0.addEditOpen && res.0.editing.None?
    ensures ev.EditTerm? ==> res.0.addEditOpen && res.0.editing == Some(ev.term)
    ensures ev.CloseAddEdit? ==> !res.0.addEditOpen && res.0.editing.None?
    ensures ev.ViewTerm? ==> res.0.detailOpen && res.0.selected == Some(ev.term)
    ensures ev.NavigateToTerm? ==> res.0.selected == Some(ev.term) && res.0.detailOpen == st.detailOpen
    ensures ev.CloseDetail? ==> !res.0.detailOpen && res.0.selected.None?
    ensures ev.DeleteTerm? ==> res.0.deleteOpen && res.0.toDelete == Some(ev.term)
    ensures ev.DeleteSucceeded? ==> res.0.toDelete.None?
    ensures ev.DeleteFailed? ==> res.0 == st
  {
    match ev
    case ChangeCategory(c) => (st.(category := c, search := ""), None)
    case Search(q) => (st.(search := q), None)
    case AddTerm => (st.(editing := None, addEditOpen := true), None)
    case EditTerm(t) => (st.(editing := Some(t), addEditOpen := true), None)
    case DeleteTerm(t) => (st.(toDelete := Some(t), deleteOpen := true), None)
    case ConfirmDelete =>
      var request := if st.toDelete.Some? then Some(st.toDelete.value.id) else None;
      (st.(deleteOpen := false), request)
    case DeleteSucceeded => (st.(toDelete := None), None)
    case DeleteFailed => (st, None)
    case ViewTerm(t) => (st.(selected := Some(t), detailOpen := true), None)
    case NavigateToTerm(t) => (st.(selected := Some(t)), None)
    case CloseAddEdit => (st.(addEditOpen := false, editing := None), None)
    case CloseDetail => (st.(detailOpen := false, selected := None), None)
    case CloseDelete => (st.(deleteOpen := false), None)
  }

  /** The dialogs' consistency: a term is only ever edited in an open add/edit dialog, and the
      detail dialog is only open on a selected term. */
  predicate Consistent(st: DashboardState) {
    (st.editing.Some? ==> st.addEditOpen) && (st.detailOpen ==> st.selected.Some?)
  }

  /** The page starts consistent and every event keeps it so. */
  lemma StepConsistent(st: DashboardState, ev: Event)
    ensures Consistent(Initial)
    ensures Consistent(st) ==> Consistent(Step(st, ev).0)
  {
  }

  /** On mount the page lists every stored term. */
  lemma InitialShowsAll(s: Store)
    ensures Shown(s, Initial) == s.terms
  {
  }

  /** Choosing a category clears the search, so the list is that category's terms, or every term
      for `all`. */
  lemma CategoryChangeShowsCategory(s: Store, st: DashboardState, c: string)
    ensures var shown := Shown(s, Step(st, ChangeCategory(c)).0);
      shown == if c == "all" || c == "" then s.terms else GetTermsByCategory(s, c)
  {
  }

  /** A non-empty search lists the search results, whatever category is selected. */
  lemma SearchIgnoresCategory(s: Store, st: DashboardState, q: string)
    requires q != ""
    ensures Shown(s, Step(st, Search(q)).0) == SearchTerms(s, q)
  {
  }

  /** Delete, then confirm: one request, for that term's id, and the dialog is closed. */
  lemma DeleteThenConfirm(st: DashboardState, t: Term)
    ensures var (st1, r1) := Step(st, DeleteTerm(t));
      var (st2, r2) := Step(st1, ConfirmDelete);
      r1.None? && r2 == Some(t.id) && !st2.deleteOpen && st2.toDelete == Some(t)
  {
  }

  /** The delete race: while the delete of `a` is pending the user asks to delete `b`; `a`'s
      success then clears the term to delete, so the open dialog has no term behind it and
      confirming it sends nothing. */
  lemma DeleteRace(st: DashboardState, a: Term, b: Term)
    ensures var st1 := Step(st, DeleteTerm(a)).0;
      var (st2, sent) := Step(st1, ConfirmDelete);
      var st3 := Step(st2, DeleteTerm(b)).0;
      var st4 := Step(st3, DeleteSucceeded).0;
      && sent == Some(a.id)
      && st4.deleteOpen && st4.toDelete.None?
      && Step(st4, ConfirmDelete).1.None?
  {
  }
}

=== FILE: duplicates.dfy ===
/** The duplicate finder: terms loaded with their source locations, grouped by name key, each
    group of two or more sorted by quality score, and every member but the best recommended for
    removal. */
module Duplicates {
  import opened Common
  import opened Text
  import opened Schema
  import opened Seqs
  import opened Similarity
  import opened Quality

  // ---------------------------------------------------------------- loading

  /** A loaded term with the location fields the loader adds (`_source`, `_sourcePath`,
      `_lineNumber`, `_arrayIndex`). */
  datatype Entry = Entry(rec: TermRecord, source: string, sourcePath: string, lineNumber: int, arrayIndex: nat)

  function Records(entries: seq<Entry>): (r: seq<TermRecord>)
    ensures |r| == |entries|
    ensures forall i :: 0 <= i < |entries| ==> r[i] == entries[i].rec
  {
    seq(|entries|, i requires 0 <= i < |entries| => entries[i].rec)
  }

  /** `loadTermsFromArray`: each record in place, from the `direct` source, line `i + 1`. */
  function LoadFromArray(recs: seq<TermRecord>): (r: seq<Entry>)
    ensures Records(r) == recs
    ensures forall i :: 0 <= i < |r| ==> r[i].arrayIndex == i && r[i].lineNumber == i + 1
    ensures forall i :: 0 <= i < |r| ==> r[i].source == "direct" && r[i].sourcePath == "sample_data"
  {
    seq(|recs|, i requires 0 <= i < |recs| => Entry(recs[i], "direct", "sample_data", i + 1, i))
  }

  /** A data file as the loader sees it: parsed, with its base name and the line each term starts
      on, or unreadable (a read or parse error, which the loader reports and skips). */
  datatype SourceFile =
    | Parsed(path: string, base: string, records: seq<TermRecord>, lineNumbers: seq<int>)
    | Unreadable(path: string)

  /** The line numbers come from the line search, which gives one per term. */
  predicate WellFormed(files: seq<SourceFile>) {
    forall k :: 0 <= k < |files| ==> files[k].Parsed? ==> |files[k].lineNumbers| == |files[k].records|
  }

  /** The terms of one file, tagged with its location. */
  function LoadFile(f: SourceFile): (r: seq<Entry>)
    requires f.Parsed? ==> |f.lineNumbers| == |f.records|
    ensures f.Unreadable? ==> r == []
    ensures f.Parsed? ==> Records(r) == f.records
    ensures f.Parsed? ==> forall i :: 0 <= i < |r| ==>
      && r[i].source == f.base && r[i].sourcePath == f.path
      && r[i].lineNumber == f.lineNumbers[i] && r[i].arrayIndex == i
  {
    match f
    case Unreadable(_) => []
    case Parsed(path, base, recs, lines) =>
      seq(|recs|, i requires 0 <= i < |recs| => Entry(recs[i], base, path, lines[i], i))
  }

  /** The records of every readable file, file after file. */
  function AllRecords(files: seq<SourceFile>): seq<TermRecord> {
    if |files| == 0 then []
    else (if files[0].Parsed? then files[0].records else []) + AllRecords(files[1..])
  }

  /** `loadTermsFromFiles`: the files' terms one after the other, an unreadable file adding none. */
  function LoadFromFiles(files: seq<SourceFile>): (r: seq<Entry>)
    requires WellFormed(files)
    ensures Records(r) == AllRecords(files)
  {
    if |files| == 0 then []
    else
      var first := LoadFile(files[0]);
      var rest := LoadFromFiles(files[1..]);
      assert Records(first + rest) == Records(first) + Records(rest);
      first + rest
  }

  // ---------------------------------------------------------------- grouping

  /** A term with its position in the loaded list, its name key and its quality score. */
  datatype Scored = Scored(index: nat, entry: Entry, key: string, score: int)

  function ScoreAll(entries: seq<Entry>): (r: seq<Scored>)
    ensures |r| == |entries|
    ensures forall i :: 0 <= i < |r| ==> r[i].index == i && r[i].entry == entries[i]
    ensures forall i :: 0 <= i < |r| ==> r[i].key == NameKey(entries[i].rec.term)
    ensures forall i :: 0 <= i < |r| ==> r[i].score == QualityScore(entries[i].rec)
  {
    seq(|entries|, i requires 0 <= i < |entries| =>
      Scored(i, entries[i], NameKey(entries[i].rec.term), QualityScore(entries[i].rec)))
  }

  function KeyOf(s: Scored): string {
    s.key
  }

  function HasKey(k: string): Scored -> bool {
    s => KeyOf(s) == k
  }

  /** One entry of the `termGroups` map: a name key and the terms filed under it. */
  datatype Group = Group(key: string, members: seq<Scored>)

  predicate DistinctKeys(groups: seq<Group>) {
    forall a, b :: 0 <= a < b < |groups| ==> groups[a].key != groups[b].key
  }

  /** How many terms the groups hold together. */
  function Size(groups: seq<Group>): nat {
    if |groups| == 0 then 0 else |groups[0].members| + Size(groups[1..])
  }

  /** Filing one term: appended to the group of its key, or a new group at the end (a `Map` keeps
      its keys in insertion order). */
  function AddToGroups(groups: seq<Group>, key: string, item: Scored): seq<Group>
    requires DistinctKeys(groups)
    decreases |groups|
  {
    if |groups| == 0 then [Group(key, [item])]
    else if groups[0].key == key then [groups[0].(members := groups[0].members + [item])] + groups[1..]
    else
      DistinctTail(groups);
      [groups[0]] + AddToGroups(groups[1..], key, item)
  }

  /** Filing a term appends it to the group of its key, or opens a new last group when no group
      has the key; every other group is left as it was. */
  lemma AddToGroupsShape(groups: seq<Group>, key: string, item: Scored)
    requires DistinctKeys(groups)
    ensures var r := AddToGroups(groups, key, item);
      && ((exists j :: 0 <= j < |groups| && groups[j].key == key) <==> |r| == |groups|)
      && (|r| == |groups| || |r| == |groups| + 1)
      && (forall j :: 0 <= j < |groups| ==>
            r[j].key == groups[j].key && r[j].members == groups[j].members + (if groups[j].key == key then [item] else []))
      && (|r| == |groups| + 1 ==> r[|groups|] == Group(key, [item]))
  {
    AddToGroupsKeeps(groups, key, item);
    AddToGroupsNewKey(groups, key, item);
  }

  lemma {:induction false} AddToGroupsKeeps(groups: seq<Group>, key: string, item: Scored)
    requires DistinctKeys(groups)
    ensures var r := AddToGroups(groups, key, item);
      && (|r| == |groups| || |r| == |groups| + 1)
      && (forall j :: 0 <= j < |groups| ==>
            r[j].key == groups[j].key && r[j].members == groups[j].members + (if groups[j].key == key then [item] else []))
      && (|r| == |groups| + 1 ==> r[|groups|] == Group(key, [item]))
    decreases |groups|
  {
    if |groups| > 0 && groups[0].key != key {
      DistinctTail(groups);
      var tail := groups[1..];
      var r := AddToGroups(groups, key, item);
      var rest := AddToGroups(tail, key, item);
      AddToGroupsKeeps(tail, key, item);
      assert r == [groups[0]] + rest;
      forall j | 1 <= j < |groups|
        ensures groups[j] == tail[j - 1] && r[j] == rest[j - 1]
      {
      }
    }
  }

  lemma {:induction false} AddToGroupsNewKey(groups: seq<Group>, key: string, item: Scored)
    requires DistinctKeys(groups)
    ensures (exists j :: 0 <= j < |groups| && groups[j].key == key) <==> |AddToGroups(groups, key, item)| == |groups|
    decreases |groups|
  {
    if |groups| > 0 && groups[0].key != key {
      DistinctTail(groups);
      var tail := groups[1..];
      AddToGroupsNewKey(tail, key, item);
      assert |AddToGroups(groups, key, item)| == 1 + |AddToGroups(tail, key, item)|;
      if exists j :: 0 <= j < |groups| && groups[j].key == key {
        var j :| 0 <= j < |groups| && groups[j].key == key;
        assert tail[j - 1].key == key;
      }
      if exists j :: 0 <= j < |tail| && tail[j].key == key {
        var j :| 0 <= j < |tail| && tail[j].key == key;
        assert groups[j + 1].key == key;
      }
    }
  }

  /** Filing a term adds one to the total size. */
  lemma {:induction false} AddToGroupsSize(groups: seq<Group>, key: string, item: Scored)
    requires DistinctKeys(groups)
    ensures Size(AddToGroups(groups, key, item)) == Size(groups) + 1
    decreases |groups|
  {
    if |groups| > 0 {
      var r := AddToGroups(groups, key, item);
      if groups[0].key == key {
        assert r[1..] == groups[1..];
      } else {
        DistinctTail(groups);
        assert r[1..] == AddToGroups(groups[1..], key, item);
        AddToGroupsSize(groups[1..], key, item);
      }
    }
  }

  /** The `forEach` that fills `termGroups`, one term after another. */
  function GroupBy(items: seq<Scored>): (r: seq<Group>)
    ensures DistinctKeys(r)
    decreases |items|
  {
    if |items| == 0 then []
    else
      var x := items[|items| - 1];
      var g := GroupBy(items[..|items| - 1]);
      var r := AddToGroups(g, KeyOf(x), x);
      AddToGroupsShape(g, KeyOf(x), x);
      forall a, b | 0 <= a < b < |r|
        ensures r[a].key != r[b].key
      {
        if b == |g| {
          assert r[b].key == KeyOf(x);
          assert g[a].key != KeyOf(x);
        }
      }
      r
  }

  /** Every term's key has a group. */
  predicate Covers(groups: seq<Group>, items: seq<Scored>) {
    forall i :: 0 <= i < |items| ==> exists j :: 0 <= j < |groups| && groups[j].key == KeyOf(items[i])
  }

  /** Every group holds exactly the terms with its key, in list order. */
  predicate Exact(groups: seq<Group>, items: seq<Scored>) {
    forall j :: 0 <= j < |groups| ==> groups[j].members == Filter(items, HasKey(groups[j].key))
  }

  predicate NonEmpty(groups: seq<Group>) {
    forall j :: 0 <= j < |groups| ==> |groups[j].members| > 0
  }

  lemma CoversStep(g0: seq<Group>, pre: seq<Scored>, x: Scored)
    requires DistinctKeys(g0) && Covers(g0, pre)
    ensures Covers(AddToGroups(g0, KeyOf(x), x), pre + [x])
  {
    var g := AddToGroups(g0, KeyOf(x), x);
    AddToGroupsShape(g0, KeyOf(x), x);
    var items := pre + [x];
    forall i | 0 <= i < |items|
      ensures exists j :: 0 <= j < |g| && g[j].key == KeyOf(items[i])
    {
      if i < |pre| {
        assert items[i] == pre[i];
        var j :| 0 <= j < |g0| && g0[j].key == KeyOf(pre[i]);
        assert g[j].key == KeyOf(items[i]);
      } else if |g| == |g0| {
        var j :| 0 <= j < |g0| && g0[j].key == KeyOf(x);
        assert g[j].key == KeyOf(items[i]);
      } else {
        assert g[|g0|].key == KeyOf(items[i]);
      }
    }
  }

  /** A key no group has belongs to no term. */
  lemma UnknownKey(g0: seq<Group>, pre: seq<Scored>, k: string)
    requires Covers(g0, pre)
    requires forall j :: 0 <= j < |g0| ==> g0[j].key != k
    ensures Filter(pre, HasKey(k)) == []
  {
    var f := Filter(pre, HasKey(k));
    if |f| > 0 {
      assert false;
    }
  }

  lemma ExactStep(g0: seq<Group>, pre: seq<Scored>, x: Scored)
    requires DistinctKeys(g0) && Covers(g0, pre) && Exact(g0, pre)
    ensures Exact(AddToGroups(g0, KeyOf(x), x), pre + [x])
  {
    var g := AddToGroups(g0, KeyOf(x), x);
    AddToGroupsShape(g0, KeyOf(x), x);
    var items := pre + [x];
    forall j | 0 <= j < |g|
      ensures g[j].members == Filter(items, HasKey(g[j].key))
    {
      var k := g[j].key;
      FilterAppend(pre, x, HasKey(k));
      assert HasKey(k)(x) <==> KeyOf(x) == k;
      if j == |g0| {
        UnknownKey(g0, pre, KeyOf(x));
      } else {
        assert g0[j].members == Filter(pre, HasKey(k));
      }
    }
  }

  lemma NonEmptyStep(g0: seq<Group>, x: Scored)
    requires DistinctKeys(g0) && NonEmpty(g0)
    ensures NonEmpty(AddToGroups(g0, KeyOf(x), x))
  {
    var g := AddToGroups(g0, KeyOf(x), x);
    AddToGroupsShape(g0, KeyOf(x), x);
    forall j | 0 <= j < |g|
      ensures |g[j].members| > 0
    {
      if j < |g0| {
        assert |g0[j].members| > 0;
      }
    }
  }

  /** The groups are the terms sorted by key: every term's key has a group, every group holds
      exactly the terms with its key in list order, none is empty, and together they hold every
      term once. */
  lemma {:induction false} GroupByFacts(items: seq<Scored>)
    ensures Covers(GroupBy(items), items)
    ensures Exact(GroupBy(items), items)
    ensures NonEmpty(GroupBy(items))
    ensures Size(GroupBy(items)) == |items|
    decreases |items|
  {
    if |items| > 0 {
      var n := |items| - 1;
      var x := items[n];
      var pre := items[..n];
      assert items == pre + [x];
      GroupByFacts(pre);
      CoversStep(GroupBy(pre), pre, x);
      ExactStep(GroupBy(pre), pre, x);
      NonEmptyStep(GroupBy(pre), x);
      AddToGroupsSize(GroupBy(pre), KeyOf(x), x);
    }
  }

  // ---------------------------------------------------------------- sorting

  /** Highest score first. */
  predicate Descending(xs: seq<Scored>) {
    forall a, b :: 0 <= a < b < |xs| ==> xs[a].score >= xs[b].score
  }

  /** Terms of equal score keep their list order. */
  predicate StableOrder(xs: seq<Scored>) {
    forall a, b :: 0 <= a < b < |xs| && xs[a].score == xs[b].score ==> xs[a].index < xs[b].index
  }

  predicate IndexAscending(xs: seq<Scored>) {
    forall a, b :: 0 <= a < b < |xs| ==> xs[a].index < xs[b].index
  }

  /** Places `x` after every element of the sorted `s` that scores at least as high. */
  function InsertDesc(x: Scored, s: seq<Scored>): (r: seq<Scored>)
    ensures |r| == |s| + 1
    ensures multiset(r) == multiset(s) + multiset{x}
    ensures forall i :: 0 <= i < |r| ==> r[i] == x || r[i] in s
    decreases |s|
  {
    if |s| == 0 then [x]
    else if s[|s| - 1].score >= x.score then s + [x]
    else
      var init := s[..|s| - 1];
      assert s == init + [s[|s| - 1]];
      InsertDesc(x, init) + [s[|s| - 1]]
  }

  /** When `x` outscores the last element, it is placed before it. */
  lemma InsertBeforeLast(x: Scored, s: seq<Scored>)
    requires |s| > 0 && s[|s| - 1].score < x.score
    ensures InsertDesc(x, s) == InsertDesc(x, s[..|s| - 1]) + [s[|s| - 1]]
  {
  }

  /** Appending an element no higher than any before it keeps a list descending. */
  lemma AppendLowest(p: seq<Scored>, last: Scored)
    requires Descending(p)
    requires forall i :: 0 <= i < |p| ==> p[i].score >= last.score
    ensures Descending(p + [last])
  {
    var r := p + [last];
    forall a, b | 0 <= a < b < |r|
      ensures r[a].score >= r[b].score
    {
      assert r[a] == p[a];
    }
  }

  /** Appending an element that comes after every element of equal score keeps a list stable. */
  lemma AppendLatest(p: seq<Scored>, last: Scored)
    requires StableOrder(p)
    requires forall i :: 0 <= i < |p| && p[i].score == last.score ==> p[i].index < last.index
    ensures StableOrder(p + [last])
  {
    var r := p + [last];
    forall a, b | 0 <= a < b < |r| && r[a].score == r[b].score
      ensures r[a].index < r[b].index
    {
      assert r[a] == p[a];
    }
  }

  lemma {:induction false} InsertKeepsDescending(x: Scored, s: seq<Scored>)
    requires Descending(s)
    ensures Descending(InsertDesc(x, s))
    decreases |s|
  {
    if |s| > 0 && s[|s| - 1].score < x.score {
      var last := s[|s| - 1];
      var init := s[..|s| - 1];
      InsertBeforeLast(x, s);
      InsertKeepsDescending(x, init);
      var p := InsertDesc(x, init);
      forall i | 0 <= i < |p|
        ensures p[i].score >= last.score
      {
        if p[i] != x {
          var k :| 0 <= k < |init| && init[k] == p[i];
          assert s[k] == p[i];
        }
      }
      AppendLowest(p, last);
    }
  }

  /** Inserting a later term keeps equal scores in list order. */
  lemma {:induction false} InsertKeepsStable(x: Scored, s: seq<Scored>)
    requires Descending(s) && StableOrder(s)
    requires forall i :: 0 <= i < |s| ==> s[i].index < x.index
    ensures StableOrder(InsertDesc(x, s))
    decreases |s|
  {
    if |s| > 0 && s[|s| - 1].score < x.score {
      var last := s[|s| - 1];
      var init := s[..|s| - 1];
      InsertBeforeLast(x, s);
      assert Descending(init) && StableOrder(init);
      InsertKeepsStable(x, init);
      var p := InsertDesc(x, init);
      forall i | 0 <= i < |p| && p[i].score == last.score
        ensures p[i].index < last.index
      {
        var k :| 0 <= k < |init| && init[k] == p[i];
        assert s[k] == p[i];
      }
      AppendLatest(p, last);
    }
  }

  /** `group.sort((a, b) => b.qualityScore - a.qualityScore)`: highest score first, a permutation
      of the group. */
  function SortDesc(xs: seq<Scored>): (r: seq<Scored>)
    ensures |r| == |xs|
    ensures multiset(r) == multiset(xs)
    ensures Descending(r)
    decreases |xs|
  {
    if |xs| == 0 then []
    else
      var init := xs[..|xs| - 1];
      var x := xs[|xs| - 1];
      assert xs == init + [x];
      var s := SortDesc(init);
      InsertKeepsDescending(x, s);
      InsertDesc(x, s)
  }

  /** The sort is stable (as `Array.prototype.sort` is): terms of equal score stay in list order. */
  lemma {:induction false} SortStable(xs: seq<Scored>)
    requires IndexAscending(xs)
    ensures StableOrder(SortDesc(xs))
    decreases |xs|
  {
    if |xs| > 0 {
      var init := xs[..|xs| - 1];
      var x := xs[|xs| - 1];
      assert xs == init + [x];
      var s := SortDesc(init);
      assert IndexAscending(init);
      SortStable(init);
      forall i | 0 <= i < |s|
        ensures s[i].index < x.index
      {
        assert s[i] in multiset(init);
        var k :| 0 <= k < |init| && init[k] == s[i];
        assert xs[k] == s[i];
      }
      InsertKeepsStable(x, s);
    }
  }

  // ---------------------------------------------------------------- duplicate groups

  predicate Multiple(g: Group) {
    |g.members| > 1
  }

  /** Each group's members, sorted. */
  function SortEach(d: seq<Group>): (r: seq<seq<Scored>>)
    ensures |r| == |d|
    ensures forall j :: 0 <= j < |d| ==> r[j] == SortDesc(d[j].members)
  {
    if |d| == 0 then [] else [SortDesc(d[0].members)] + SortEach(d[1..])
  }

  /** The groups of two or more terms, in first-appearance order of their keys, each sorted highest
      score first. */
  function DuplicatesOf(items: seq<Scored>): seq<seq<Scored>> {
    SortEach(Filter(GroupBy(items), Multiple))
  }

  /** `findDuplicates`. */
  function FindDuplicates(entries: seq<Entry>): seq<seq<Scored>> {
    DuplicatesOf(ScoreAll(entries))
  }

  /** Each term sits at its own index. */
  predicate Indexed(items: seq<Scored>) {
    forall x :: 0 <= x < |items| ==> items[x].index == x
  }

  /** A filter of an index-ascending list is index-ascending. */
  lemma {:induction false} FilterAscending(xs: seq<Scored>, p: Scored -> bool)
    requires IndexAscending(xs)
    ensures IndexAscending(Filter(xs, p))
    decreases |xs|
  {
    if |xs| > 0 {
      var rest := Filter(xs[1..], p);
      assert IndexAscending(xs[1..]);
      FilterAscending(xs[1..], p);
      if p(xs[0]) {
        var r := [xs[0]] + rest;
        forall a, b | 0 <= a < b < |r|
          ensures r[a].index < r[b].index
        {
          if a == 0 {
            var k :| 0 <= k < |xs[1..]| && xs[1..][k] == r[b];
            assert xs[k + 1] == r[b];
          }
        }
      }
    }
  }

  /** The name key of the `j`-th reported group. */
  function ReportedKey(items: seq<Scored>, j: nat): string
    requires j < |DuplicatesOf(items)|
  {
    Filter(GroupBy(items), Multiple)[j].key
  }

  /** The group of a key holds exactly the terms with that key, in list order. */
  lemma GroupMembers(items: seq<Scored>, m: nat)
    requires m < |GroupBy(items)|
    ensures GroupBy(items)[m].members == Filter(items, HasKey(GroupBy(items)[m].key))
  {
    GroupByFacts(items);
  }

  /** No group is empty. */
  lemma GroupNonEmpty(items: seq<Scored>, m: nat)
    requires m < |GroupBy(items)|
    ensures |GroupBy(items)[m].members| > 0
  {
    GroupByFacts(items);
  }

  /** Term `i`'s key has a group. */
  lemma KeyHasGroup(items: seq<Scored>, i: nat)
    requires i < |items|
    ensures exists m :: 0 <= m < |GroupBy(items)| && GroupBy(items)[m].key == KeyOf(items[i])
  {
    GroupByFacts(items);
  }

  /** The total size of the groups is the number of terms. */
  lemma GroupSize(items: seq<Scored>)
    ensures Size(GroupBy(items)) == |items|
    ensures NonEmpty(GroupBy(items))
  {
    GroupByFacts(items);
  }

  /** Every reported group is the sorted group of one key that has two or more terms. */
  lemma ReportedGroup(items: seq<Scored>, j: nat)
    requires j < |DuplicatesOf(items)|
    ensures var k := ReportedKey(items, j);
      |Filter(items, HasKey(k))| > 1 && DuplicatesOf(items)[j] == SortDesc(Filter(items, HasKey(k)))
  {
    var g := GroupBy(items);
    var d := Filter(g, Multiple);
    assert d[j] in g && Multiple(d[j]);
    var m :| 0 <= m < |g| && g[m] == d[j];
    GroupMembers(items, m);
  }

  /** The sorted terms of one key all have that key, in score order, equal scores in list order. */
  lemma SortedKeyGroup(items: seq<Scored>, k: string)
    requires IndexAscending(items)
    ensures var r := SortDesc(Filter(items, HasKey(k)));
      && (forall a :: 0 <= a < |r| ==> KeyOf(r[a]) == k)
      && Descending(r)
      && StableOrder(r)
  {
    var members := Filter(items, HasKey(k));
    var r := SortDesc(members);
    FilterAscending(items, HasKey(k));
    SortStable(members);
    forall a | 0 <= a < |r|
      ensures KeyOf(r[a]) == k
    {
      assert r[a] in multiset(members);
      var b :| 0 <= b < |members| && members[b] == r[a];
      assert HasKey(k)(members[b]);
    }
  }

  lemma ReportedGroupShape(items: seq<Scored>, j: nat)
    requires Indexed(items)
    requires j < |DuplicatesOf(items)|
    ensures var r := DuplicatesOf(items)[j];
      && |r| > 1
      && (forall a :: 0 <= a < |r| ==> KeyOf(r[a]) == KeyOf(r[0]))
      && Descending(r)
      && StableOrder(r)
  {
    var k := ReportedKey(items, j);
    var members := Filter(items, HasKey(k));
    var r := DuplicatesOf(items)[j];
    ReportedGroup(items, j);
    assert r == SortDesc(members) && |members| > 1;
    assert IndexAscending(items);
    SortedKeyGroup(items, k);
    assert KeyOf(r[0]) == k;
  }

  /** Every reported group has two or more terms sorted highest score first, equal scores in
      list order: so its head, the term kept, scores highest and comes first among the highest. */
  lemma DuplicateGroupFacts(entries: seq<Entry>, j: nat)
    requires j < |FindDuplicates(entries)|
    ensures var r := FindDuplicates(entries)[j];
      |r| > 1 && Descending(r) && StableOrder(r)
  {
    ReportedGroupShape(ScoreAll(entries), j);
  }

  /** The terms of a reported group share one name key. */
  lemma DuplicateGroupShareName(entries: seq<Entry>, j: nat, a: nat)
    requires j < |FindDuplicates(entries)| && a < |FindDuplicates(entries)[j]|
    ensures var r := FindDuplicates(entries)[j];
      NameKey(r[a].entry.rec.term) == NameKey(r[0].entry.rec.term)
  {
    var items := ScoreAll(entries);
    var r := DuplicatesOf(items)[j];
    ReportedGroupShape(items, j);
    KeyOfReported(items, j, a);
    KeyOfReported(items, j, 0);
    ScoredKey(entries, r[a]);
    ScoredKey(entries, r[0]);
  }

  /** A scored term's key is the name key of its own record. */
  lemma ScoredKey(entries: seq<Entry>, y: Scored)
    requires y.index < |entries| && ScoreAll(entries)[y.index] == y
    ensures KeyOf(y) == NameKey(y.entry.rec.term)
  {
  }

  lemma MemberAt(items: seq<Scored>, y: Scored)
    requires Indexed(items) && y in items
    ensures y.index < |items| && items[y.index] == y
  {
  }

  lemma InSeq<T>(x: T, r: seq<T>)
    requires x in multiset(r)
    ensures exists a :: 0 <= a < |r| && r[a] == x
  {
    assert x in r;
  }

  /** The terms of a reported group are terms of the list. */
  lemma KeyOfReported(items: seq<Scored>, j: nat, a: nat)
    requires Indexed(items)
    requires j < |DuplicatesOf(items)| && a < |DuplicatesOf(items)[j]|
    ensures var y := DuplicatesOf(items)[j][a];
      y.index < |items| && items[y.index] == y
  {
    ReportedGroup(items, j);
    var k := ReportedKey(items, j);
    var y := DuplicatesOf(items)[j][a];
    assert y in multiset(Filter(items, HasKey(k)));
    MemberAt(items, y);
  }

  /** Term `i` appears in a reported group. */
  predicate Reported(items: seq<Scored>, i: nat) {
    exists j, a :: 0 <= j < |DuplicatesOf(items)| && 0 <= a < |DuplicatesOf(items)[j]| &&
      DuplicatesOf(items)[j][a].index == i
  }

  /** Another term has the same key as term `i`. */
  predicate HasTwin(items: seq<Scored>, i: nat)
    requires i < |items|
  {
    exists i2 :: 0 <= i2 < |items| && i2 != i && KeyOf(items[i2]) == KeyOf(items[i])
  }

  /** A key group of two or more has a term other than term `i`. */
  lemma OtherMember(items: seq<Scored>, k: string, i: nat)
    requires Indexed(items)
    requires |Filter(items, HasKey(k))| > 1
    ensures exists i2 :: 0 <= i2 < |items| && i2 != i && KeyOf(items[i2]) == k
  {
    var members := Filter(items, HasKey(k));
    var c := if members[0].index != i then 0 else 1;
    if c == 1 {
      assert IndexAscending(items);
      FilterAscending(items, HasKey(k));
      assert members[0].index < members[1].index;
    }
    var y := members[c];
    assert y in items && HasKey(k)(y);
    MemberAt(items, y);
    assert KeyOf(items[y.index]) == k;
  }

  lemma ReportedHasTwin(items: seq<Scored>, i: nat, j: nat, a: nat)
    requires Indexed(items) && i < |items|
    requires j < |DuplicatesOf(items)| && a < |DuplicatesOf(items)[j]|
    requires DuplicatesOf(items)[j][a].index == i
    ensures HasTwin(items, i)
  {
    ReportedGroup(items, j);
    var k := ReportedKey(items, j);
    var y := DuplicatesOf(items)[j][a];
    assert y in multiset(Filter(items, HasKey(k)));
    assert HasKey(k)(y);
    MemberAt(items, y);
    OtherMember(items, k, i);
  }

  lemma TwinIsReported(items: seq<Scored>, i: nat, i2: nat)
    requires Indexed(items) && i < |items| && i2 < |items| && i2 != i
    requires KeyOf(items[i2]) == KeyOf(items[i])
    ensures Reported(items, i)
  {
    var g := GroupBy(items);
    KeyHasGroup(items, i);
    var m :| 0 <= m < |g| && g[m].key == KeyOf(items[i]);
    GroupMembers(items, m);
    var members := g[m].members;
    assert HasKey(g[m].key)(items[i]) && HasKey(g[m].key)(items[i2]);
    assert items[i] in members && items[i2] in members;
    assert items[i].index != items[i2].index;
    TwoInLong(items[i], items[i2], members);
    GroupIsReported(items, m, items[i]);
  }

  lemma TwoInLong<T>(x: T, y: T, s: seq<T>)
    requires x != y && x in s && y in s
    ensures |s| > 1
  {
    var a :| 0 <= a < |s| && s[a] == x;
    var b :| 0 <= b < |s| && s[b] == y;
    assert a != b;
  }

  /** Every member of a group of two or more appears in the report. */
  lemma GroupIsReported(items: seq<Scored>, m: nat, y: Scored)
    requires m < |GroupBy(items)| && Multiple(GroupBy(items)[m])
    requires y in GroupBy(items)[m].members
    ensures Reported(items, y.index)
  {
    var g := GroupBy(items);
    var d := Filter(g, Multiple);
    assert g[m] in d;
    var j :| 0 <= j < |d| && d[j] == g[m];
    var r := DuplicatesOf(items)[j];
    assert r == SortDesc(g[m].members);
    assert y in multiset(r);
    InSeq(y, r);
    var a :| 0 <= a < |r| && r[a] == y;
    assert DuplicatesOf(items)[j][a].index == y.index;
  }

  /** A term is in a reported group exactly when another term shares its name key. */
  lemma ReportedIffTwin(entries: seq<Entry>, i: nat)
    requires i < |entries|
    ensures Reported(ScoreAll(entries), i) <==>
      exists i2 :: 0 <= i2 < |entries| && i2 != i && NameKey(entries[i2].rec.term) == NameKey(entries[i].rec.term)
  {
    var items := ScoreAll(entries);
    if Reported(items, i) {
      var j, a :| 0 <= j < |DuplicatesOf(items)| && 0 <= a < |DuplicatesOf(items)[j]| &&
        DuplicatesOf(items)[j][a].index == i;
      ReportedHasTwin(items, i, j, a);
      var i2 :| 0 <= i2 < |items| && i2 != i && KeyOf(items[i2]) == KeyOf(items[i]);
      assert NameKey(entries[i2].rec.term) == NameKey(entries[i].rec.term);
    }
    if exists i2 :: 0 <= i2 < |entries| && i2 != i && NameKey(entries[i2].rec.term) == NameKey(entries[i].rec.term) {
      var i2 :| 0 <= i2 < |entries| && i2 != i && NameKey(entries[i2].rec.term) == NameKey(entries[i].rec.term);
      TwinIsReported(items, i, i2);
    }
  }

  // ---------------------------------------------------------------- removal recommendations

  /** One entry of `toRemove`: the term to drop, where it is, the name kept instead and how much
      better the kept one scores. */
  datatype Removal = Removal(
    term: string,
    file: string,
    lineNumber: int,
    arrayIndex: nat,
    keepInstead: string,
    qualityDifference: int)

  /** `_sourcePath || _source`: the path, or the source name when the path is empty. */
  function FileOf(e: Entry): string {
    if e.sourcePath != "" then e.sourcePath else e.source
  }

  function ToRemove(keep: Scored, item: Scored): Removal {
    Removal(item.entry.rec.term, FileOf(item.entry), item.entry.lineNumber, item.entry.arrayIndex,
      keep.entry.rec.term, keep.score - item.score)
  }

  /** The removals of one group: every member after the first, which is kept. */
  function RemovalsOf(g: seq<Scored>): (r: seq<Removal>)
    ensures |r| == if |g| == 0 then 0 else |g| - 1
    ensures forall k :: 0 <= k < |r| ==> r[k] == ToRemove(g[0], g[k + 1])
  {
    if |g| == 0 then [] else seq(|g| - 1, k requires 0 <= k < |g| - 1 => ToRemove(g[0], g[k + 1]))
  }

  /** How many members the groups hold beyond their first. */
  function Surplus(groups: seq<seq<Scored>>): nat {
    if |groups| == 0 then 0 else (if |groups[0]| == 0 then 0 else |groups[0]| - 1) + Surplus(groups[1..])
  }

  /** `generateRemovalRecommendations`: the removals of every group, group after group. */
  function Recommendations(groups: seq<seq<Scored>>): (r: seq<Removal>)
    ensures |r| == Surplus(groups)
  {
    if |groups| == 0 then [] else RemovalsOf(groups[0]) + Recommendations(groups[1..])
  }

  /** Where removal `n` of the list comes from: member `a > 0` of group `j`. */
  lemma {:induction false} RemovalSource(groups: seq<seq<Scored>>, n: nat)
    requires n < |Recommendations(groups)|
    ensures exists j, a :: (0 <= j < |groups| && 0 < a < |groups[j]| &&
      Recommendations(groups)[n] == ToRemove(groups[j][0], groups[j][a]))
    decreases |groups|
  {
    var first := RemovalsOf(groups[0]);
    if n < |first| {
      assert Recommendations(groups)[n] == first[n];
      assert Recommendations(groups)[n] == ToRemove(groups[0][0], groups[0][n + 1]);
    } else {
      var rest := groups[1..];
      assert Recommendations(groups)[n] == Recommendations(rest)[n - |first|];
      RemovalSource(rest, n - |first|);
      var j, a :| 0 <= j < |rest| && 0 < a < |rest[j]| &&
        Recommendations(rest)[n - |first|] == ToRemove(rest[j][0], rest[j][a]);
      assert groups[j + 1] == rest[j];
    }
  }

  /** Every recommended removal names a duplicate of the term kept instead, which scores at least
      as high. */
  lemma RemovalFacts(entries: seq<Entry>, n: nat)
    requires n < |Recommendations(FindDuplicates(entries))|
    ensures var x := Recommendations(FindDuplicates(entries))[n];
      && NameKey(x.keepInstead) == NameKey(x.term)
      && x.qualityDifference >= 0
  {
    var groups := FindDuplicates(entries);
    RemovalSource(groups, n);
    var j, a :| 0 <= j < |groups| && 0 < a < |groups[j]| &&
      Recommendations(groups)[n] == ToRemove(groups[j][0], groups[j][a]);
    DuplicateGroupFacts(entries, j);
    DuplicateGroupShareName(entries, j, a);
  }

  // ---------------------------------------------------------------- counting

  /** How many members the groups hold beyond their first. */
  function GroupSurplus(d: seq<Group>): nat {
    if |d| == 0 then 0
    else (if |d[0].members| == 0 then 0 else |d[0].members| - 1) + GroupSurplus(d[1..])
  }

  lemma {:induction false} SurplusSorted(d: seq<Group>)
    ensures Surplus(SortEach(d)) == GroupSurplus(d)
    decreases |d|
  {
    if |d| > 0 {
      SurplusSorted(d[1..]);
      assert SortEach(d)[1..] == SortEach(d[1..]);
    }
  }

  /** Groups of fewer than two terms add nothing to the surplus. */
  lemma {:induction false} SurplusOfMultiple(g: seq<Group>)
    ensures GroupSurplus(Filter(g, Multiple)) == GroupSurplus(g)
    decreases |g|
  {
    if |g| > 0 {
      SurplusOfMultiple(g[1..]);
      if Multiple(g[0]) {
        assert ([g[0]] + Filter(g[1..], Multiple))[1..] == Filter(g[1..], Multiple);
      }
    }
  }

  lemma {:induction false} SurplusIsSizeLessCount(g: seq<Group>)
    requires NonEmpty(g)
    ensures GroupSurplus(g) + |g| == Size(g)
    decreases |g|
  {
    if |g| > 0 {
      assert NonEmpty(g[1..]) by {
        forall j | 0 <= j < |g| - 1
          ensures |g[1..][j].members| > 0
        {
          assert g[1..][j] == g[j + 1];
        }
      }
      SurplusIsSizeLessCount(g[1..]);
    }
  }

  function KeySet(g: seq<Group>): set<string> {
    set j | 0 <= j < |g| :: g[j].key
  }

  lemma {:induction false} DistinctKeysCard(g: seq<Group>)
    requires DistinctKeys(g)
    ensures |KeySet(g)| == |g|
    decreases |g|
  {
    if |g| > 0 {
      DistinctTail(g);
      DistinctKeysCard(g[1..]);
      KeySetCons(g);
    }
  }

  lemma DistinctTail(g: seq<Group>)
    requires |g| > 0 && DistinctKeys(g)
    ensures DistinctKeys(g[1..])
    ensures g[0].key !in KeySet(g[1..])
  {
    var rest := g[1..];
    forall a, b | 0 <= a < b < |rest|
      ensures rest[a].key != rest[b].key
    {
      assert rest[a] == g[a + 1] && rest[b] == g[b + 1];
    }
    forall j | 0 <= j < |rest|
      ensures rest[j].key != g[0].key
    {
      assert g[j + 1] == rest[j];
    }
  }

  lemma KeySetCons(g: seq<Group>)
    requires |g| > 0
    ensures KeySet(g) == {g[0].key} + KeySet(g[1..])
  {
    var rest := g[1..];
    forall k | k in KeySet(g)
      ensures k in {g[0].key} + KeySet(rest)
    {
      var j :| 0 <= j < |g| && g[j].key == k;
      if j > 0 {
        assert rest[j - 1] == g[j];
      }
    }
    forall k | k in KeySet(rest)
      ensures k in KeySet(g)
    {
      var j :| 0 <= j < |rest| && rest[j].key == k;
      assert g[j + 1] == rest[j];
    }
  }

  /** The keys the terms have. */
  function ItemKeys(items: seq<Scored>): set<string> {
    set i | 0 <= i < |items| :: items[i].key
  }

  lemma KeyInItems(items: seq<Scored>, y: Scored)
    requires y in items
    ensures y.key in ItemKeys(items)
  {
    var i :| 0 <= i < |items| && items[i] == y;
  }

  /** Every group's key is some term's key. */
  lemma GroupKeysFromItems(items: seq<Scored>)
    ensures KeySet(GroupBy(items)) <= ItemKeys(items)
  {
    var g := GroupBy(items);
    forall k | k in KeySet(g)
      ensures k in ItemKeys(items)
    {
      var j :| 0 <= j < |g| && g[j].key == k;
      GroupMembers(items, j);
      GroupNonEmpty(items, j);
      var y := g[j].members[0];
      assert y in items;
      KeyInItems(items, y);
    }
  }

  /** Every term's key is some group's key. */
  lemma ItemKeysInGroups(items: seq<Scored>)
    ensures ItemKeys(items) <= KeySet(GroupBy(items))
  {
    var g := GroupBy(items);
    forall k | k in ItemKeys(items)
      ensures k in KeySet(g)
    {
      var i :| 0 <= i < |items| && items[i].key == k;
      KeyHasGroup(items, i);
      var j :| 0 <= j < |g| && g[j].key == KeyOf(items[i]);
    }
  }

  /** Every group but its first member is removed. */
  lemma RemovalCount(items: seq<Scored>)
    ensures |Recommendations(DuplicatesOf(items))| + |GroupBy(items)| == |items|
  {
    var g := GroupBy(items);
    GroupSize(items);
    SurplusSorted(Filter(g, Multiple));
    SurplusOfMultiple(g);
    SurplusIsSizeLessCount(g);
  }

  /** There is one group per key. */
  lemma GroupCount(items: seq<Scored>)
    ensures |GroupBy(items)| == |ItemKeys(items)|
  {
    DistinctKeysCard(GroupBy(items));
    GroupKeysFromItems(items);
    ItemKeysInGroups(items);
    assert KeySet(GroupBy(items)) == ItemKeys(items);
  }

  /** Removing every reported term but each group's first leaves one term per key. */
  lemma RemovalsLeaveOnePerKey(items: seq<Scored>)
    ensures |items| - |Recommendations(DuplicatesOf(items))| == |ItemKeys(items)|
  {
    RemovalCount(items);
    GroupCount(items);
  }

  // ---------------------------------------------------------------- analysis

  /** `analyze`'s input: a list of terms, or a list of data files. */
  datatype Input = TermsArray(recs: seq<TermRecord>) | FilePaths(files: seq<SourceFile>)

  predicate ValidInput(input: Input) {
    input.FilePaths? ==> WellFormed(input.files)
  }

  function Load(input: Input): (r: seq<Entry>)
    requires ValidInput(input)
    ensures input.TermsArray? ==> Records(r) == input.recs
    ensures input.FilePaths? ==> Records(r) == AllRecords(input.files)
  {
    match input
    case TermsArray(recs) => LoadFromArray(recs)
    case FilePaths(files) => LoadFromFiles(files)
  }

  /** What `analyze` returns. */
  datatype Summary = Summary(totalTerms: nat, duplicateGroups: nat, toRemove: seq<Removal>, finalCount: int)

  /** The distinct name keys of the loaded terms. */
  function NameKeys(entries: seq<Entry>): set<string> {
    set i | 0 <= i < |entries| :: NameKey(entries[i].rec.term)
  }

  /** `analyze`: load, group, recommend; the final count is what remains after the removals. */
  function Analyze(input: Input): (r: Summary)
    requires ValidInput(input)
    ensures r.totalTerms == |Load(input)|
    ensures r.duplicateGroups == |FindDuplicates(Load(input))|
    ensures r.toRemove == Recommendations(FindDuplicates(Load(input)))
    ensures r.finalCount == |NameKeys(Load(input))|
  {
    var entries := Load(input);
    var groups := FindDuplicates(entries);
    var removals := Recommendations(groups);
    var items := ScoreAll(entries);
    RemovalsLeaveOnePerKey(items);
    assert ItemKeys(items) == NameKeys(entries) by {
      forall k | k in NameKeys(entries)
        ensures k in ItemKeys(items)
      {
        var i :| 0 <= i < |entries| && NameKey(entries[i].rec.term) == k;
        assert items[i].key == k;
      }
    }
    Summary(|entries|, |groups|, removals, |entries| - |removals|)
  }
}

=== FILE: line_numbers.dfy ===
/** The duplicate finder's line numbers: where each term object of a pretty-printed JSON array
    starts in the file, by a line scanner that tracks the top-level array and the brace depth,
    with a per-term fallback when the scan does not find one start per term. */
module LineNumbers {
  import opened Common
  import opened Text
  import opened Seqs

  /** How often `c` occurs in `s` (`(line.match(/\{/g) || []).length`). */
  function CharCount(s: string, c: char): (n: nat)
    ensures n <= |s|
    ensures n == 0 <==> c !in s
    decreases |s|
  {
    if |s| == 0 then 0 else (if s[0] == c then 1 else 0) + CharCount(s[1..], c)
  }

  /** What the scan reads of a trimmed line: whether it starts with `[`, whether it ends with
      `]`, and how many opening and closing braces it holds. */
  datatype LineInfo = LineInfo(opensArray: bool, closesArray: bool, opens: nat, closes: nat)

  function Classify(line: string): LineInfo {
    var t := Trim(line);
    LineInfo(StartsWith(t, "["), EndsWith(t, "]"), CharCount(t, '{'), CharCount(t, '}'))
  }

  function Classified(lines: seq<string>): (r: seq<LineInfo>)
    ensures |r| == |lines|
    ensures forall i :: 0 <= i < |lines| ==> r[i] == Classify(lines[i])
  {
    seq(|lines|, i requires 0 <= i < |lines| => Classify(lines[i]))
  }

  /** The scanner's state: brace depth, whether it is inside the array, the 1-based lines found. */
  datatype ScanState = ScanState(depth: int, inArray: bool, starts: seq<int>)

  const Start: ScanState := ScanState(0, false, [])

  /** Whether a line starting with `[` or ending with `]` counts as the top-level array's
      boundary. As written, it always does; in the corrected scan only outside every object, so
      that a nested list's `]` does not end the array. */
  predicate AtBoundary(st: ScanState, corrected: bool) {
    !corrected || st.depth == 0
  }

  /** The line starts an object: inside the array, at depth 0, not an array boundary, with an
      opening brace. Both readings record a start on exactly these lines. */
  predicate OpensHere(st: ScanState, line: LineInfo) {
    st.inArray && st.depth == 0 && !line.opensArray && !line.closesArray && line.opens > 0
  }

  /** One line of the scan; `i` is its 0-based index. */
  function ScanLine(st: ScanState, i: nat, line: LineInfo, corrected: bool): ScanState {
    if AtBoundary(st, corrected) && line.opensArray then st.(inArray := true)
    else if AtBoundary(st, corrected) && line.closesArray then st.(inArray := false)
    else if st.inArray then
      st.(depth := st.depth + line.opens - line.closes,
          starts := if st.depth == 0 && line.opens > 0 then st.starts + [i + 1] else st.starts)
    else st
  }

  /** Both readings add a start on exactly the lines where an object opens. */
  lemma ScanLineStarts(st: ScanState, i: nat, line: LineInfo, corrected: bool)
    ensures ScanLine(st, i, line, corrected).starts == if OpensHere(st, line) then st.starts + [i + 1] else st.starts
  {
  }

  /** The state after the first `n` lines. */
  function ScanUpTo(lines: seq<LineInfo>, n: nat, corrected: bool): ScanState
    requires n <= |lines|
    decreases n
  {
    if n == 0 then Start else ScanLine(ScanUpTo(lines, n - 1, corrected), n - 1, lines[n - 1], corrected)
  }

  /** Line `i` is where an object starts. */
  predicate Recorded(lines: seq<LineInfo>, i: nat, corrected: bool)
    requires i < |lines|
  {
    OpensHere(ScanUpTo(lines, i, corrected), lines[i])
  }

  predicate StrictlyIncreasing(xs: seq<int>) {
    forall a, b :: 0 <= a < b < |xs| ==> xs[a] < xs[b]
  }

  /** The starts found in the first `n` lines ascend, are 1-based lines among them, and are
      exactly the lines where an object opens. */
  lemma {:induction false} ScanFacts(lines: seq<LineInfo>, n: nat, corrected: bool)
    requires n <= |lines|
    ensures var starts := ScanUpTo(lines, n, corrected).starts;
      && StrictlyIncreasing(starts)
      && (forall k :: 0 <= k < |starts| ==> 1 <= starts[k] <= n)
      && (forall j :: 0 <= j < n ==> (j + 1 in starts <==> Recorded(lines, j, corrected)))
    decreases n
  {
    if n > 0 {
      ScanFacts(lines, n - 1, corrected);
      var prev := ScanUpTo(lines, n - 1, corrected);
      var starts := ScanUpTo(lines, n, corrected).starts;
      assert starts == if OpensHere(prev, lines[n - 1]) then prev.starts + [n] else prev.starts by {
        ScanLineStarts(prev, n - 1, lines[n - 1], corrected);
      }
      assert n !in prev.starts;
      forall j | 0 <= j < n - 1
        ensures j + 1 in starts <==> Recorded(lines, j, corrected)
      {
        assert j + 1 in starts <==> j + 1 in prev.starts;
      }
    }
  }

  /** The object-start scan of `findTermLineNumbers`: the 1-based lines at which an object of the
      top-level array opens, in ascending order; `corrected` chooses the reading of `[` and `]`. */
  method ObjectStartLines(lines: seq<LineInfo>, corrected: bool) returns (starts: seq<int>)
    ensures starts == ScanUpTo(lines, |lines|, corrected).starts
    ensures StrictlyIncreasing(starts)
    ensures forall k :: 0 <= k < |starts| ==> 1 <= starts[k] <= |lines|
    ensures forall i :: 0 <= i < |lines| ==> (i + 1 in starts <==> Recorded(lines, i, corrected))
  {
    var depth := 0;
    var inArray := false;
    starts := [];
    var i := 0;
    while i < |lines|
      invariant 0 <= i <= |lines|
      invariant ScanState(depth, inArray, starts) == ScanUpTo(lines, i, corrected)
    {
      var line := lines[i];
      var boundary := !corrected || depth == 0;
      if boundary && line.opensArray {
        inArray := true;
      } else if boundary && line.closesArray {
        inArray := false;
      } else if inArray {
        if depth == 0 && line.opens > 0 {
          starts := starts + [i + 1];
        }
        depth := depth + line.opens - line.closes;
      }
      i := i + 1;
    }
    ScanFacts(lines, |lines|, corrected);
  }

  /** As written, any line ending in `]` leaves the array, even inside an object. */
  lemma NestedCloseLeavesArray(st: ScanState, i: nat, line: LineInfo)
    requires st.inArray && !line.opensArray && line.closesArray
    ensures !ScanLine(st, i, line, false).inArray
  {
  }

  /** Corrected, once inside an object, a line ending in `]` (the close of a nested list) does not
      leave the top-level array. */
  lemma NestedCloseStaysInArray(st: ScanState, i: nat, line: LineInfo)
    requires st.inArray && st.depth > 0 && line.closesArray
    ensures ScanLine(st, i, line, true).inArray
  {
  }

  /** Without a `[` or `]` line inside an object the two readings agree. */
  lemma {:induction false} ReadingsAgree(lines: seq<LineInfo>, n: nat)
    requires n <= |lines|
    requires forall j :: 0 <= j < n && (lines[j].opensArray || lines[j].closesArray) ==> ScanUpTo(lines, j, true).depth == 0
    ensures ScanUpTo(lines, n, false) == ScanUpTo(lines, n, true)
    decreases n
  {
    if n > 0 {
      ReadingsAgree(lines, n - 1);
    }
  }

  // ---------------------------------------------------------------- a nested list

  /** Two objects, the first ending with a nested list, as `JSON.stringify(terms, null, 2)` lays
      them out (the property names shortened). */
  const NestedExample: seq<string> := ["[", "{", "\"r\":[", "1", "]", "},", "{", "}", "]"]

  /** The lines of the example as the scan reads them; the lemmas below derive each record from
      its line. */
  const NestedInfos: seq<LineInfo> := [
    LineInfo(true, false, 0, 0), LineInfo(false, false, 1, 0), LineInfo(false, false, 0, 0),
    LineInfo(false, false, 0, 0), LineInfo(false, true, 0, 0), LineInfo(false, false, 0, 1),
    LineInfo(false, false, 1, 0), LineInfo(false, false, 0, 1), LineInfo(false, true, 0, 0)]

  lemma ClassifyTrimmed(t: string, info: LineInfo)
    requires IsTrimmed(t)
    requires info == LineInfo(StartsWith(t, "["), EndsWith(t, "]"), CharCount(t, '{'), CharCount(t, '}'))
    ensures Classify(t) == info
  {
    TrimOfTrimmed(t);
  }

  lemma ClassifyOpen()
    ensures Classify("[") == NestedInfos[0]
  {
    assert CharCount("[", '{') == 0 && CharCount("[", '}') == 0;
    ClassifyTrimmed("[", NestedInfos[0]);
  }

  lemma ClassifyClose()
    ensures Classify("]") == NestedInfos[4]
  {
    assert CharCount("]", '{') == 0 && CharCount("]", '}') == 0;
    ClassifyTrimmed("]", NestedInfos[4]);
  }

  lemma ClassifyBrace()
    ensures Classify("{") == NestedInfos[1]
  {
    assert CharCount("{", '{') == 1 && CharCount("{", '}') == 0;
    ClassifyTrimmed("{", NestedInfos[1]);
  }

  lemma ClassifyEndBrace()
    ensures Classify("}") == NestedInfos[7]
  {
    assert CharCount("}", '{') == 0 && CharCount("}", '}') == 1;
    ClassifyTrimmed("}", NestedInfos[7]);
  }

  lemma ClassifyDigit()
    ensures Classify("1") == NestedInfos[3]
  {
    assert CharCount("1", '{') == 0 && CharCount("1", '}') == 0;
    ClassifyTrimmed("1", NestedInfos[3]);
  }

  lemma ClassifyListProperty()
    ensures Classify("\"r\":[") == NestedInfos[2]
  {
    var t := "\"r\":[";
    assert CharCount(t, '{') == 0 && CharCount(t, '}') == 0 by {
      assert forall i :: 0 <= i < |t| ==> t[i] != '{' && t[i] != '}';
    }
    assert !StartsWith(t, "[") && !EndsWith(t, "]") by {
      assert t[0] != '[' && t[4] != ']';
    }
    ClassifyTrimmed(t, NestedInfos[2]);
  }

  lemma ClassifyCloseComma()
    ensures Classify("},") == NestedInfos[5]
  {
    assert "},"[1..] == "," && ","[1..] == "";
    assert CharCount("},", '{') == 0 && CharCount("},", '}') == 1;
    assert "},"[..1] != "[" && "},"[1..] != "]";
    ClassifyTrimmed("},", NestedInfos[5]);
  }

  /** The scan of the lines from `i` on, forward from state `st`. */
  function ScanFrom(st: ScanState, lines: seq<LineInfo>, i: nat, corrected: bool): ScanState
    requires i <= |lines|
    decreases |lines| - i
  {
    if i == |lines| then st else ScanFrom(ScanLine(st, i, lines[i], corrected), lines, i + 1, corrected)
  }

  /** Scanning forward from any point finishes the scan. */
  lemma {:induction false} ScanFromFinishes(lines: seq<LineInfo>, i: nat, corrected: bool)
    requires i <= |lines|
    ensures ScanFrom(ScanUpTo(lines, i, corrected), lines, i, corrected) == ScanUpTo(lines, |lines|, corrected)
    decreases |lines| - i
  {
    if i < |lines| {
      ScanFromFinishes(lines, i + 1, corrected);
    }
  }

  /** As written, the nested list's `]` leaves the array, so the second object is never found
      and the count no longer matches the two terms. */
  lemma ScanAsWrittenMissesObject(l: seq<LineInfo>)
    requires l == NestedInfos
    ensures ScanFrom(Start, l, 0, false).starts == [2]
  {
    var t1 := ScanLine(Start, 0, l[0], false);
    assert t1.inArray && t1.depth == 0 && t1.starts == [];
    var t2 := ScanLine(t1, 1, l[1], false);
    assert t2.inArray && t2.depth == 1 && t2.starts == [2];
    var t3 := ScanLine(t2, 2, l[2], false);
    assert t3.inArray && t3.depth == 1 && t3.starts == [2];
    var t4 := ScanLine(t3, 3, l[3], false);
    assert t4.inArray && t4.depth == 1 && t4.starts == [2];
    var t5 := ScanLine(t4, 4, l[4], false);
    assert !t5.inArray && t5.starts == [2];
    var t6 := ScanLine(t5, 5, l[5], false);
    assert !t6.inArray && t6.starts == [2];
    var t7 := ScanLine(t6, 6, l[6], false);
    assert !t7.inArray && t7.starts == [2];
    var t8 := ScanLine(t7, 7, l[7], false);
    assert !t8.inArray && t8.starts == [2];
    var t9 := ScanLine(t8, 8, l[8], false);
    assert t9.starts == [2];
    assert ScanFrom(t9, l, 9, false) == t9;
  }

  /** With the array's boundaries read only at depth 0, both objects are found. */
  lemma ScanFindsBothObjects(l: seq<LineInfo>)
    requires l == NestedInfos
    ensures ScanFrom(Start, l, 0, true).starts == [2, 7]
  {
    var t1 := ScanLine(Start, 0, l[0], true);
    assert t1.inArray && t1.depth == 0 && t1.starts == [];
    var t2 := ScanLine(t1, 1, l[1], true);
    assert t2.inArray && t2.depth == 1 && t2.starts == [2];
    var t3 := ScanLine(t2, 2, l[2], true);
    assert t3.inArray && t3.depth == 1 && t3.starts == [2];
    var t4 := ScanLine(t3, 3, l[3], true);
    assert t4.inArray && t4.depth == 1 && t4.starts == [2];
    var t5 := ScanLine(t4, 4, l[4], true);
    assert t5.inArray && t5.depth == 1 && t5.starts == [2];
    var t6 := ScanLine(t5, 5, l[5], true);
    assert t6.inArray && t6.depth == 0 && t6.starts == [2];
    var t7 := ScanLine(t6, 6, l[6], true);
    assert t7.inArray && t7.depth == 1 && t7.starts == [2, 7];
    var t8 := ScanLine(t7, 7, l[7], true);
    assert t8.inArray && t8.depth == 0 && t8.starts == [2, 7];
    var t9 := ScanLine(t8, 8, l[8], true);
    assert t9.starts == [2, 7];
    assert ScanFrom(t9, l, 9, true) == t9;
  }

  // ---------------------------------------------------------------- fallback

  /** A line that opens an object (`trim() === '{' || trim().startsWith('{')`): its first
      non-whitespace character is an opening brace. */
  predicate OpensObject(line: string)
    decreases |line|
  {
    |line| > 0 && if IsWs(line[0]) then OpensObject(line[1..]) else line[0] == '{'
  }

  /** The brace test agrees with the source's trim-then-compare. */
  lemma {:induction false} OpensObjectIsTrimmedBrace(line: string)
    ensures OpensObject(line) <==> StartsWith(Trim(line), "{")
    decreases |line|
  {
    if |line| > 0 {
      if IsWs(line[0]) {
        OpensObjectIsTrimmedBrace(line[1..]);
        assert line == [line[0]] + line[1..];
        TrimPrefixWs([line[0]], line[1..]);
      } else {
        var t := Trim(line);
        assert |t| > 0 && t[0] == line[0];
        assert t[..1] == [line[0]];
      }
    }
  }

  /** The nearest line at or above `j`, and not above `lo`, that passes `opens`. */
  function BackSearch(lines: seq<string>, j: int, lo: nat, opens: string -> bool): (r: Option<nat>)
    requires j < |lines|
    ensures r.Some? ==> lo <= r.value <= j && opens(lines[r.value])
    ensures r.Some? ==> forall k :: r.value < k <= j ==> !opens(lines[k])
    ensures r.None? ==> forall k :: lo <= k <= j ==> !opens(lines[k])
    decreases j + 1 - lo
  {
    if j < lo then None
    else if opens(lines[j]) then Some(j)
    else BackSearch(lines, j - 1, lo, opens)
  }

  function MatchesName(name: string, matches: (string, string) -> bool): string -> bool {
    (line: string) => matches(line, name)
  }

  /** The fallback line of the term at `index`: the first line that `matches` (the source's
      `"term": "<name>"` pattern) names it on, moved back to the nearest opening brace at most ten
      lines up; `index + 2` when there is no such line or brace. */
  function FallbackLine(lines: seq<string>, name: string, index: nat, matches: (string, string) -> bool): (r: int)
    ensures r >= 1
  {
    var i := FirstIndex(lines, MatchesName(name, matches));
    if i == |lines| then
      index + 2
    else
      var lo := if i >= 10 then i - 10 else 0;
      var b := BackSearch(lines, i, lo, OpensObject);
      if b.Some? then b.value + 1 else index + 2
  }

  /** A term no line names falls back to `index + 2`; any other fallback line opens an object at
      most ten lines above the first line naming the term. */
  lemma FallbackLineSound(lines: seq<string>, name: string, index: nat, matches: (string, string) -> bool)
    ensures (forall i :: 0 <= i < |lines| ==> !matches(lines[i], name)) ==> FallbackLine(lines, name, index, matches) == index + 2
    ensures var r := FallbackLine(lines, name, index, matches);
      r != index + 2 ==>
      && 1 <= r <= |lines|
      && OpensObject(lines[r - 1])
      && var i := FirstIndex(lines, MatchesName(name, matches));
        i < |lines| && r - 1 <= i <= r - 1 + 10
  {
    var p := MatchesName(name, matches);
    var i := FirstIndex(lines, p);
    var r := FallbackLine(lines, name, index, matches);
    if i < |lines| {
      assert p(lines[i]);
      var lo := if i >= 10 then i - 10 else 0;
      var b := BackSearch(lines, i, lo, OpensObject);
      if b.Some? {
        assert r == b.value + 1;
        assert lo <= b.value <= i;
      } else {
        assert r == index + 2;
      }
    } else {
      assert r == index + 2;
    }
  }

  /** `findTermLineNumbers`: one line per term, the scanned starts when there is one per term and
      the fallback lines otherwise. The scan is the source's, which any `]` line ends. */
  method FindTermLineNumbers(lines: seq<string>, names: seq<string>, matches: (string, string) -> bool)
    returns (r: seq<int>)
    ensures |r| == |names|
    ensures forall k :: 0 <= k < |r| ==> 1 <= r[k]
    ensures var scanned := ScanUpTo(Classified(lines), |lines|, false).starts;
      |scanned| == |names| ==> r == scanned
    ensures var scanned := ScanUpTo(Classified(lines), |lines|, false).starts;
      |scanned| != |names| ==>
      forall k :: 0 <= k < |r| ==> r[k] == FallbackLine(lines, names[k], k, matches)
  {
    var starts := ObjectStartLines(Classified(lines), false);
    if |starts| == |names| {
      return starts;
    }
    r := FallbackLines(lines, names, matches);
  }

  /** `findTermLineNumbers` with the corrected scan, which reads `[` and `]` only at depth 0. */
  method FindTermLineNumbersCorrected(lines: seq<string>, names: seq<string>, matches: (string, string) -> bool)
    returns (r: seq<int>)
    ensures |r| == |names|
    ensures forall k :: 0 <= k < |r| ==> 1 <= r[k]
    ensures var scanned := ScanUpTo(Classified(lines), |lines|, true).starts;
      |scanned| == |names| ==> r == scanned
    ensures var scanned := ScanUpTo(Classified(lines), |lines|, true).starts;
      |scanned| != |names| ==>
      forall k :: 0 <= k < |r| ==> r[k] == FallbackLine(lines, names[k], k, matches)
  {
    var starts := ObjectStartLines(Classified(lines), true);
    if |starts| == |names| {
      return starts;
    }
    r := FallbackLines(lines, names, matches);
  }

  /** On a file laid out as the nested example, with its two terms, the source's scan finds one
      start and so every term takes its fallback line, while the corrected scan gives both
      objects' first lines. */
  lemma NestedFileLineNumbers(lines: seq<string>, names: seq<string>)
    requires Classified(lines) == NestedInfos && |names| == 2
    ensures |ScanUpTo(Classified(lines), |lines|, false).starts| != |names|
    ensures ScanUpTo(Classified(lines), |lines|, true).starts == [2, 7]
  {
    var l := Classified(lines);
    ScanAsWrittenMissesObject(l);
    ScanFindsBothObjects(l);
    ScanFromFinishes(l, 0, false);
    ScanFromFinishes(l, 0, true);
  }

  /** The fallback line of every term, in term order. */
  function FallbackLines(lines: seq<string>, names: seq<string>, matches: (string, string) -> bool): (r: seq<int>)
    ensures |r| == |names|
    ensures forall k :: 0 <= k < |r| ==> r[k] == FallbackLine(lines, names[k], k, matches) && 1 <= r[k]
  {
    seq(|names|, k requires 0 <= k < |names| => FallbackLine(lines, names[k], k, matches))
  }
}

=== FILE: numbers.dfy ===
/** The global `parseInt` applied to a route's `:id` segment, and the decimal text the client
    puts into that segment. Numbers are unbounded integers; the loss of precision of very long
    digit strings in floating point is not modelled. */
module Numbers {
  import opened Common
  import opened Text

  /** The value of `c` as a digit in base 10 or 16, if it is one. */
  function DigitValue(c: char, radix: nat): Option<nat> {
    if '0' <= c <= '9' && (c as int - '0' as int) < radix then Some(c as int - '0' as int)
    else if radix == 16 && 'a' <= c <= 'f' then Some(c as int - 'a' as int + 10)
    else if radix == 16 && 'A' <= c <= 'F' then Some(c as int - 'A' as int + 10)
    else None
  }

  predicate AllDigits(ds: string, radix: nat) {
    forall i :: 0 <= i < |ds| ==> DigitValue(ds[i], radix).Some?
  }

  /** The longest prefix of `s` made of digits. */
  function DigitPrefix(s: string, radix: nat): (r: string)
    ensures r <= s
    ensures AllDigits(r, radix)
    ensures |r| < |s| ==> DigitValue(s[|r|], radix).None?
    decreases |s|
  {
    if |s| == 0 || DigitValue(s[0], radix).None? then "" else [s[0]] + DigitPrefix(s[1..], radix)
  }

  /** The number a digit string denotes, most significant digit first. */
  function DigitsValue(ds: string, radix: nat): nat
    requires AllDigits(ds, radix)
    decreases |ds|
  {
    if |ds| == 0 then 0
    else DigitsValue(ds[..|ds| - 1], radix) * radix + DigitValue(ds[|ds| - 1], radix).value
  }

  /** Whether a sign-stripped string starts with the `0x` / `0X` prefix that switches to base 16. */
  predicate HexPrefixed(u: string) {
    |u| >= 2 && u[0] == '0' && (u[1] == 'x' || u[1] == 'X')
  }

  /** The string after leading white space and one optional sign. */
  function Unsigned(s: string): string {
    var t := TrimStart(s);
    if |t| > 0 && (t[0] == '-' || t[0] == '+') then t[1..] else t
  }

  predicate Negative(s: string) {
    var t := TrimStart(s);
    |t| > 0 && t[0] == '-'
  }

  /** The digits of a sign-stripped string: after a `0x` / `0X` prefix in base 16, otherwise in
      base 10, up to the first character that is not a digit. `None` when there is none. */
  function ParseUnsigned(u: string): (r: Option<nat>)
    ensures !HexPrefixed(u) ==> (r.None? <==> |u| == 0 || DigitValue(u[0], 10).None?)
  {
    var radix := if HexPrefixed(u) then 16 else 10;
    var body := if HexPrefixed(u) then u[2..] else u;
    var ds := DigitPrefix(body, radix);
    if |ds| == 0 then None else Some(DigitsValue(ds, radix))
  }

  /** `parseInt(s)` without a radix: leading white space and one sign are skipped, then the
      digits are read as above. `None` is NaN. */
  function ParseInt(s: string): (r: Option<int>)
    ensures r.None? <==> ParseUnsigned(Unsigned(s)).None?
    ensures r.Some? ==> r.value == (if Negative(s) then -1 else 1) * ParseUnsigned(Unsigned(s)).value
  {
    match ParseUnsigned(Unsigned(s))
    case None => None
    case Some(v) =>
      var n: int := v;
      Some(if Negative(s) then -n else n)
  }

  function DigitChar(d: nat): char
    requires d < 10
  {
    ('0' as int + d) as char
  }

  /** The decimal numeral of `n` as a template literal writes it. */
  function Decimal(n: nat): (r: string)
    ensures |r| >= 1 && AllDigits(r, 10)
    ensures r[0] == '0' ==> n == 0
    decreases n
  {
    if n < 10 then [DigitChar(n)] else Decimal(n / 10) + [DigitChar(n % 10)]
  }

  lemma {:induction false} DecimalValue(n: nat)
    ensures DigitsValue(Decimal(n), 10) == n
    decreases n
  {
    if n >= 10 {
      var r := Decimal(n);
      DecimalValue(n / 10);
      assert r[..|r| - 1] == Decimal(n / 10);
    }
  }

  /** Digits followed by anything: the digit prefix is those digits plus the digits that follow. */
  lemma {:induction false} DigitPrefixAppend(ds: string, x: string, radix: nat)
    requires AllDigits(ds, radix)
    ensures DigitPrefix(ds + x, radix) == ds + DigitPrefix(x, radix)
    decreases |ds|
  {
    if |ds| > 0 {
      var s := ds + x;
      assert DigitPrefix(s, radix) == [ds[0]] + DigitPrefix(ds[1..] + x, radix) by {
        assert s[0] == ds[0] && DigitValue(ds[0], radix).Some?;
        assert s[1..] == ds[1..] + x;
      }
      assert AllDigits(ds[1..], radix);
      DigitPrefixAppend(ds[1..], x, radix);
      assert ds == [ds[0]] + ds[1..];
    } else {
      assert ds + x == x;
    }
  }

  lemma ParseUnsignedDecimal(n: nat, rest: string)
    requires |rest| == 0 || (DigitValue(rest[0], 10).None? && rest[0] != 'x' && rest[0] != 'X')
    ensures ParseUnsigned(Decimal(n) + rest) == Some(n)
  {
    var d := Decimal(n);
    var s := d + rest;
    DigitPrefixAppend(d, rest, 10);
    assert DigitPrefix(rest, 10) == "";
    assert DigitPrefix(s, 10) == d;
    DecimalValue(n);
  }

  /** The id the client writes into a URL reads back as the same id, and so does an id followed by
      text that starts with neither a digit nor the `x` that would turn a leading `0` into a
      base-16 prefix. */
  lemma ParseIntDecimal(n: nat, rest: string)
    requires |rest| == 0 || (DigitValue(rest[0], 10).None? && rest[0] != 'x' && rest[0] != 'X')
    ensures ParseInt(Decimal(n) + rest) == Some(n)
  {
    var d := Decimal(n);
    var s := d + rest;
    assert s[0] == d[0] && DigitValue(d[0], 10).Some?;
    UnsignedOfDigitStart(s);
    ParseUnsignedDecimal(n, rest);
  }

  /** Text that starts with a digit has no white space or sign to skip. */
  lemma UnsignedOfDigitStart(s: string)
    requires |s| > 0 && DigitValue(s[0], 10).Some?
    ensures Unsigned(s) == s && !Negative(s)
  {
    assert !IsWs(s[0]) && s[0] != '-' && s[0] != '+';
    LeadingWsUnique(s, 0);
    assert TrimStart(s) == s;
  }

  /** Leading white space never changes the result. */
  lemma ParseIntSkipsSpace(w: string, s: string)
    requires forall i :: 0 <= i < |w| ==> IsWs(w[i])
    ensures ParseInt(w + s) == ParseInt(s)
  {
    TrimStartPrefixWs(w, s);
    assert Unsigned(w + s) == Unsigned(s);
    assert Negative(w + s) == Negative(s);
  }

  /** A string with no digit where the number should start is NaN. */
  lemma ParseIntNaN(s: string)
    requires |Unsigned(s)| == 0 || DigitValue(Unsigned(s)[0], 10).None?
    ensures ParseInt(s).None?
  {
  }
}

=== FILE: public_dashboard.dfy ===
/** The public (read-only) dashboard page: category and search filters and the term detail dialog. */
module PublicDashboard {
  import opened Common
  import opened Schema
  import opened Storage
  import UseTerms
  import Dashboard

  datatype PublicState = PublicState(category: string, search: string, detailOpen: bool, selected: Option<Term>)

  const Initial: PublicState := PublicState("all", "", false, None)

  datatype Event =
    | ChangeCategory(category: string)
    | Search(query: string)
    | ViewTerm(term: Term)
    | CloseDetail

  function Step(st: PublicState, ev: Event): (r: PublicState)
    ensures ev.ChangeCategory? ==> r == st.(category := ev.category, search := "")
    ensures ev.ViewTerm? ==> r.detailOpen && r.selected == Some(ev.term)
    ensures ev.CloseDetail? ==> !r.detailOpen && r.selected.None?
    ensures ev.Search? ==> r == st.(search := ev.query)
    ensures ev.ViewTerm? || ev.CloseDetail? ==> r.category == st.category && r.search == st.search
  {
    match ev
    case ChangeCategory(c) => st.(category := c, search := "")
    case Search(q) => st.(search := q)
    case ViewTerm(t) => st.(selected := Some(t), detailOpen := true)
    case CloseDetail => st.(detailOpen := false, selected := None)
  }

  /** The list the page shows: the same filter arguments as the admin page. */
  function Shown(s: Store, st: PublicState): seq<Term> {
    var args := Dashboard.QueryArgs(st.category, st.search);
    UseTerms.ApiTerms(s, args.0, args.1)
  }

  /** The detail dialog is open exactly when a term is selected. */
  predicate Consistent(st: PublicState) {
    st.detailOpen <==> st.selected.Some?
  }

  lemma StepConsistent(st: PublicState, ev: Event)
    ensures Consistent(Initial)
    ensures Consistent(st) ==> Consistent(Step(st, ev))
  {
  }

  /** On mount the page lists every stored term. */
  lemma InitialShowsAll(s: Store)
    ensures Shown(s, Initial) == s.terms
  {
  }

  /** The public page lists what the admin page lists for the same filters. */
  lemma SameListAsAdmin(s: Store, st: PublicState, admin: Dashboard.DashboardState)
    requires admin.category == st.category && admin.search == st.search
    ensures Shown(s, st) == Dashboard.Shown(s, admin)
  {
  }

  /** Choosing a category clears the search, so the list is that category's terms, or every term
      for `all`. */
  lemma CategoryChangeShowsCategory(s: Store, st: PublicState, c: string)
    ensures Shown(s, Step(st, ChangeCategory(c))) == if c == "all" || c == "" then s.terms else GetTermsByCategory(s, c)
  {
  }
}

=== FILE: quality.dfy ===
/** The duplicate finder's quality score of a term record, which decides which duplicate to keep.
    Scores are exact integers in thousandths of a point (0.3 points is 300). */
module Quality {
  import opened Common
  import opened Text
  import opened Schema

  /** The definition's length share: 1 point per 200 characters, at most 2 points. */
  function LengthPoints(definition: string): (p: int)
    ensures 0 <= p <= 2000
    ensures |definition| >= 400 ==> p == 2000
    ensures |definition| < 400 ==> p == 5 * |definition|
  {
    if 5 * |definition| < 2000 then 5 * |definition| else 2000
  }

  /** The length of an optional list, an absent one (`x || []`) counting as empty. */
  function Count(xs: Option<seq<string>>): nat {
    |xs.GetOr([])|
  }

  /** The case-sensitive coverage test for the half-point bonus. */
  predicate Comprehensive(definition: string) {
    Contains(definition, "machine learning") || Contains(definition, "artificial intelligence") || Contains(definition, "AI")
  }

  /** `calculateQualityScore`: length share, 0.3 per alias, 0.2 per related name, 0.1 per tag,
      0.5 per reference, a 0.5 bonus for a comprehensive definition, and a one-point penalty
      for a definition under 100 characters. */
  function QualityScore(t: TermRecord): (score: int)
    ensures score >= -1000
    ensures score <= 2500 + 300 * Count(t.aliases) + 200 * Count(t.related) + 100 * Count(t.tags) + 500 * Count(t.references)
    ensures |t.definition| < 100 ==> score < 300 * Count(t.aliases) + 200 * Count(t.related) + 100 * Count(t.tags) + 500 * Count(t.references)
  {
    var s := LengthPoints(t.definition)
      + 300 * Count(t.aliases) + 200 * Count(t.related) + 100 * Count(t.tags) + 500 * Count(t.references)
      + (if Comprehensive(t.definition) then 500 else 0);
    if |t.definition| < 100 then s - 1000 else s
  }

  /** An absent list scores as an empty one. */
  lemma AbsentListsCountAsEmpty(t: TermRecord)
    ensures QualityScore(t.(aliases := None)) == QualityScore(t.(aliases := Some([])))
    ensures QualityScore(t.(related := None)) == QualityScore(t.(related := Some([])))
    ensures QualityScore(t.(tags := None)) == QualityScore(t.(tags := Some([])))
    ensures QualityScore(t.(references := None)) == QualityScore(t.(references := Some([])))
  {
  }

  function Add(xs: Option<seq<string>>, x: string): Option<seq<string>> {
    Some(xs.GetOr([]) + [x])
  }

  /** One more alias, related name, tag or reference raises the score by its weight, and so never
      lowers it. */
  lemma AddingRaisesScore(t: TermRecord, x: string)
    ensures QualityScore(t.(aliases := Add(t.aliases, x))) == QualityScore(t) + 300
    ensures QualityScore(t.(related := Add(t.related, x))) == QualityScore(t) + 200
    ensures QualityScore(t.(tags := Add(t.tags, x))) == QualityScore(t) + 100
    ensures QualityScore(t.(references := Add(t.references, x))) == QualityScore(t) + 500
  {
  }

  /** Beyond 400 characters the definition's length no longer matters. */
  lemma LengthCapped(t: TermRecord, d: string)
    requires |t.definition| >= 400 && |d| >= 400
    requires Comprehensive(d) == Comprehensive(t.definition)
    ensures QualityScore(t.(definition := d)) == QualityScore(t)
  {
  }

  /** Reaching 100 characters lifts the penalty: one more character is worth 1.005 points. */
  lemma PenaltyThreshold(t: TermRecord, c: char)
    requires |t.definition| == 99
    requires Comprehensive(t.definition + [c]) == Comprehensive(t.definition)
    ensures QualityScore(t.(definition := t.definition + [c])) == QualityScore(t) + 1005
  {
  }

  /** The bonus test is case-sensitive: "AI" earns it, "ai" does not. */
  lemma BonusCaseSensitive(t: TermRecord)
    requires t.definition == "AI"
    ensures QualityScore(t) == QualityScore(t.(definition := "ai")) + 500
  {
    assert Contains("AI", "AI") by {
      assert StartsWith("AI", "AI");
    }
    assert !Contains("ai", "AI") by {
      assert !StartsWith("ai", "AI") by {
        assert "ai"[..2] == "ai";
        assert "ai"[0] != "AI"[0];
      }
      assert "ai"[1..] == "i";
      assert !StartsWith("i", "AI");
      assert "i"[1..] == "";
    }
  }
}

=== FILE: reports.dfy ===
/** The two report scripts over the terms data file: the related names no term defines, and the
    sorted list of defined names. Each prints a header with a count, a rule, one name per line, a
    rule and a total. */
module Reports {
  import opened Common
  import opened Text
  import opened Schema
  import opened Seqs
  import opened Numbers

  /** The names the file defines: every record's `term`. */
  function Names(data: seq<TermRecord>): (r: seq<string>)
    ensures |r| == |data|
    ensures forall i :: 0 <= i < |data| ==> r[i] == data[i].term
    decreases |data|
  {
    if |data| == 0 then [] else [data[0].term] + Names(data[1..])
  }

  /** Every related name, record by record, in file order; a record without `related` adds none. */
  function RelatedNames(data: seq<TermRecord>): (r: seq<string>)
    ensures forall x :: x in r <==> exists i :: 0 <= i < |data| && data[i].related.Some? && x in data[i].related.value
    decreases |data|
  {
    if |data| == 0 then []
    else
      var rest := RelatedNames(data[1..]);
      assert forall x :: x in rest <==> exists i :: 1 <= i < |data| && data[i].related.Some? && x in data[i].related.value by {
        forall x | x in rest
          ensures exists i :: 1 <= i < |data| && data[i].related.Some? && x in data[i].related.value
        {
          var i :| 0 <= i < |data[1..]| && data[1..][i].related.Some? && x in data[1..][i].related.value;
          assert data[i + 1] == data[1..][i];
        }
        forall x | exists i :: 1 <= i < |data| && data[i].related.Some? && x in data[i].related.value
          ensures x in rest
        {
          var i :| 1 <= i < |data| && data[i].related.Some? && x in data[i].related.value;
          assert data[1..][i - 1] == data[i];
        }
      }
      data[0].related.GetOr([]) + rest
  }

  predicate IsRelated(data: seq<TermRecord>, x: string) {
    exists i :: 0 <= i < |data| && data[i].related.Some? && x in data[i].related.value
  }

  function Undefined(defined: seq<string>): string -> bool {
    (x: string) => x !in defined
  }

  /** `missing.cjs`: the related names that are no record's `term`, each once, in ascending order. */
  function Missing(data: seq<TermRecord>): (r: seq<string>)
    ensures StrictlySorted(r)
    ensures forall x :: x in r <==> IsRelated(data, x) && x !in Names(data)
  {
    var names := Names(data);
    var kept := Filter(RelatedNames(data), Undefined(names));
    assert forall x :: x in kept <==> x in RelatedNames(data) && x !in names by {
      forall x | x in kept
        ensures x in RelatedNames(data) && x !in names
      {
        var i :| 0 <= i < |kept| && kept[i] == x;
      }
      forall x | x in RelatedNames(data) && x !in names
        ensures x in kept
      {
        var i :| 0 <= i < |RelatedNames(data)| && RelatedNames(data)[i] == x;
      }
    }
    SortDistinct(kept)
  }

  /** Adding a record that defines a name takes that name off the missing list, and adds no
      missing name but the record's own related ones. */
  lemma DefiningRemovesMissing(data: seq<TermRecord>, r: TermRecord)
    ensures r.term !in Missing(data + [r])
    ensures forall x :: x in Missing(data + [r]) ==> x in Missing(data) || (r.related.Some? && x in r.related.value)
  {
    var d := data + [r];
    NamesAppend(data, r);
    forall x | x in Missing(d)
      ensures x in Missing(data) || (r.related.Some? && x in r.related.value)
    {
      RelatedAppend(data, r, x);
    }
  }

  lemma NamesAppend(data: seq<TermRecord>, r: TermRecord)
    ensures Names(data + [r]) == Names(data) + [r.term]
  {
  }

  /** A name related in the longer file is related in the shorter one or by the added record. */
  lemma RelatedAppend(data: seq<TermRecord>, r: TermRecord, x: string)
    requires IsRelated(data + [r], x)
    ensures IsRelated(data, x) || (r.related.Some? && x in r.related.value)
  {
    var d := data + [r];
    var i :| 0 <= i < |d| && d[i].related.Some? && x in d[i].related.value;
    if i < |data| {
      assert d[i] == data[i];
    }
  }

  /** `extract-terms.cjs`: every defined name, once, in ascending order. */
  function Extracted(data: seq<TermRecord>): (r: seq<string>)
    ensures StrictlySorted(r)
    ensures forall x :: x in r <==> x in Names(data)
    ensures |r| == |set x | x in Names(data)|
  {
    var r := SortDistinct(Names(data));
    SortedCard(r);
    assert (set x | x in r) == (set x | x in Names(data));
    r
  }

  // ---------------------------------------------------------------- printed output

  /** A count as a template literal prints it; `None` is the `undefined` of a missing property. */
  function CountText(n: Option<nat>): string {
    match n
    case Some(k) => Decimal(k)
    case None => "undefined"
  }

  function Rule(): string {
    seq(70, _ => '=')
  }

  /** The header line: the count, then a fixed wording (the extract script reuses the missing
      script's wording). */
  function Header(count: Option<nat>): string {
    "Found " + CountText(count) + " terms that are in 'related' arrays but NOT defined as terms:"
  }

  /** The lines a report prints: header, rule, the names, a blank line and rule, the total. */
  function Render(headerCount: Option<nat>, names: seq<string>): (lines: seq<string>)
    ensures |lines| == |names| + 4
    ensures lines[2..2 + |names|] == names
    ensures lines[0] == Header(headerCount)
    ensures lines[|lines| - 1] == "Total: " + Decimal(|names|) + " terms"
  {
    [Header(headerCount), Rule()] + names + ["\n" + Rule(), "Total: " + Decimal(|names|) + " terms"]
  }

  /** The missing-names report: the header counts the list, as the total does. */
  function MissingReport(data: seq<TermRecord>): seq<string> {
    var r := Missing(data);
    Render(Some(|r|), r)
  }

  lemma MissingHeaderMatchesTotal(data: seq<TermRecord>)
    ensures var lines := MissingReport(data);
      && lines[0] == Header(Some(|Missing(data)|))
      && lines[|lines| - 1] == "Total: " + Decimal(|Missing(data)|) + " terms"
  {
  }

  /** The extract report as written: its header reads the `length` of a `Set`, which has none. */
  function ExtractReportAsWritten(data: seq<TermRecord>): seq<string> {
    Render(None, Extracted(data))
  }

  /** Whatever the data, the header of the report as written shows no count at all. */
  lemma ExtractHeaderSaysUndefined(data: seq<TermRecord>)
    ensures ExtractReportAsWritten(data)[0] == Header(None)
    ensures forall n: nat :: Header(None) != Header(Some(n))
  {
    forall n: nat
      ensures Header(None) != Header(Some(n))
    {
      var d := Decimal(n);
      assert Header(None)[6] == 'u';
      assert Header(Some(n))[6] == d[0];
      assert DigitValue(d[0], 10).Some?;
    }
  }

  /** The report as intended: the header counts the distinct names, as the total does. */
  function ExtractReport(data: seq<TermRecord>): seq<string> {
    var r := Extracted(data);
    Render(Some(|r|), r)
  }

  lemma ExtractHeaderMatchesTotal(data: seq<TermRecord>)
    ensures var lines := ExtractReport(data);
      var n := |set x | x in Names(data)|;
      && lines[0] == Header(Some(n))
      && lines[|lines| - 1] == "Total: " + Decimal(n) + " terms"
  {
  }
}

=== FILE: routes.dfy ===
/** The JSON API of server/routes.ts: each route as a function from the store, the caller's
    session and the request to the new store, the new session and the response. Storage calls
    never fail in the model, so the routes' catch-all 500 responses do not arise. */
module Routes {
  import opened Common
  import opened Schema
  import opened Storage
  import opened Numbers

  /** The session's `userId`, `None` when the session holds none. */
  datatype Session = Session(userId: Option<int>)

  /** The test `!req.session.userId` fails: there is an id and it is not the falsy 0. */
  predicate SignedIn(sess: Session) {
    sess.userId.Some? && sess.userId.value != 0
  }

  /** One request; path segments are the raw `:id` text and bodies the parsed JSON. A query
      parameter that is absent is `None`. */
  datatype Request =
    | PostLogin(body: Value)
    | PostLogout
    | GetMe
    | GetCategoryList
    | GetTermList(category: Option<string>, search: Option<string>)
    | GetTermAt(idText: string)
    | PostTerm(body: Value)
    | PutTerm(idText: string, body: Value)
    | DeleteTermAt(idText: string)

  predicate Mutation(r: Request) {
    r.PostTerm? || r.PutTerm? || r.DeleteTermAt?
  }

  /** The JSON a route sends. A user is sent as id and username only. */
  datatype Body =
    | Message(text: string)
    | UserInfo(id: int, username: string)
    | CategoryList(categories: seq<Category>)
    | TermList(terms: seq<Term>)
    | OneTerm(term: Term)

  datatype Response = Response(status: int, body: Body)

  datatype Outcome = Outcome(store: Store, session: Session, response: Response)

  const InvalidInput := Response(400, Message("Invalid input"))
  const TermNotFound := Response(404, Message("Term not found"))
  const AuthRequired := Response(401, Message("Authentication required"))

  /** `{ ...req.body }`: the own keys of a JSON object. Any other body contributes none of the
      keys the update schema reads. */
  function Spread(body: Value): map<string, Value> {
    if body.VObj? then body.fields else map[]
  }

  /** `parseInt(req.params.id)` as a JavaScript value: a number, or NaN. */
  function PathId(idText: string): Value {
    match ParseInt(idText)
    case Some(n) => VNum(n)
    case None => VNaN
  }

  /** The list `GET /api/terms` sends: a non-empty `search` wins, then a non-empty `category`
      other than `all`, else every term. */
  function TermListFor(s: Store, category: Option<string>, search: Option<string>): (r: seq<Term>)
    ensures Truthy(search) ==> r == SearchTerms(s, search.value)
    ensures !Truthy(search) && Truthy(category) && category.value != "all" ==> r == GetTermsByCategory(s, category.value)
    ensures !Truthy(search) && (!Truthy(category) || category.value == "all") ==> r == s.terms
  {
    if Truthy(search) then SearchTerms(s, search.value)
    else if Truthy(category) && category.value != "all" then GetTermsByCategory(s, category.value)
    else s.terms
  }

  /** `POST /api/auth/login`: 400 on a malformed body; 401 unless the first user with that name
      has exactly that password; otherwise the session remembers the user's id. */
  function Login(s: Store, sess: Session, body: Value): (o: Outcome)
    ensures o.store == s
    ensures o.response.status == 400 <==> ParseLogin(body).None?
    ensures o.response.status == 200 <==>
      && ParseLogin(body).Some?
      && GetUserByUsername(s, ParseLogin(body).value.username).Some?
      && GetUserByUsername(s, ParseLogin(body).value.username).value.password == ParseLogin(body).value.password
    ensures o.response.status == 200 ==>
      var u := GetUserByUsername(s, ParseLogin(body).value.username).value;
      o.session == Session(Some(u.id)) && o.response.body == UserInfo(u.id, u.username)
    ensures o.response.status != 200 ==> o.session == sess
    ensures o.response.status in {200, 400, 401}
  {
    match ParseLogin(body)
    case None => Outcome(s, sess, InvalidInput)
    case Some(req) =>
      var u := GetUserByUsername(s, req.username);
      if u.None? || u.value.password != req.password then
        Outcome(s, sess, Response(401, Message("Invalid credentials")))
      else
        Outcome(s, Session(Some(u.value.id)), Response(200, UserInfo(u.value.id, u.value.username)))
  }

  /** `GET /api/auth/me`: 401 without a session user, 404 when the id names no user. */
  function Me(s: Store, sess: Session): (r: Response)
    ensures !SignedIn(sess) ==> r.status == 401
    ensures SignedIn(sess) && GetUser(s, sess.userId.value).None? ==> r.status == 404
    ensures r.status == 200 <==> SignedIn(sess) && GetUser(s, sess.userId.value).Some?
    ensures r.status == 200 ==> r.body == UserInfo(sess.userId.value, GetUser(s, sess.userId.value).value.username)
  {
    if !SignedIn(sess) then Response(401, Message("Not authenticated"))
    else match GetUser(s, sess.userId.value)
      case None => Response(404, Message("User not found"))
      case Some(u) => Response(200, UserInfo(u.id, u.username))
  }

  /** `GET /api/terms/:id`: the stored term, or 404 (always 404 when the id is not a number). */
  function ReadTerm(s: Store, idText: string): (r: Response)
    ensures r.status == 200 <==> ParseInt(idText).Some? && GetTerm(s, ParseInt(idText).value).Some?
    ensures r.status == 200 ==> r.body == OneTerm(GetTerm(s, ParseInt(idText).value).value)
    ensures r.status != 200 ==> r == TermNotFound
  {
    match ParseInt(idText)
    case None => TermNotFound
    case Some(id) =>
      match GetTerm(s, id)
      case None => TermNotFound
      case Some(t) => Response(200, OneTerm(t))
  }

  /** `POST /api/terms` past the sign-in check: 400 on a body the insert schema rejects,
      otherwise 201 with the stored term. */
  function Create(s: Store, body: Value): (o: (Store, Response))
    ensures o.1.status == 201 <==> ParseInsertTerm(body).Some?
    ensures o.1.status != 201 ==> o == (s, InvalidInput)
    ensures o.1.status == 201 ==> var c := CreateTerm(s, ParseInsertTerm(body).value); o == (c.0, Response(201, OneTerm(c.1)))
  {
    match ParseInsertTerm(body)
    case None => (s, InvalidInput)
    case Some(it) =>
      var c := CreateTerm(s, it);
      (c.0, Response(201, OneTerm(c.1)))
  }

  /** The object `updateTermSchema` is given: the body's keys, then `id` from the path. */
  function UpdateBody(idText: string, body: Value): (r: Value)
    ensures r.VObj? && "id" in r.fields && r.fields["id"] == PathId(idText)
    ensures forall k :: k in Spread(body) && k != "id" ==> k in r.fields && r.fields[k] == Spread(body)[k]
  {
    VObj(Spread(body)["id" := PathId(idText)])
  }

  /** `PUT /api/terms/:id` past the sign-in check: 400 when the merged body fails the update
      schema (so also when the id is not a number), 404 when no term has the id. */
  function Update(s: Store, idText: string, body: Value): (o: (Store, Response))
    ensures ParseUpdateTerm(UpdateBody(idText, body)).None? ==> o == (s, InvalidInput)
    ensures ParseInt(idText).None? ==> o == (s, InvalidInput)
    ensures o.1.status == 200 <==>
      ParseUpdateTerm(UpdateBody(idText, body)).Some? && GetTerm(s, ParseInt(idText).value).Some?
    ensures o.1.status == 200 ==>
      var u := ParseUpdateTerm(UpdateBody(idText, body)).value;
      u.id == ParseInt(idText).value && o == (Storage.UpdateTerm(s, u).0, Response(200, OneTerm(Merge(GetTerm(s, u.id).value, u))))
    ensures o.1.status != 200 ==> o.0 == s && o.1 in {InvalidInput, TermNotFound}
  {
    match ParseUpdateTerm(UpdateBody(idText, body))
    case None => (s, InvalidInput)
    case Some(u) =>
      var res := Storage.UpdateTerm(s, u);
      match res.1
      case None => (s, TermNotFound)
      case Some(t) => (res.0, Response(200, OneTerm(t)))
  }

  /** `DELETE /api/terms/:id` past the sign-in check: 404 when no term has the id. */
  function Delete(s: Store, idText: string): (o: (Store, Response))
    ensures o.1.status == 200 <==> ParseInt(idText).Some? && GetTerm(s, ParseInt(idText).value).Some?
    ensures o.1.status == 200 ==> o.0 == DeleteTerm(s, ParseInt(idText).value).0
    ensures o.1.status != 200 ==> o == (s, TermNotFound)
  {
    match ParseInt(idText)
    case None => (s, TermNotFound)
    case Some(id) =>
      var res := DeleteTerm(s, id);
      if res.1 then (res.0, Response(200, Message("Term deleted successfully"))) else (s, TermNotFound)
  }

  /** `requireAuth` in front of a mutating route. */
  function Guarded(s: Store, sess: Session, o: (Store, Response)): Outcome {
    if !SignedIn(sess) then Outcome(s, sess, AuthRequired)
    else Outcome(o.0, sess, o.1)
  }

  /** Dispatches one request. */
  function Handle(s: Store, sess: Session, req: Request): Outcome {
    match req
    case PostLogin(body) => Login(s, sess, body)
    case PostLogout => Outcome(s, Session(None), Response(200, Message("Logged out successfully")))
    case GetMe => Outcome(s, sess, Me(s, sess))
    case GetCategoryList => Outcome(s, sess, Response(200, CategoryList(s.categories)))
    case GetTermList(category, search) => Outcome(s, sess, Response(200, TermList(TermListFor(s, category, search))))
    case GetTermAt(idText) => Outcome(s, sess, ReadTerm(s, idText))
    case PostTerm(body) => Guarded(s, sess, if SignedIn(sess) then Create(s, body) else (s, InvalidInput))
    case PutTerm(idText, body) => Guarded(s, sess, if SignedIn(sess) then Update(s, idText, body) else (s, InvalidInput))
    case DeleteTermAt(idText) => Guarded(s, sess, if SignedIn(sess) then Delete(s, idText) else (s, InvalidInput))
  }

  /** What every request keeps: reads never change the store, a failure changes neither store
      nor session, only login and logout touch the session, and the store stays valid. */
  lemma HandleKeeps(s: Store, sess: Session, req: Request)
    ensures var o := Handle(s, sess, req);
      && (Valid(s) ==> Valid(o.store))
      && (!Mutation(req) ==> o.store == s)
      && (o.response.status !in {200, 201} ==> o.store == s && o.session == sess)
      && (!req.PostLogin? && !req.PostLogout? ==> o.session == sess)
  {
  }

  /** A mutation without a signed-in session is refused with 401 and changes nothing. */
  lemma MutationNeedsSession(s: Store, sess: Session, req: Request)
    requires Mutation(req) && !SignedIn(sess)
    ensures Handle(s, sess, req) == Outcome(s, sess, AuthRequired)
  {
  }

  /** The `category=all` of the client means no category filter. */
  lemma CategoryAllIsNoFilter(s: Store)
    ensures TermListFor(s, Some("all"), None) == TermListFor(s, None, None) == s.terms
  {
  }

  /** A `search` makes the `category` parameter irrelevant. */
  lemma SearchOverridesCategory(s: Store, category: Option<string>, search: string)
    requires |search| > 0
    ensures TermListFor(s, category, Some(search)) == TermListFor(s, None, Some(search))
  {
  }

  /** A term created through the API can be read back at the URL the client builds from its id. */
  lemma CreateThenRead(s: Store, sess: Session, body: Value)
    requires Valid(s) && SignedIn(sess) && ParseInsertTerm(body).Some?
    ensures var o := Handle(s, sess, PostTerm(body));
      && o.response.status == 201
      && o.response.body.OneTerm?
      && var t := o.response.body.term;
         t.id >= 1 && Handle(o.store, sess, GetTermAt(Decimal(t.id))).response == Response(200, OneTerm(t))
  {
    var c := CreateTerm(s, ParseInsertTerm(body).value);
    PostIsGuardedCreate(s, sess, body);
    CreatedIsReadable(s, ParseInsertTerm(body).value);
    GetIsReadTerm(c.0, sess, Decimal(c.1.id));
  }

  lemma CreatedIsReadable(s: Store, it: InsertTerm)
    requires Valid(s)
    ensures var c := CreateTerm(s, it);
      c.1.id >= 1 && ReadTerm(c.0, Decimal(c.1.id)) == Response(200, OneTerm(c.1))
  {
    var c := CreateTerm(s, it);
    var t := c.1;
    assert t.id >= 1 && GetTerm(c.0, t.id) == Some(t);
    assert ParseInt(Decimal(t.id)) == Some(t.id) by {
      ParseIntDecimal(t.id, "");
      assert Decimal(t.id) + "" == Decimal(t.id);
    }
  }

  lemma PostIsGuardedCreate(s: Store, sess: Session, body: Value)
    ensures Handle(s, sess, PostTerm(body)) == Guarded(s, sess, if SignedIn(sess) then Create(s, body) else (s, InvalidInput))
  {
  }

  lemma GetIsReadTerm(s: Store, sess: Session, idText: string)
    ensures Handle(s, sess, GetTermAt(idText)) == Outcome(s, sess, ReadTerm(s, idText))
  {
  }

  /** After a successful delete, reading the same URL gives 404 and a second delete gives 404. */
  lemma DeleteThenRead(s: Store, sess: Session, idText: string)
    requires SignedIn(sess)
    requires Handle(s, sess, DeleteTermAt(idText)).response.status == 200
    ensures var s1 := Handle(s, sess, DeleteTermAt(idText)).store;
      && Handle(s1, sess, GetTermAt(idText)).response == TermNotFound
      && Handle(s1, sess, DeleteTermAt(idText)).response == TermNotFound
  {
    DeleteIsGuardedDelete(s, sess, idText);
    var s1 := Delete(s, idText).0;
    DeletedIsGone(s, idText);
    GetIsReadTerm(s1, sess, idText);
    DeleteIsGuardedDelete(s1, sess, idText);
  }

  lemma DeletedIsGone(s: Store, idText: string)
    requires Delete(s, idText).1.status == 200
    ensures var s1 := Delete(s, idText).0;
      ReadTerm(s1, idText) == TermNotFound && Delete(s1, idText).1 == TermNotFound
  {
    var id := ParseInt(idText).value;
    assert GetTerm(Delete(s, idText).0, id).None?;
  }

  lemma DeleteIsGuardedDelete(s: Store, sess: Session, idText: string)
    ensures Handle(s, sess, DeleteTermAt(idText)) == Guarded(s, sess, if SignedIn(sess) then Delete(s, idText) else (s, InvalidInput))
  {
  }

  /** An `id` inside a PUT body is ignored: the path's id always wins. */
  lemma PutIgnoresBodyId(s: Store, sess: Session, idText: string, f: map<string, Value>, v: Value)
    ensures Handle(s, sess, PutTerm(idText, VObj(f["id" := v]))) == Handle(s, sess, PutTerm(idText, VObj(f)))
  {
    UpdateIgnoresBodyId(s, idText, f, v);
    PutIsGuardedUpdate(s, sess, idText, VObj(f["id" := v]));
    PutIsGuardedUpdate(s, sess, idText, VObj(f));
  }

  lemma UpdateIgnoresBodyId(s: Store, idText: string, f: map<string, Value>, v: Value)
    ensures Update(s, idText, VObj(f["id" := v])) == Update(s, idText, VObj(f))
  {
    assert f["id" := v]["id" := PathId(idText)] == f["id" := PathId(idText)];
    assert UpdateBody(idText, VObj(f["id" := v])) == UpdateBody(idText, VObj(f));
  }

  lemma PutIsGuardedUpdate(s: Store, sess: Session, idText: string, body: Value)
    ensures Handle(s, sess, PutTerm(idText, body)) == Guarded(s, sess, if SignedIn(sess) then Update(s, idText, body) else (s, InvalidInput))
  {
  }

  /** A PUT to a path that is not a number is a validation error, not a missing term. */
  lemma PutNaNIsInvalid(s: Store, sess: Session, idText: string, body: Value)
    requires SignedIn(sess) && ParseInt(idText).None?
    ensures Handle(s, sess, PutTerm(idText, body)).response == InvalidInput
  {
  }

  /** Logging in as a stored user with the right password makes `me` answer with that user. */
  lemma LoginThenMe(s: Store, sess: Session, username: string, password: string)
    requires Valid(s) && |username| >= 1 && |password| >= 1
    requires GetUserByUsername(s, username).Some? && GetUserByUsername(s, username).value.password == password
    ensures var o := Handle(s, sess, PostLogin(VObj(map["username" := VStr(username), "password" := VStr(password)])));
      && o.response.status == 200
      && Handle(o.store, o.session, GetMe).response == Response(200, UserInfo(GetUserByUsername(s, username).value.id, username))
  {
    var body := VObj(map["username" := VStr(username), "password" := VStr(password)]);
    LoginRoundTrip(username, password);
    LoginIsLogin(s, sess, body);
    var u := GetUserByUsername(s, username).value;
    SignedInUserFound(s, u);
    MeIsMe(s, Session(Some(u.id)));
  }

  /** A stored user's id finds that user. */
  lemma SignedInUserFound(s: Store, u: User)
    requires Valid(s) && u in s.users
    ensures GetUser(s, u.id) == Some(u)
  {
    var k :| 0 <= k < |s.users| && s.users[k] == u;
    assert forall j :: 0 <= j < |s.users| && j != k ==> s.users[j].id != u.id;
  }

  lemma LoginIsLogin(s: Store, sess: Session, body: Value)
    ensures Handle(s, sess, PostLogin(body)) == Login(s, sess, body)
  {
  }

  lemma MeIsMe(s: Store, sess: Session)
    ensures Handle(s, sess, GetMe) == Outcome(s, sess, Me(s, sess))
  {
  }

  /** After start-up the built-in admin account can sign in, and nobody else can. */
  lemma AdminLogin(categoriesFile: Option<seq<CategoryRecord>>, termsFile: Option<seq<TermRecord>>, sess: Session)
    ensures var s := Init(categoriesFile, termsFile);
      var o := Handle(s, sess, PostLogin(VObj(map["username" := VStr("admin"), "password" := VStr("admin123")])));
      o.response == Response(200, UserInfo(1, "admin")) && o.session == Session(Some(1))
  {
    InitAdmin(categoriesFile, termsFile);
    LoginRoundTrip("admin", "admin123");
  }

  /** Signing out ends the session: every mutation afterwards is refused. */
  lemma LogoutThenMutate(s: Store, sess: Session, req: Request)
    requires Mutation(req)
    ensures var o := Handle(s, sess, PostLogout);
      Handle(o.store, o.session, req).response.status == 401
  {
  }
}

=== FILE: schema.dfy ===
/** The record shapes of the shared schema and the validation its zod schemas perform on
    a request body: `insertTermSchema`, `updateTermSchema` and `loginSchema`. */
module Schema {
  import opened Common

  /** A JavaScript value as `JSON.parse` produces it, plus the NaN that `parseInt` yields for
      a non-numeric path segment. Numbers are modelled by integers. */
  datatype Value =
    | VNull
    | VBool(b: bool)
    | VNum(n: int)
    | VNaN
    | VStr(s: string)
    | VArr(items: seq<Value>)
    | VObj(fields: map<string, Value>)

  datatype User = User(id: int, username: string, password: string)

  /** A category; `icon` is the optional extra field the client reads. */
  datatype Category = Category(id: int, name: string, description: string, icon: Option<string>)

  /** A stored term. `None` in an array field is the source's `null`. */
  datatype Term = Term(
    id: int,
    term: string,
    category: string,
    aliases: Option<seq<string>>,
    definition: string,
    related: Option<seq<string>>,
    tags: Option<seq<string>>,
    references: Option<seq<string>>,
    learningpaths: Option<map<string, int>>)

  /** A term as it appears in the `terms.json` data file; the file normally carries no `id`.
      `None` stands for both an absent `id` and a stored `"id": null`. */
  datatype TermRecord = TermRecord(
    id: Option<int>,
    term: string,
    category: string,
    aliases: Option<seq<string>>,
    definition: string,
    related: Option<seq<string>>,
    tags: Option<seq<string>>,
    references: Option<seq<string>>,
    learningpaths: Option<map<string, int>>)

  /** A category as it appears in the `categories.json` data file; `None` stands for both an
      absent `id` and a stored `"id": null`. */
  datatype CategoryRecord = CategoryRecord(id: Option<int>, name: string, description: string, icon: Option<string>)

  /** A validated optional, nullable string-array field: absent, `null`, or a list of strings. */
  datatype ArrayField = Missing | Null | Strings(items: seq<string>)

  datatype InsertTerm = InsertTerm(
    term: string,
    category: string,
    aliases: ArrayField,
    definition: string,
    related: ArrayField,
    tags: ArrayField,
    references: ArrayField)

  /** A validated partial update: `None` string fields and `Missing` array fields were not supplied. */
  datatype UpdateTerm = UpdateTerm(
    id: int,
    term: Option<string>,
    category: Option<string>,
    aliases: ArrayField,
    definition: Option<string>,
    related: ArrayField,
    tags: ArrayField,
    references: ArrayField)

  datatype InsertUser = InsertUser(username: string, password: string)

  datatype InsertCategory = InsertCategory(name: string, description: string)

  datatype LoginRequest = LoginRequest(username: string, password: string)

  /** The seven keys `insertTermSchema` picks from the table; `id` and `learningpaths` are not among them. */
  const InsertKeys: set<string> := {"term", "category", "aliases", "definition", "related", "tags", "references"}

  /** The `null` of an array field the store keeps: a missing or `null` field is stored as `null`. */
  function OrNull(f: ArrayField): Option<seq<string>> {
    if f.Strings? then Some(f.items) else None
  }

  predicate IsStringValue(v: Value) {
    v.VStr?
  }

  predicate AllStrings(vs: seq<Value>) {
    forall i :: 0 <= i < |vs| ==> IsStringValue(vs[i])
  }

  function StringsOf(vs: seq<Value>): seq<string>
    requires AllStrings(vs)
  {
    seq(|vs|, i requires 0 <= i < |vs| => vs[i].s)
  }

  function ValuesOf(xs: seq<string>): (r: seq<Value>)
    ensures AllStrings(r) && StringsOf(r) == xs
  {
    seq(|xs|, i requires 0 <= i < |xs| => VStr(xs[i]))
  }

  /** `z.string()` on a required key. */
  function StringField(f: map<string, Value>, k: string): Option<string> {
    if k in f && f[k].VStr? then Some(f[k].s) else None
  }

  /** `z.string().optional()`: `Some(None)` when absent, `None` on a type error. */
  function OptStringField(f: map<string, Value>, k: string): Option<Option<string>> {
    if k !in f then Some(None)
    else if f[k].VStr? then Some(Some(f[k].s))
    else None
  }

  /** `z.array(z.string()).nullable().optional()`: `None` on a type error. */
  function ArrayFieldOf(f: map<string, Value>, k: string): Option<ArrayField> {
    if k !in f then Some(Missing)
    else match f[k]
      case VNull => Some(Null)
      case VArr(vs) => if AllStrings(vs) then Some(Strings(StringsOf(vs))) else None
      case _ => None
  }

  /** What each key must hold for the insert schema to accept it. */
  predicate InsertFieldsValid(f: map<string, Value>) {
    && StringField(f, "term").Some?
    && StringField(f, "category").Some?
    && StringField(f, "definition").Some?
    && ArrayFieldOf(f, "aliases").Some?
    && ArrayFieldOf(f, "related").Some?
    && ArrayFieldOf(f, "tags").Some?
    && ArrayFieldOf(f, "references").Some?
  }

  /** `insertTermSchema.parse`: `None` is the ZodError. The three text fields are required strings
      (the empty string is accepted), the four list fields optional nullable string arrays, and
      every other key is stripped. */
  function ParseInsertTerm(body: Value): (r: Option<InsertTerm>)
    ensures r.Some? <==> body.VObj? && InsertFieldsValid(body.fields)
    ensures r.Some? ==>
      && VStr(r.value.term) == body.fields["term"]
      && VStr(r.value.category) == body.fields["category"]
      && VStr(r.value.definition) == body.fields["definition"]
      && Some(r.value.aliases) == ArrayFieldOf(body.fields, "aliases")
      && Some(r.value.related) == ArrayFieldOf(body.fields, "related")
      && Some(r.value.tags) == ArrayFieldOf(body.fields, "tags")
      && Some(r.value.references) == ArrayFieldOf(body.fields, "references")
  {
    if !body.VObj? || !InsertFieldsValid(body.fields) then None
    else
      var f := body.fields;
      Some(InsertTerm(
        StringField(f, "term").value, StringField(f, "category").value,
        ArrayFieldOf(f, "aliases").value, StringField(f, "definition").value,
        ArrayFieldOf(f, "related").value, ArrayFieldOf(f, "tags").value,
        ArrayFieldOf(f, "references").value))
  }

  predicate UpdateFieldsValid(f: map<string, Value>) {
    && "id" in f && f["id"].VNum?
    && OptStringField(f, "term").Some?
    && OptStringField(f, "category").Some?
    && OptStringField(f, "definition").Some?
    && ArrayFieldOf(f, "aliases").Some?
    && ArrayFieldOf(f, "related").Some?
    && ArrayFieldOf(f, "tags").Some?
    && ArrayFieldOf(f, "references").Some?
  }

  /** `updateTermSchema.parse`: every insert field becomes optional and a numeric `id` is required
      (`z.number()` rejects NaN). */
  function ParseUpdateTerm(body: Value): (r: Option<UpdateTerm>)
    ensures r.Some? <==> body.VObj? && UpdateFieldsValid(body.fields)
    ensures r.Some? ==>
      && VNum(r.value.id) == body.fields["id"]
      && Some(r.value.term) == OptStringField(body.fields, "term")
      && Some(r.value.category) == OptStringField(body.fields, "category")
      && Some(r.value.definition) == OptStringField(body.fields, "definition")
      && Some(r.value.aliases) == ArrayFieldOf(body.fields, "aliases")
      && Some(r.value.related) == ArrayFieldOf(body.fields, "related")
      && Some(r.value.tags) == ArrayFieldOf(body.fields, "tags")
      && Some(r.value.references) == ArrayFieldOf(body.fields, "references")
  {
    if !body.VObj? || !UpdateFieldsValid(body.fields) then None
    else
      var f := body.fields;
      Some(UpdateTerm(
        f["id"].n,
        OptStringField(f, "term").value, OptStringField(f, "category").value,
        ArrayFieldOf(f, "aliases").value, OptStringField(f, "definition").value,
        ArrayFieldOf(f, "related").value, ArrayFieldOf(f, "tags").value,
        ArrayFieldOf(f, "references").value))
  }

  /** `loginSchema.parse`: both fields are strings of length at least one. */
  function ParseLogin(body: Value): (r: Option<LoginRequest>)
    ensures r.Some? <==>
      && body.VObj?
      && StringField(body.fields, "username").Some? && |body.fields["username"].s| >= 1
      && StringField(body.fields, "password").Some? && |body.fields["password"].s| >= 1
    ensures r.Some? ==>
      VStr(r.value.username) == body.fields["username"] && VStr(r.value.password) == body.fields["password"]
  {
    if !body.VObj? then None
    else
      var u := StringField(body.fields, "username");
      var p := StringField(body.fields, "password");
      if u.Some? && |u.value| >= 1 && p.Some? && |p.value| >= 1 then Some(LoginRequest(u.value, p.value))
      else None
  }

  /** Keys outside the seven insert keys, `id` and `learningpaths` among them, never change
      what the insert schema accepts or produces. */
  lemma InsertIgnoresOtherKeys(f: map<string, Value>, k: string, v: Value)
    requires k !in InsertKeys
    ensures ParseInsertTerm(VObj(f[k := v])) == ParseInsertTerm(VObj(f))
  {
    var g := f[k := v];
    assert forall key :: key in InsertKeys ==> (key in g <==> key in f) && (key in f ==> g[key] == f[key]);
  }

  /** Each of the three text fields is required. */
  lemma InsertRequiresTextFields(f: map<string, Value>, k: string)
    requires k in {"term", "category", "definition"}
    ensures ParseInsertTerm(VObj(f - {k})) == None
  {
  }

  /** Each of the four list fields may be left out. */
  lemma InsertListFieldsOptional(f: map<string, Value>, k: string)
    requires k in {"aliases", "related", "tags", "references"}
    requires ParseInsertTerm(VObj(f)).Some?
    ensures ParseInsertTerm(VObj(f - {k})).Some?
  {
    var g := f - {k};
    assert forall key :: key in g ==> key in f && g[key] == f[key];
    assert ArrayFieldOf(g, k) == Some(Missing);
  }

  /** The update schema insists on a numeric id, whatever else the body holds. */
  lemma UpdateRequiresNumericId(f: map<string, Value>)
    requires "id" !in f || !f["id"].VNum?
    ensures ParseUpdateTerm(VObj(f)) == None
  {
  }

  /** A body with only an id is a valid update that changes no field. */
  lemma UpdateIdOnly(id: int)
    ensures ParseUpdateTerm(VObj(map["id" := VNum(id)]))
      == Some(UpdateTerm(id, None, None, Missing, None, Missing, Missing, Missing))
  {
  }

  /** Adds an array field to a JSON object the way `JSON.stringify` writes it: a missing
      field is left out. */
  function WithArray(m: map<string, Value>, k: string, a: ArrayField): (r: map<string, Value>)
    ensures ArrayFieldOf(r, k) == Some(a)
  {
    match a
    case Missing => m - {k}
    case Null => m[k := VNull]
    case Strings(xs) =>
      var r := m[k := VArr(ValuesOf(xs))];
      assert r[k] == VArr(ValuesOf(xs));
      r
  }

  /** Adds an optional string field to a JSON object; an absent field is left out. */
  function WithString(m: map<string, Value>, k: string, s: Option<string>): (r: map<string, Value>)
    ensures OptStringField(r, k) == Some(s)
  {
    if s.Some? then m[k := VStr(s.value)] else m - {k}
  }

  /** Adding one field leaves every other key as it was. */
  lemma WithArrayFrame(m: map<string, Value>, k: string, a: ArrayField, k': string)
    requires k' != k
    ensures var r := WithArray(m, k, a); (k' in r <==> k' in m) && (k' in m ==> r[k'] == m[k'])
  {
  }

  lemma WithStringFrame(m: map<string, Value>, k: string, s: Option<string>, k': string)
    requires k' != k
    ensures var r := WithString(m, k, s); (k' in r <==> k' in m) && (k' in m ==> r[k'] == m[k'])
  {
  }

  /** The key `k` holds the same thing in both objects, or is missing from both. */
  predicate Agree(r: map<string, Value>, m: map<string, Value>, k: string) {
    (k in r <==> k in m) && (k in m ==> r[k] == m[k])
  }

  /** Writes the four list fields, in the order the request types declare them. */
  function WithArrays(m: map<string, Value>, aliases: ArrayField, related: ArrayField, tags: ArrayField,
                      references: ArrayField): map<string, Value> {
    WithArray(WithArray(WithArray(WithArray(m, "aliases", aliases), "related", related), "tags", tags),
      "references", references)
  }

  /** The four list fields read back as written. */
  lemma WithArraysFields(m: map<string, Value>, aliases: ArrayField, related: ArrayField, tags: ArrayField,
                         references: ArrayField)
    ensures var f := WithArrays(m, aliases, related, tags, references);
      && ArrayFieldOf(f, "aliases") == Some(aliases)
      && ArrayFieldOf(f, "related") == Some(related)
      && ArrayFieldOf(f, "tags") == Some(tags)
      && ArrayFieldOf(f, "references") == Some(references)
  {
    var m1 := WithArray(m, "aliases", aliases);
    var m2 := WithArray(m1, "related", related);
    var m3 := WithArray(m2, "tags", tags);
    WithArrayFrame(m1, "related", related, "aliases");
    WithArrayFrame(m2, "tags", tags, "aliases");
    WithArrayFrame(m3, "references", references, "aliases");
    WithArrayFrame(m2, "tags", tags, "related");
    WithArrayFrame(m3, "references", references, "related");
    WithArrayFrame(m3, "references", references, "tags");
  }

  /** Writing the list fields leaves every other key as it was. */
  lemma WithArraysFrame(m: map<string, Value>, aliases: ArrayField, related: ArrayField, tags: ArrayField,
                        references: ArrayField, k: string)
    requires k != "aliases" && k != "related" && k != "tags" && k != "references"
    ensures Agree(WithArrays(m, aliases, related, tags, references), m, k)
  {
    var m1 := WithArray(m, "aliases", aliases);
    var m2 := WithArray(m1, "related", related);
    var m3 := WithArray(m2, "tags", tags);
    WithArrayFrame(m, "aliases", aliases, k);
    WithArrayFrame(m1, "related", related, k);
    WithArrayFrame(m2, "tags", tags, k);
    WithArrayFrame(m3, "references", references, k);
  }

  /** The JSON body a client sends for a create request. */
  function EncodeInsert(t: InsertTerm): Value {
    var m0 := map["term" := VStr(t.term), "category" := VStr(t.category), "definition" := VStr(t.definition)];
    VObj(WithArrays(m0, t.aliases, t.related, t.tags, t.references))
  }

  /** The id and the three optional text fields of an update body. */
  function UpdateText(u: UpdateTerm): map<string, Value> {
    WithString(WithString(WithString(map["id" := VNum(u.id)], "term", u.term), "category", u.category),
      "definition", u.definition)
  }

  /** The JSON body of an update request, with the id already merged in. */
  function EncodeUpdate(u: UpdateTerm): Value {
    VObj(WithArrays(UpdateText(u), u.aliases, u.related, u.tags, u.references))
  }

  lemma EncodeInsertText(t: InsertTerm)
    ensures var f := EncodeInsert(t).fields;
      && StringField(f, "term") == Some(t.term)
      && StringField(f, "category") == Some(t.category)
      && StringField(f, "definition") == Some(t.definition)
  {
    var m0 := map["term" := VStr(t.term), "category" := VStr(t.category), "definition" := VStr(t.definition)];
    WithArraysFrame(m0, t.aliases, t.related, t.tags, t.references, "term");
    WithArraysFrame(m0, t.aliases, t.related, t.tags, t.references, "category");
    WithArraysFrame(m0, t.aliases, t.related, t.tags, t.references, "definition");
  }

  lemma EncodeInsertArrays(t: InsertTerm)
    ensures var f := EncodeInsert(t).fields;
      && ArrayFieldOf(f, "aliases") == Some(t.aliases)
      && ArrayFieldOf(f, "related") == Some(t.related)
      && ArrayFieldOf(f, "tags") == Some(t.tags)
      && ArrayFieldOf(f, "references") == Some(t.references)
  {
    var m0 := map["term" := VStr(t.term), "category" := VStr(t.category), "definition" := VStr(t.definition)];
    WithArraysFields(m0, t.aliases, t.related, t.tags, t.references);
  }

  /** Every insert request survives encoding to JSON and validation unchanged. */
  lemma InsertRoundTrip(t: InsertTerm)
    ensures ParseInsertTerm(EncodeInsert(t)) == Some(t)
  {
    EncodeInsertText(t);
    EncodeInsertArrays(t);
  }

  /** The id and the text fields of an update body read back as written. */
  lemma UpdateTextFields(u: UpdateTerm)
    ensures var m := UpdateText(u);
      && "id" in m && m["id"] == VNum(u.id)
      && OptStringField(m, "term") == Some(u.term)
      && OptStringField(m, "category") == Some(u.category)
      && OptStringField(m, "definition") == Some(u.definition)
  {
    var m0 := WithString(map["id" := VNum(u.id)], "term", u.term);
    var m1 := WithString(m0, "category", u.category);
    WithStringFrame(map["id" := VNum(u.id)], "term", u.term, "id");
    WithStringFrame(m0, "category", u.category, "id");
    WithStringFrame(m1, "definition", u.definition, "id");
    WithStringFrame(m0, "category", u.category, "term");
    WithStringFrame(m1, "definition", u.definition, "term");
    WithStringFrame(m1, "definition", u.definition, "category");
  }

  /** Agreeing on a key, two objects read the same optional string there. */
  lemma AgreeOptString(r: map<string, Value>, m: map<string, Value>, k: string)
    requires Agree(r, m, k)
    ensures OptStringField(r, k) == OptStringField(m, k)
  {
  }

  /** Every update request survives encoding to JSON and validation unchanged. */
  lemma UpdateRoundTrip(u: UpdateTerm)
    ensures ParseUpdateTerm(EncodeUpdate(u)) == Some(u)
  {
    var m := UpdateText(u);
    var f := EncodeUpdate(u).fields;
    UpdateTextFields(u);
    WithArraysFields(m, u.aliases, u.related, u.tags, u.references);
    WithArraysFrame(m, u.aliases, u.related, u.tags, u.references, "id");
    WithArraysFrame(m, u.aliases, u.related, u.tags, u.references, "term");
    WithArraysFrame(m, u.aliases, u.related, u.tags, u.references, "category");
    WithArraysFrame(m, u.aliases, u.related, u.tags, u.references, "definition");
    AgreeOptString(f, m, "term");
    AgreeOptString(f, m, "category");
    AgreeOptString(f, m, "definition");
  }

  /** A login body with both fields given is accepted exactly when neither is empty. */
  lemma LoginRoundTrip(username: string, password: string)
    ensures var body := VObj(map["username" := VStr(username), "password" := VStr(password)]);
      ParseLogin(body) == (if |username| >= 1 && |password| >= 1 then Some(LoginRequest(username, password)) else None)
  {
  }

  /** The uniqueness the table declarations promise for category names. */
  predicate UniqueCategoryNames(cs: seq<Category>) {
    forall i, j :: 0 <= i < j < |cs| ==> cs[i].name != cs[j].name
  }

  /** The uniqueness the table declarations promise for usernames. */
  predicate UniqueUsernames(us: seq<User>) {
    forall i, j :: 0 <= i < j < |us| ==> us[i].username != us[j].username
  }
}

=== FILE: seqs.dfy ===
/** `Array.prototype.filter`, `find` and `count`, and the order-preserving subsequence relation
    their results stand in to the input. */
module Seqs {
  import opened Common

  /** `a` is `b` with some elements dropped and the rest kept in order. */
  predicate SubseqOf<T(==)>(a: seq<T>, b: seq<T>)
    decreases |b|
  {
    |a| == 0 || (|b| > 0 && ((a[0] == b[0] && SubseqOf(a[1..], b[1..])) || SubseqOf(a, b[1..])))
  }

  lemma {:induction false} SubseqRefl<T>(a: seq<T>)
    ensures SubseqOf(a, a)
    decreases |a|
  {
    if |a| > 0 {
      SubseqRefl(a[1..]);
    }
  }

  lemma {:induction false} SubseqTrans<T>(a: seq<T>, b: seq<T>, c: seq<T>)
    requires SubseqOf(a, b) && SubseqOf(b, c)
    ensures SubseqOf(a, c)
    decreases |c|, |b|
  {
    if |a| > 0 && |c| > 0 {
      if |b| > 0 && b[0] == c[0] && SubseqOf(b[1..], c[1..]) {
        if a[0] == b[0] && SubseqOf(a[1..], b[1..]) {
          SubseqTrans(a[1..], b[1..], c[1..]);
        } else {
          SubseqTrans(a, b[1..], c[1..]);
        }
      } else {
        SubseqTrans(a, b, c[1..]);
      }
    }
  }

  /** `xs.filter(p)`: the elements satisfying `p`, in their original order. */
  function Filter<T(==)>(xs: seq<T>, p: T -> bool): (r: seq<T>)
    ensures forall i :: 0 <= i < |r| ==> r[i] in xs && p(r[i])
    ensures forall i :: 0 <= i < |xs| && p(xs[i]) ==> xs[i] in r
    ensures SubseqOf(r, xs)
    ensures |r| <= |xs|
    decreases |xs|
  {
    if |xs| == 0 then []
    else
      var rest := Filter(xs[1..], p);
      if p(xs[0]) then [xs[0]] + rest else rest
  }

  /** A filter keeps every passing element as often as it occurs, and no other element. */
  lemma {:induction false} FilterMultiplicity<T>(xs: seq<T>, p: T -> bool)
    ensures forall x :: multiset(Filter(xs, p))[x] == if p(x) then multiset(xs)[x] else 0
    decreases |xs|
  {
    if |xs| > 0 {
      FilterMultiplicity(xs[1..], p);
      assert xs == [xs[0]] + xs[1..];
    }
  }

  /** `if (b) xs = xs.filter(p)`: a filter applied only when `b` holds. */
  function FilterWhen<T(==)>(xs: seq<T>, b: bool, p: T -> bool): seq<T> {
    if b then Filter(xs, p) else xs
  }

  /** Two filters applied one after the other, each only when its condition holds, keep exactly
      the elements that pass both that apply, each as often as it occurs, in order. */
  lemma FilterWhenTwice<T>(xs: seq<T>, b1: bool, p: T -> bool, b2: bool, q: T -> bool)
    ensures var r := FilterWhen(FilterWhen(xs, b1, p), b2, q);
      && (forall x :: x in r <==> x in xs && (b1 ==> p(x)) && (b2 ==> q(x)))
      && SubseqOf(r, xs)
      && (forall x :: multiset(r)[x] == if (b1 ==> p(x)) && (b2 ==> q(x)) then multiset(xs)[x] else 0)
  {
    var m := FilterWhen(xs, b1, p);
    var r := FilterWhen(m, b2, q);
    SubseqRefl(xs);
    SubseqRefl(m);
    if b1 {
      FilterMultiplicity(xs, p);
    }
    if b2 {
      FilterMultiplicity(m, q);
    }
    SubseqTrans(r, m, xs);
  }

  /** Filtering a list with one more element at the end. */
  lemma {:induction false} FilterAppend<T>(xs: seq<T>, x: T, p: T -> bool)
    ensures Filter(xs + [x], p) == Filter(xs, p) + (if p(x) then [x] else [])
    decreases |xs|
  {
    if |xs| > 0 {
      FilterAppend(xs[1..], x, p);
      assert (xs + [x])[1..] == xs[1..] + [x];
    }
  }

  /** A filter keeps everything exactly when every element passes. */
  lemma {:induction false} FilterAll<T>(xs: seq<T>, p: T -> bool)
    requires forall x :: x in xs ==> p(x)
    ensures Filter(xs, p) == xs
    decreases |xs|
  {
    if |xs| > 0 {
      FilterAll(xs[1..], p);
    }
  }

  /** Filtering twice is filtering once by the conjunction. */
  lemma {:induction false} FilterFilter<T>(xs: seq<T>, p: T -> bool, q: T -> bool)
    ensures Filter(Filter(xs, p), q) == Filter(xs, x => p(x) && q(x))
    decreases |xs|
  {
    if |xs| > 0 {
      FilterFilter(xs[1..], p, q);
    }
  }

  /** Filtering by a test that implies `p` after filtering by `p` is filtering by that test. */
  lemma {:induction false} FilterNarrow<T>(xs: seq<T>, p: T -> bool, q: T -> bool)
    requires forall i :: 0 <= i < |xs| && q(xs[i]) ==> p(xs[i])
    ensures Filter(Filter(xs, p), q) == Filter(xs, q)
    decreases |xs|
  {
    if |xs| > 0 {
      FilterNarrow(xs[1..], p, q);
    }
  }

  /** Filters by predicates that agree on every element give the same result. */
  lemma {:induction false} FilterExt<T>(xs: seq<T>, p: T -> bool, q: T -> bool)
    requires forall i :: 0 <= i < |xs| ==> p(xs[i]) == q(xs[i])
    ensures Filter(xs, p) == Filter(xs, q)
    decreases |xs|
  {
    if |xs| > 0 {
      FilterExt(xs[1..], p, q);
    }
  }

  /** A filter that no element passes keeps nothing. */
  lemma {:induction false} FilterNone<T>(xs: seq<T>, p: T -> bool)
    requires forall i :: 0 <= i < |xs| ==> !p(xs[i])
    ensures Filter(xs, p) == []
    decreases |xs|
  {
    if |xs| > 0 {
      FilterNone(xs[1..], p);
    }
  }

  /** Cutting off a front that the filter rejects changes nothing. */
  lemma {:induction false} FilterDropFront<T>(xs: seq<T>, a: nat, p: T -> bool)
    requires a <= |xs|
    requires forall i :: 0 <= i < a ==> !p(xs[i])
    ensures Filter(xs[a..], p) == Filter(xs, p)
    decreases a
  {
    if a == 0 {
      assert xs[a..] == xs;
    } else {
      FilterDropFront(xs[1..], a - 1, p);
      assert xs[1..][a - 1..] == xs[a..];
    }
  }

  /** Cutting off a back that the filter rejects changes nothing. */
  lemma {:induction false} FilterDropBack<T>(xs: seq<T>, b: nat, p: T -> bool)
    requires b <= |xs|
    requires forall i :: b <= i < |xs| ==> !p(xs[i])
    ensures Filter(xs[..b], p) == Filter(xs, p)
    decreases |xs| - b
  {
    if b == |xs| {
      assert xs[..b] == xs;
    } else {
      FilterDropBack(xs, b + 1, p);
      assert xs[..b + 1] == xs[..b] + [xs[b]];
      FilterAppend(xs[..b], xs[b], p);
    }
  }

  /** Cutting off ends that the filter rejects changes nothing. */
  lemma FilterMiddle<T>(xs: seq<T>, a: nat, b: nat, p: T -> bool)
    requires a <= b <= |xs|
    requires forall i :: 0 <= i < |xs| && !(a <= i < b) ==> !p(xs[i])
    ensures Filter(xs[a..b], p) == Filter(xs, p)
  {
    FilterDropBack(xs, b, p);
    FilterDropFront(xs[..b], a, p);
    assert xs[..b][a..] == xs[a..b];
  }

  /** When exactly one of `p` and `q` holds of every element, the two filters share out the list. */
  lemma {:induction false} FilterPartition<T>(xs: seq<T>, p: T -> bool, q: T -> bool)
    requires forall i :: 0 <= i < |xs| ==> p(xs[i]) != q(xs[i])
    ensures |Filter(xs, p)| + |Filter(xs, q)| == |xs|
    decreases |xs|
  {
    if |xs| > 0 {
      FilterPartition(xs[1..], p, q);
    }
  }

  /** Filtering by `p` keeps exactly as many elements as there are positions satisfying `p`. */
  lemma FilterLength<T>(xs: seq<T>, p: T -> bool)
    ensures |Filter(xs, p)| == |Positions(xs, p)|
  {
    FilterLengthFrom(xs, p, 0);
    assert xs[0..] == xs;
    assert Positions(xs, p) == set i | 0 <= i < |xs| && p(xs[i]);
  }

  /** The positions of the elements satisfying `p`. */
  function Positions<T>(xs: seq<T>, p: T -> bool): set<int> {
    set i | 0 <= i < |xs| && p(xs[i])
  }

  lemma {:induction false} FilterLengthFrom<T>(xs: seq<T>, p: T -> bool, k: nat)
    requires k <= |xs|
    ensures |Filter(xs[k..], p)| == |set i | k <= i < |xs| && p(xs[i])|
    decreases |xs| - k
  {
    if k < |xs| {
      FilterLengthFrom(xs, p, k + 1);
      assert xs[k..][1..] == xs[k + 1..];
      var rest := set i | k + 1 <= i < |xs| && p(xs[i]);
      if p(xs[k]) {
        assert (set i | k <= i < |xs| && p(xs[i])) == {k} + rest;
      } else {
        assert (set i | k <= i < |xs| && p(xs[i])) == rest;
      }
    }
  }

  /** The position of the first element satisfying `p`, or `|xs|` when there is none. */
  function FirstIndex<T>(xs: seq<T>, p: T -> bool): (k: nat)
    ensures k <= |xs|
    ensures forall j :: 0 <= j < k ==> !p(xs[j])
    ensures k < |xs| ==> p(xs[k])
    decreases |xs|
  {
    if |xs| == 0 || p(xs[0]) then 0 else 1 + FirstIndex(xs[1..], p)
  }

  /** `xs.find(p)`: the first element satisfying `p`, if any. */
  function Find<T>(xs: seq<T>, p: T -> bool): (r: Option<T>)
    ensures r.None? <==> forall i :: 0 <= i < |xs| ==> !p(xs[i])
    ensures r.Some? ==> p(r.value) && exists k :: 0 <= k < |xs| && xs[k] == r.value && forall j :: 0 <= j < k ==> !p(xs[j])
  {
    var k := FirstIndex(xs, p);
    if k < |xs| then Some(xs[k]) else None
  }

  /** The first matching position is the only position with no match before it. */
  lemma FirstIndexIs<T>(xs: seq<T>, p: T -> bool, k: nat)
    requires k <= |xs|
    requires forall j :: 0 <= j < k ==> !p(xs[j])
    requires k < |xs| ==> p(xs[k])
    ensures FirstIndex(xs, p) == k
  {
  }

  lemma FindCons<T>(x: T, xs: seq<T>, p: T -> bool)
    ensures Find([x] + xs, p) == if p(x) then Some(x) else Find(xs, p)
  {
    assert ([x] + xs)[1..] == xs;
  }

  /** Appending an element changes `find` only when nothing before it matched. */
  lemma FindAppend<T>(xs: seq<T>, y: T, p: T -> bool)
    ensures Find(xs + [y], p) == if Find(xs, p).Some? then Find(xs, p) else if p(y) then Some(y) else None
  {
    var k := FirstIndex(xs, p);
    if k < |xs| || p(y) {
      FirstIndexIs(xs + [y], p, k);
    } else {
      FirstIndexIs(xs + [y], p, k + 1);
    }
  }

  /** Overwriting a position whose old and new elements both fail `p` does not change `find`. */
  lemma FindUpdateMiss<T>(xs: seq<T>, k: nat, y: T, p: T -> bool)
    requires k < |xs| && !p(xs[k]) && !p(y)
    ensures Find(xs[k := y], p) == Find(xs, p)
  {
    var m := FirstIndex(xs, p);
    FirstIndexIs(xs[k := y], p, m);
  }

  /** Overwriting the first match with another match makes the new element the one found. */
  lemma FindUpdateHit<T>(xs: seq<T>, k: nat, y: T, p: T -> bool)
    requires k == FirstIndex(xs, p) && k < |xs| && p(y)
    ensures Find(xs[k := y], p) == Some(y)
  {
    FirstIndexIs(xs[k := y], p, k);
  }

  /** Filtering out only elements `p` rejects does not change what `find` by `p` returns. */
  lemma {:induction false} FindFilterKeeps<T>(xs: seq<T>, p: T -> bool, q: T -> bool)
    requires forall x :: p(x) ==> q(x)
    ensures Find(Filter(xs, q), p) == Find(xs, p)
    decreases |xs|
  {
    if |xs| > 0 {
      FindFilterKeeps(xs[1..], p, q);
      assert xs == [xs[0]] + xs[1..];
      FindCons(xs[0], xs[1..], p);
      if q(xs[0]) {
        FindCons(xs[0], Filter(xs[1..], q), p);
      }
    }
  }
}

=== FILE: sidebar.dfy ===
/** The navigation sidebar: its expand/collapse and mobile state, the selection events it reports
    to the page, the per-category term counts, the learning-path progress summary, and the icon it
    draws for a category. */
module Sidebar {
  import opened Common
  import opened Schema
  import opened Seqs

  // ---------------------------------------------------------------- state and events

  datatype SidebarState = SidebarState(
    mobileOpen: bool,
    categoriesExpanded: bool,
    pathExpanded: bool,
    selectedPath: Option<string>)

  /** On mount: mobile menu closed, both sections open, no learning path chosen. */
  const Initial: SidebarState := SidebarState(false, true, true, None)

  /** A learning path as the sidebar lists it. The list itself comes from a data hook outside this model. */
  datatype LearningPath = LearningPath(id: string, name: string, categories: seq<string>)

  datatype Event =
    | OpenMobile
    | CloseMobile
    | SelectCategory(category: string)
    | ToggleCategories
    | ToggleLearningPath
    | SelectLearningPath(pathId: string)

  /** What the sidebar reports to the page for one event: a category to switch to, and a learning
      path notice (`Some(None)` clears the path) when the page listens for them. */
  datatype Effects = Effects(categoryChange: Option<string>, pathNotice: Option<Option<LearningPath>>)

  const NoEffects: Effects := Effects(None, None)

  function PathById(paths: seq<LearningPath>, id: string): LearningPath -> bool {
    (p: LearningPath) => p.id == id
  }

  /** The sidebar's reaction to one event, given the listed learning paths and whether the page
      passed a learning-path listener. Scrolling is not modelled. */
  function Step(st: SidebarState, ev: Event, paths: seq<LearningPath>, listens: bool): (res: (SidebarState, Effects))
    ensures ev.SelectCategory? ==>
      && res.0 == SidebarState(false, true, false, None)
      && res.1 == Effects(Some(ev.category), if listens then Some(None) else None)
    ensures ev.SelectLearningPath? ==>
      && res.0 == SidebarState(false, false, true, Some(ev.pathId))
      && var p := Find(paths, PathById(paths, ev.pathId));
        (res.1.categoryChange.Some? <==> p.Some? && |p.value.categories| > 0)
        && (res.1.categoryChange.Some? ==> res.1.categoryChange.value == p.value.categories[0])
        && (res.1.pathNotice.Some? <==> res.1.categoryChange.Some? && listens)
        && (res.1.pathNotice.Some? ==> res.1.pathNotice.value == p)
    ensures !ev.SelectCategory? && !ev.SelectLearningPath? ==> res.1 == NoEffects
    ensures ev.OpenMobile? || ev.CloseMobile? ==> res.0 == st.(mobileOpen := ev.OpenMobile?)
  {
    match ev
    case OpenMobile => (st.(mobileOpen := true), NoEffects)
    case CloseMobile => (st.(mobileOpen := false), NoEffects)
    case SelectCategory(c) =>
      (SidebarState(false, true, false, None), Effects(Some(c), if listens then Some(None) else None))
    case ToggleCategories =>
      var expand := !st.categoriesExpanded;
      (st.(categoriesExpanded := expand, pathExpanded := if expand then false else st.pathExpanded), NoEffects)
    case ToggleLearningPath =>
      var expand := !st.pathExpanded;
      (st.(pathExpanded := expand, categoriesExpanded := if expand then false else st.categoriesExpanded), NoEffects)
    case SelectLearningPath(id) =>
      var p := Find(paths, PathById(paths, id));
      var st' := SidebarState(false, false, true, Some(id));
      if p.Some? && |p.value.categories| > 0 then
        (st', Effects(Some(p.value.categories[0]), if listens then Some(p) else None))
      else (st', NoEffects)
  }

  predicate AtMostOneExpanded(st: SidebarState) {
    !(st.categoriesExpanded && st.pathExpanded)
  }

  predicate SectionEvent(ev: Event) {
    !ev.OpenMobile? && !ev.CloseMobile?
  }

  /** Both sections start open, but once any section event has happened at most one of them is,
      and the mobile-menu events keep it that way. */
  lemma StepKeepsOneSection(st: SidebarState, ev: Event, paths: seq<LearningPath>, listens: bool)
    ensures SectionEvent(ev) ==> AtMostOneExpanded(Step(st, ev, paths, listens).0)
    ensures AtMostOneExpanded(st) ==> AtMostOneExpanded(Step(st, ev, paths, listens).0)
  {
  }

  /** Toggling a section twice restores its own flag. */
  lemma ToggleTwice(st: SidebarState, paths: seq<LearningPath>, listens: bool)
    ensures Step(Step(st, ToggleCategories, paths, listens).0, ToggleCategories, paths, listens).0.categoriesExpanded
      == st.categoriesExpanded
    ensures Step(Step(st, ToggleLearningPath, paths, listens).0, ToggleLearningPath, paths, listens).0.pathExpanded
      == st.pathExpanded
  {
  }

  /** Every selection closes the mobile menu. */
  lemma SelectionClosesMobile(st: SidebarState, ev: Event, paths: seq<LearningPath>, listens: bool)
    requires ev.SelectCategory? || ev.SelectLearningPath?
    ensures !Step(st, ev, paths, listens).0.mobileOpen
  {
  }

  /** Choosing a category after a learning path forgets the path. */
  lemma CategoryAfterPathClearsPath(st: SidebarState, id: string, c: string, paths: seq<LearningPath>, listens: bool)
    ensures var st1 := Step(st, SelectLearningPath(id), paths, listens).0;
      && st1.selectedPath == Some(id)
      && Step(st1, SelectCategory(c), paths, listens).0.selectedPath.None?
  {
  }

  // ---------------------------------------------------------------- counts and progress

  function InCategory(name: string): Term -> bool {
    (t: Term) => t.category == name
  }

  /** The positions of the list that hold a term of the category. */
  function CategoryPositions(terms: seq<Term>, name: string): set<int> {
    set i | 0 <= i < |terms| && terms[i].category == name
  }

  /** `getCategoryTermCount`: how many of the listed terms are in the category. */
  function CategoryTermCount(terms: seq<Term>, name: string): (n: nat)
    ensures n == |CategoryPositions(terms, name)|
    ensures n <= |terms|
  {
    var p := InCategory(name);
    FilterLength(terms, p);
    var a := Positions(terms, p);
    var b := CategoryPositions(terms, name);
    assert a == b by {
      forall i ensures i in a <==> i in b {
        if 0 <= i < |terms| {
          assert p(terms[i]) <==> terms[i].category == name;
        }
      }
    }
    |Filter(terms, p)|
  }

  /** The term's position in a learning path, when it has a truthy one (`learningpaths[id]`
      present and not 0). */
  predicate OnPath(t: Term, pathId: string) {
    t.learningpaths.Some? && pathId in t.learningpaths.value && t.learningpaths.value[pathId] != 0
  }

  function OnPathP(pathId: string): Term -> bool {
    (t: Term) => OnPath(t, pathId)
  }

  function Ordered(pathId: string): Term -> bool {
    (t: Term) => OnPath(t, pathId) && t.learningpaths.value[pathId] < 1000
  }

  function Unordered(pathId: string): Term -> bool {
    (t: Term) => OnPath(t, pathId) && t.learningpaths.value[pathId] >= 1000
  }

  datatype Progress = Progress(total: nat, ordered: nat, unordered: nat)

  /** `getLearningPathProgress`: `null` for an empty list or a path no term is on; otherwise how
      many terms are on the path, and how many of those have a position below 1000 and how many at
      or above it. The sort the source applies first does not change any count. A path id that
      names an inherited object property (`constructor`, `toString`) is treated as on no term. */
  function PathProgress(terms: seq<Term>, pathId: string): (r: Option<Progress>)
    ensures r.None? <==> forall i :: 0 <= i < |terms| ==> !OnPath(terms[i], pathId)
    ensures r.Some? ==> r.value.total == r.value.ordered + r.value.unordered
    ensures r.Some? ==> 0 < r.value.total <= |terms|
  {
    if |terms| == 0 then None
    else
      var onPath := Filter(terms, OnPathP(pathId));
      if |onPath| == 0 then None
      else
        var ordered := |Filter(onPath, Ordered(pathId))|;
        var unordered := |Filter(onPath, Unordered(pathId))|;
        assert ordered + unordered == |onPath| by {
          forall i | 0 <= i < |onPath|
            ensures Ordered(pathId)(onPath[i]) != Unordered(pathId)(onPath[i])
          {
            assert OnPathP(pathId)(onPath[i]);
          }
          FilterPartition(onPath, Ordered(pathId), Unordered(pathId));
        }
        Some(Progress(|onPath|, ordered, unordered))
  }

  /** The progress counts, stated by index: `total` is the number of terms on the path, `ordered`
      the number on it at a position below 1000, `unordered` the number at 1000 or above. */
  lemma PathProgressCounts(terms: seq<Term>, pathId: string)
    requires PathProgress(terms, pathId).Some?
    ensures var p := PathProgress(terms, pathId).value;
      && p.total == |set i | 0 <= i < |terms| && OnPath(terms[i], pathId)|
      && p.ordered == |set i | 0 <= i < |terms| && OnPath(terms[i], pathId) && terms[i].learningpaths.value[pathId] < 1000|
      && p.unordered == |set i | 0 <= i < |terms| && OnPath(terms[i], pathId) && terms[i].learningpaths.value[pathId] >= 1000|
  {
    PathTotal(terms, pathId);
    PathOrdered(terms, pathId);
    PathUnordered(terms, pathId);
  }

  lemma PathTotal(terms: seq<Term>, pathId: string)
    ensures |Filter(terms, OnPathP(pathId))| == |set i | 0 <= i < |terms| && OnPath(terms[i], pathId)|
  {
    FilterLength(terms, OnPathP(pathId));
    assert Positions(terms, OnPathP(pathId)) == set i | 0 <= i < |terms| && OnPath(terms[i], pathId);
  }

  lemma PathOrdered(terms: seq<Term>, pathId: string)
    ensures |Filter(Filter(terms, OnPathP(pathId)), Ordered(pathId))|
      == |set i | 0 <= i < |terms| && OnPath(terms[i], pathId) && terms[i].learningpaths.value[pathId] < 1000|
  {
    OnPathCount(terms, pathId, Ordered(pathId));
    assert Positions(terms, Ordered(pathId))
      == set i | 0 <= i < |terms| && OnPath(terms[i], pathId) && terms[i].learningpaths.value[pathId] < 1000;
  }

  lemma PathUnordered(terms: seq<Term>, pathId: string)
    ensures |Filter(Filter(terms, OnPathP(pathId)), Unordered(pathId))|
      == |set i | 0 <= i < |terms| && OnPath(terms[i], pathId) && terms[i].learningpaths.value[pathId] >= 1000|
  {
    OnPathCount(terms, pathId, Unordered(pathId));
    assert Positions(terms, Unordered(pathId))
      == set i | 0 <= i < |terms| && OnPath(terms[i], pathId) && terms[i].learningpaths.value[pathId] >= 1000;
  }

  /** Counting among the terms on the path by a test that implies being on it counts among all. */
  lemma OnPathCount(terms: seq<Term>, pathId: string, q: Term -> bool)
    requires forall t :: q(t) ==> OnPath(t, pathId)
    ensures |Filter(Filter(terms, OnPathP(pathId)), q)| == |Positions(terms, q)|
  {
    FilterNarrow(terms, OnPathP(pathId), q);
    FilterLength(terms, q);
  }

  /** A term listed at position 0 counts as not on the path, because 0 is falsy. */
  lemma PositionZeroNotOnPath(t: Term, pathId: string)
    requires t.learningpaths == Some(map[pathId := 0])
    ensures PathProgress([t], pathId).None?
  {
  }

  // ---------------------------------------------------------------- icons

  /** The icons a category can name, and the folder drawn for anything else. */
  datatype Icon =
    | GraduationCap | Target | Lightbulb | BookOpen | Brain | Layers | Cog | Network | PenTool
    | MessageSquare | Sparkles | Bot | Database | DatabaseZap | Server | Cloud | ShieldCheck | Briefcase
    | FolderOpen

  /** The eighteen names the icon map knows, each the icon's own name. */
  const IconMap: map<string, Icon> := map[
    "GraduationCap" := GraduationCap, "Target" := Target, "Lightbulb" := Lightbulb,
    "BookOpen" := BookOpen, "Brain" := Brain, "Layers" := Layers, "Cog" := Cog,
    "Network" := Network, "PenTool" := PenTool, "MessageSquare" := MessageSquare,
    "Sparkles" := Sparkles, "Bot" := Bot, "Database" := Database, "DatabaseZap" := DatabaseZap,
    "Server" := Server, "Cloud" := Cloud, "ShieldCheck" := ShieldCheck, "Briefcase" := Briefcase]

  function IconName(i: Icon): string {
    match i
    case GraduationCap => "GraduationCap" case Target => "Target" case Lightbulb => "Lightbulb"
    case BookOpen => "BookOpen" case Brain => "Brain" case Layers => "Layers" case Cog => "Cog"
    case Network => "Network" case PenTool => "PenTool" case MessageSquare => "MessageSquare"
    case Sparkles => "Sparkles" case Bot => "Bot" case Database => "Database" case DatabaseZap => "DatabaseZap"
    case Server => "Server" case Cloud => "Cloud" case ShieldCheck => "ShieldCheck" case Briefcase => "Briefcase"
    case FolderOpen => "FolderOpen"
  }

  /** `getIconComponent`: the icon the name maps to, or the folder for a missing or unknown name. */
  function IconFor(name: Option<string>): (r: Icon)
    ensures name.None? ==> r == FolderOpen
    ensures r != FolderOpen ==> name == Some(IconName(r))
  {
    var key := name.GetOr("");
    if key in IconMap then IconMap[key] else FolderOpen
  }

  /** Every icon but the folder is reached from its own name, and only from it. */
  lemma IconNameRoundTrip(i: Icon)
    requires i != FolderOpen
    ensures IconFor(Some(IconName(i))) == i
  {
    assert IconName(i) in IconMap && IconMap[IconName(i)] == i by {
      match i
      case GraduationCap => case Target => case Lightbulb => case BookOpen => case Brain =>
      case Layers => case Cog => case Network => case PenTool => case MessageSquare =>
      case Sparkles => case Bot => case Database => case DatabaseZap => case Server =>
      case Cloud => case ShieldCheck => case Briefcase =>
    }
  }

  /** Names are matched exactly: the folder's own name and a lower-cased icon name give the folder. */
  lemma IconNamesExact()
    ensures IconFor(Some("FolderOpen")) == FolderOpen
    ensures IconFor(Some("brain")) == FolderOpen
    ensures IconFor(Some("")) == FolderOpen
  {
  }
}

=== FILE: similarity.dfy ===
/** The duplicate finder's text comparisons: the normalisation of free text, the Jaccard similarity
    of two texts' word sets, and the exact-name duplicate test. */
module Similarity {
  import opened Text
  import opened Seqs

  // ---------------------------------------------------------------- normalisation

  /** What survives `replace(/[^a-z0-9\s]/g, '')` on lower-cased text. */
  function KeepChar(c: char): bool {
    IsLowerAlnum(c) || IsWs(c)
  }

  function NotWs(c: char): bool {
    !IsWs(c)
  }

  function NotSpace(c: char): bool {
    c != ' '
  }

  /** `replace(/\s+/g, ' ')`: every run of whitespace becomes one space, and every other
      character is kept, in order. */
  function CollapseWs(s: string): (r: string)
    ensures |s| > 0 ==> |r| > 0 && r[0] == (if IsWs(s[0]) then ' ' else s[0])
    ensures forall i :: 0 <= i < |r| ==> r[i] == ' ' || (r[i] in s && !IsWs(r[i]))
    ensures NoDoubleSpace(r)
    ensures Filter(r, NotWs) == Filter(s, NotWs)
    decreases |s|
  {
    if |s| == 0 then ""
    else if IsWs(s[0]) && |s| > 1 && IsWs(s[1]) then CollapseWs(s[1..])
    else
      var rest := CollapseWs(s[1..]);
      var r := [if IsWs(s[0]) then ' ' else s[0]] + rest;
      assert r[1..] == rest;
      r
  }

  predicate NoDoubleSpace(s: string) {
    forall i :: 0 <= i < |s| - 1 ==> !(s[i] == ' ' && s[i + 1] == ' ')
  }

  /** The shape of normalised text: lower-case letters, digits and single inner spaces. */
  predicate Normal(s: string) {
    && (forall i :: 0 <= i < |s| ==> IsLowerAlnum(s[i]) || s[i] == ' ')
    && NoDoubleSpace(s)
    && IsTrimmed(s)
  }

  /** The trimmed text is a run of consecutive characters of the text: its `i`-th character is
      the one after the leading whitespace and `i` more. */
  lemma TrimAt(s: string, i: nat)
    requires i < |Trim(s)|
    ensures LeadingWs(s) + i < |s| && Trim(s)[i] == s[LeadingWs(s) + i]
  {
    TrimBetween(s);
  }

  /** Trimming text made of lower-case letters, digits and single spaces gives normal text. */
  lemma TrimmedIsNormal(c: string)
    requires forall i :: 0 <= i < |c| ==> IsLowerAlnum(c[i]) || c[i] == ' '
    requires NoDoubleSpace(c)
    ensures Normal(Trim(c))
  {
    var r := Trim(c);
    var k := LeadingWs(c);
    forall i | 0 <= i < |r|
      ensures IsLowerAlnum(r[i]) || r[i] == ' '
    {
      TrimAt(c, i);
    }
    forall i | 0 <= i < |r| - 1
      ensures !(r[i] == ' ' && r[i + 1] == ' ')
    {
      TrimAt(c, i);
      TrimAt(c, i + 1);
    }
  }

  /** Collapsing kept characters leaves only lower-case letters, digits and spaces. */
  lemma {:induction false} CollapsedKept(kept: string)
    requires forall i :: 0 <= i < |kept| ==> KeepChar(kept[i])
    ensures forall i :: 0 <= i < |CollapseWs(kept)| ==> IsLowerAlnum(CollapseWs(kept)[i]) || CollapseWs(kept)[i] == ' '
  {
    var c := CollapseWs(kept);
    forall i | 0 <= i < |c|
      ensures IsLowerAlnum(c[i]) || c[i] == ' '
    {
      if c[i] != ' ' {
        var j :| 0 <= j < |kept| && kept[j] == c[i];
      }
    }
  }

  /** `normalizeText`. */
  function NormalizeText(text: string): (r: string)
    ensures Normal(r)
  {
    var kept := Filter(Lower(text), KeepChar);
    CollapsedKept(kept);
    TrimmedIsNormal(CollapseWs(kept));
    Trim(CollapseWs(kept))
  }

  /** Trimming drops only whitespace, so a filter that rejects whitespace sees the same characters. */
  lemma TrimFilter(s: string, p: char -> bool)
    requires forall i :: 0 <= i < |s| && IsWs(s[i]) ==> !p(s[i])
    ensures Filter(Trim(s), p) == Filter(s, p)
  {
    TrimBetween(s);
    if LeadingWs(s) == |s| {
      FilterNone(s, p);
    } else {
      FilterMiddle(s, LeadingWs(s), TrailingWs(s), p);
    }
  }

  /** Normalising keeps every letter and digit of the lower-cased text, in order, and nothing
      else but single spaces. */
  lemma NormalizeKeepsWords(text: string)
    ensures Filter(NormalizeText(text), NotSpace) == Filter(Lower(text), IsLowerAlnum)
  {
    var kept := Filter(Lower(text), KeepChar);
    var c := CollapseWs(kept);
    CollapsedKept(kept);
    TrimFilter(c, NotSpace);
    FilterExt(c, NotSpace, NotWs);
    FilterExt(kept, NotWs, IsLowerAlnum);
    FilterNarrow(Lower(text), KeepChar, IsLowerAlnum);
  }

  /** Collapsing leaves a string alone when its only whitespace is single spaces. */
  lemma {:induction false} CollapseOfNormal(s: string)
    requires forall i :: 0 <= i < |s| ==> IsLowerAlnum(s[i]) || s[i] == ' '
    requires NoDoubleSpace(s)
    ensures CollapseWs(s) == s
    decreases |s|
  {
    if |s| > 0 {
      CollapseOfNormal(s[1..]);
      assert [s[0]] + s[1..] == s;
    }
  }

  /** Lower-casing and filtering leave normalised text alone. */
  lemma {:induction false} KeptOfNormal(n: string)
    requires Normal(n)
    ensures Filter(Lower(n), KeepChar) == n
  {
    assert Lower(n) == n by {
      forall i | 0 <= i < |n|
        ensures Lower(n)[i] == n[i]
      {
        assert IsLowerAlnum(n[i]) || n[i] == ' ';
      }
    }
    forall x | x in n
      ensures KeepChar(x)
    {
      var i :| 0 <= i < |n| && n[i] == x;
    }
    FilterAll(n, KeepChar);
  }

  /** Normalising normalised text changes nothing. */
  lemma {:induction false} NormalizeIdempotent(text: string)
    ensures NormalizeText(NormalizeText(text)) == NormalizeText(text)
  {
    var n := NormalizeText(text);
    KeptOfNormal(n);
    CollapseOfNormal(n);
    TrimOfTrimmed(n);
    assert NormalizeText(n) == Trim(CollapseWs(Filter(Lower(n), KeepChar)));
  }

  // ---------------------------------------------------------------- similarity

  /** The set of words of the normalised text, split on single spaces. Empty text has the one
      word `""`, so the set is never empty. */
  function Words(text: string): (w: set<string>)
    ensures |w| > 0
  {
    var parts := Split(NormalizeText(text), ' ');
    var w := set x | x in parts;
    assert parts[0] in w;
    w
  }

  lemma SubsetCard<T>(a: set<T>, b: set<T>)
    requires a <= b
    ensures |a| <= |b|
    ensures |a| == |b| ==> a == b
  {
    assert b == a + (b - a);
    if |a| == |b| {
      assert |b - a| == 0;
    }
  }

  /** A share of a positive whole lies in [0, 1] and is 1 exactly when it is the whole. */
  lemma Share(part: nat, whole: nat)
    requires 0 < whole && part <= whole
    ensures 0.0 <= part as real / whole as real <= 1.0
    ensures part as real / whole as real == 1.0 <==> part == whole
  {
    var r := part as real / whole as real;
    var w := whole as real;
    assert r * w == part as real;
    if r < 0.0 {
      ScaleBelow(r, 0.0, w);
    }
    if r > 1.0 {
      ScaleBelow(1.0, r, w);
    }
  }

  lemma ScaleBelow(a: real, b: real, w: real)
    requires a < b && 0.0 < w
    ensures a * w < b * w
  {
  }

  /** The Jaccard index of two sets, the first non-empty, lies in [0, 1] and is 1 exactly when
      the sets are equal. */
  lemma JaccardRange<T>(w1: set<T>, w2: set<T>)
    requires |w1| > 0
    ensures |w1 + w2| > 0
    ensures 0.0 <= |w1 * w2| as real / |w1 + w2| as real <= 1.0
    ensures |w1 * w2| as real / |w1 + w2| as real == 1.0 <==> w1 == w2
  {
    var inter := w1 * w2;
    var union := w1 + w2;
    SubsetCard(inter, union);
    SubsetCard(w1, union);
    Share(|inter|, |union|);
    assert inter == union ==> w1 == w2;
  }

  /** `calculateSimilarity`: the Jaccard index of the two word sets, the share of all words the
      two texts have in common. */
  function CalculateSimilarity(a: string, b: string): (r: real)
    ensures 0.0 <= r <= 1.0
    ensures r == 1.0 <==> Words(a) == Words(b)
  {
    var w1 := Words(a);
    var w2 := Words(b);
    JaccardRange(w1, w2);
    (|w1 * w2| as real) / (|w1 + w2| as real)
  }

  lemma SimilaritySymmetric(a: string, b: string)
    ensures CalculateSimilarity(a, b) == CalculateSimilarity(b, a)
  {
    assert Words(a) * Words(b) == Words(b) * Words(a);
    assert Words(a) + Words(b) == Words(b) + Words(a);
  }

  /** Texts that differ only in case, punctuation and spacing are fully similar. */
  lemma SameNormalFormFullySimilar(a: string, b: string)
    requires NormalizeText(a) == NormalizeText(b)
    ensures CalculateSimilarity(a, b) == 1.0
  {
  }

  // ---------------------------------------------------------------- exact-name duplicates

  /** The grouping key of a name: lower-cased, then trimmed. */
  function NameKey(name: string): string {
    Trim(Lower(name))
  }

  datatype Analysis = Analysis(isDuplicate: bool, confidence: real, reasons: seq<string>)

  /** `isDuplicate`: two names are duplicates exactly when their keys agree. */
  function IsDuplicate(name1: string, name2: string): (r: Analysis)
    ensures r.isDuplicate <==> NameKey(name1) == NameKey(name2)
    ensures r.isDuplicate ==> r.confidence == 1.0 && r.reasons == ["Exact term name match"]
    ensures !r.isDuplicate ==> r.confidence == 0.0 && r.reasons == []
  {
    if NameKey(name1) == NameKey(name2) then Analysis(true, 1.0, ["Exact term name match"])
    else Analysis(false, 0.0, [])
  }

  /** The duplicate relation is an equivalence: reflexive, symmetric and transitive. */
  lemma DuplicateEquivalence(a: string, b: string, c: string)
    ensures IsDuplicate(a, a).isDuplicate
    ensures IsDuplicate(a, b) == IsDuplicate(b, a)
    ensures IsDuplicate(a, b).isDuplicate && IsDuplicate(b, c).isDuplicate ==> IsDuplicate(a, c).isDuplicate
  {
  }

  /** Case and surrounding whitespace do not matter. */
  lemma DuplicateIgnoresCase()
    ensures IsDuplicate("AI", " ai").isDuplicate
  {
    assert Lower("AI") == "ai" by {
      assert LowerChar('A') == 'a' && LowerChar('I') == 'i';
    }
    assert Lower(" ai") == " ai";
    assert NameKey("AI") == "ai" by {
      TrimOfTrimmed("ai");
    }
    assert NameKey(" ai") == "ai" by {
      assert " ai" == " " + "ai";
      TrimPrefixWs(" ", "ai");
      TrimOfTrimmed("ai");
    }
  }

  /** Inner punctuation does matter. */
  lemma DuplicateKeepsPunctuation()
    ensures !IsDuplicate("a b", "a-b").isDuplicate
  {
    assert Lower("a b") == "a b";
    assert Lower("a-b") == "a-b";
    TrimOfTrimmed("a b");
    TrimOfTrimmed("a-b");
    assert "a b"[1] != "a-b"[1];
  }
}

=== FILE: static_terms.dfy ===
/** The static-data hooks used when the site is built without an API: categories and terms are
    numbered from the bundled data files in the browser, and filtering and lookup happen there. */
module StaticTerms {
  import opened Common
  import opened Text
  import opened Schema
  import opened Seqs
  import opened Storage

  /** `STATIC_CATEGORIES`: `{ id: index + 1, ...category }`, so an `id` stored in the file
      overrides the position. */
  function StaticCategoryOf(i: nat, r: CategoryRecord): Category {
    Category(r.id.GetOr(i + 1), r.name, r.description, r.icon)
  }

  /** Each category of the file numbered by its position, from 1, unless it carries its own id. */
  function StaticCategories(recs: seq<CategoryRecord>): (r: seq<Category>)
    ensures |r| == |recs|
    ensures forall i :: 0 <= i < |recs| ==>
      && r[i].id == (if recs[i].id.Some? then recs[i].id.value else i + 1)
      && r[i].name == recs[i].name && r[i].description == recs[i].description && r[i].icon == recs[i].icon
    decreases |recs|
  {
    if |recs| == 0 then []
    else
      var init := StaticCategories(recs[..|recs| - 1]);
      init + [StaticCategoryOf(|recs| - 1, recs[|recs| - 1])]
  }

  /** `STATIC_TERMS`: `{ id: index + 1, ...term }`, so an `id` stored in the file overrides the
      position. */
  function StaticTermOf(i: nat, r: TermRecord): Term {
    Term(r.id.GetOr(i + 1), r.term, r.category, r.aliases, r.definition, r.related, r.tags, r.references, r.learningpaths)
  }

  function AssignStaticIds(recs: seq<TermRecord>): (r: seq<Term>)
    ensures |r| == |recs|
    ensures forall i :: 0 <= i < |recs| ==> r[i] == StaticTermOf(i, recs[i])
    decreases |recs|
  {
    if |recs| == 0 then []
    else
      var init := AssignStaticIds(recs[..|recs| - 1]);
      init + [StaticTermOf(|recs| - 1, recs[|recs| - 1])]
  }

  /** A file whose categories carry no `id` gives the browser the same categories, numbered the
      same way, as the server builds from it. */
  lemma StaticCategoriesAsServer(recs: seq<CategoryRecord>, termsFile: Option<seq<TermRecord>>)
    requires forall i :: 0 <= i < |recs| ==> recs[i].id.None?
    ensures StaticCategories(recs) == Init(Some(recs), termsFile).categories
  {
  }

  /** A category that does carry an `id` keeps it in the browser, while the server renumbers it. */
  lemma StaticCategoryIdWins()
    ensures var r := CategoryRecord(Some(7), "c", "d", None);
      StaticCategories([r])[0].id == 7 && Init(Some([r]), None).categories[0].id == 1
  {
  }

  /** A file whose records carry no `id` gives the browser the same terms, with the same ids, as
      the server builds from it. */
  lemma StaticTermsAsServer(categoriesFile: Option<seq<CategoryRecord>>, recs: seq<TermRecord>)
    requires forall i :: 0 <= i < |recs| ==> recs[i].id.None?
    ensures AssignStaticIds(recs) == Init(categoriesFile, Some(recs)).terms
  {
  }

  /** A record that does carry an `id` keeps it in the browser, while the server renumbers it. */
  lemma StaticIdWins()
    ensures var r := TermRecord(Some(7), "x", "c", None, "d", None, None, None, None);
      AssignStaticIds([r])[0].id == 7 && Init(None, Some([r])).terms[0].id == 1
  {
  }

  /** The category filter of `useTermsStatic`: a non-empty category other than the `All` sentinel. */
  predicate FiltersCategory(category: Option<string>) {
    Truthy(category) && category.value != "All"
  }

  function SearchMatches(lowered: string): Term -> bool {
    (t: Term) => MatchesLowered(t, lowered)
  }

  /** Whether `useTermsStatic` keeps a term: in the category (unless it is `All` or none) and
      matching the search (when one is given) in any letter case. */
  predicate StaticKept(t: Term, category: Option<string>, search: Option<string>) {
    && (FiltersCategory(category) ==> t.category == category.value)
    && (Truthy(search) ==> MatchesLowered(t, Lower(search.value)))
  }

  /** `useTermsStatic` in static mode: the terms of the category (unless `All` or none), then those
      whose name, definition, alias or tag contains the search in any letter case, in order and
      each as often as it is listed. */
  function FilterStatic(terms: seq<Term>, category: Option<string>, search: Option<string>): (r: seq<Term>)
    ensures forall t :: t in r <==> t in terms && StaticKept(t, category, search)
    ensures SubseqOf(r, terms)
    ensures forall t :: multiset(r)[t] == (if StaticKept(t, category, search) then multiset(terms)[t] else 0)
  {
    var inCategory := (t: Term) => t.category == category.GetOr("");
    var matches := SearchMatches(Lower(search.GetOr("")));
    FilterWhenTwice(terms, FiltersCategory(category), inCategory, Truthy(search), matches);
    assert forall t :: StaticKept(t, category, search) == ((FiltersCategory(category) ==> inCategory(t)) && (Truthy(search) ==> matches(t)));
    FilterWhen(FilterWhen(terms, FiltersCategory(category), inCategory), Truthy(search), matches)
  }

  /** The static search is the server's search. */
  lemma StaticSearchIsServerSearch(s: Store, query: string)
    requires |query| > 0
    ensures FilterStatic(s.terms, None, Some(query)) == SearchTerms(s, query)
  {
    var q := Lower(query);
    FilterExt(s.terms, SearchMatches(q), (t: Term) => MatchesLowered(t, q));
  }

  /** The static category filter is the server's category listing. */
  lemma StaticCategoryIsServerCategory(s: Store, category: string)
    requires |category| > 0 && category != "All"
    ensures FilterStatic(s.terms, Some(category), None) == GetTermsByCategory(s, category)
  {
    FilterExt(s.terms, (t: Term) => t.category == category, (t: Term) => t.category == category);
  }

  /** The sentinel is case-sensitive: `all` is taken as a category name and filters everything out
      of a list that has no such category, where the API would list every term. */
  lemma LowercaseAllIsACategory(terms: seq<Term>)
    requires forall i :: 0 <= i < |terms| ==> terms[i].category != "all"
    ensures FilterStatic(terms, Some("all"), None) == []
  {
  }

  /** `useTermStatic`: the first bundled term with that id, or `null`. */
  function TermStatic(terms: seq<Term>, id: int): (r: Option<Term>)
    ensures r.None? <==> forall i :: 0 <= i < |terms| ==> terms[i].id != id
    ensures r.Some? ==> exists k :: 0 <= k < |terms| && terms[k] == r.value && r.value.id == id
                               && forall j :: 0 <= j < k ==> terms[j].id != id
  {
    Find(terms, HasTermId(id))
  }

  /** For a file without stored ids, looking a term up in the browser finds what the server's
      `GET /api/terms/:id` would. */
  lemma TermStaticAsServer(categoriesFile: Option<seq<CategoryRecord>>, recs: seq<TermRecord>, id: int)
    requires forall i :: 0 <= i < |recs| ==> recs[i].id.None?
    ensures TermStatic(AssignStaticIds(recs), id) == GetTerm(Init(categoriesFile, Some(recs)), id)
  {
    StaticTermsAsServer(categoriesFile, recs);
  }
}

=== FILE: storage.dfy ===
/** `MemStorage` (server/storage.ts): three insertion-ordered maps keyed by id, the counters that
    hand out ids, the start-up load from the two JSON data files and the projection written back
    to them in development. The file reads and writes themselves are I/O: a data file is given
    as its parsed contents (`None` when it is missing or does not parse) and a save is modelled
    by the record list it would write. */
module Storage {
  import opened Common
  import opened Schema
  import opened Text
  import opened Seqs

  /** The three maps, each as the sequence of its values in insertion order (every key is the
      `id` of the record stored under it), and the next id of each kind. */
  datatype Store = Store(
    users: seq<User>,
    categories: seq<Category>,
    terms: seq<Term>,
    nextUserId: int,
    nextCategoryId: int,
    nextTermId: int)

  function UserKey(u: User): int { u.id }
  function CategoryKey(c: Category): int { c.id }
  function TermKey(t: Term): int { t.id }

  /** Keys are positive, below the next id to be handed out, and ascending in insertion order
      (so in particular distinct). */
  predicate Keyed<T>(xs: seq<T>, key: T -> int, next: int) {
    && (forall i :: 0 <= i < |xs| ==> 1 <= key(xs[i]) < next)
    && (forall i, j :: 0 <= i < j < |xs| ==> key(xs[i]) < key(xs[j]))
  }

  /** The invariant every reachable store keeps. */
  predicate Valid(s: Store) {
    && 1 <= s.nextUserId && 1 <= s.nextCategoryId && 1 <= s.nextTermId
    && Keyed(s.users, UserKey, s.nextUserId)
    && Keyed(s.categories, CategoryKey, s.nextCategoryId)
    && Keyed(s.terms, TermKey, s.nextTermId)
  }

  /** The constructor's state before `initializeData`: empty maps, every counter at 1. */
  const Empty: Store := Store([], [], [], 1, 1, 1)

  function HasTermId(id: int): Term -> bool { (t: Term) => t.id == id }
  function NotTermId(id: int): Term -> bool { (t: Term) => t.id != id }

  // ---------------------------------------------------------------- users

  function GetUser(s: Store, id: int): (r: Option<User>)
    ensures r.Some? <==> exists i :: 0 <= i < |s.users| && s.users[i].id == id
    ensures r.Some? ==> r.value in s.users && r.value.id == id
  {
    Find(s.users, (u: User) => u.id == id)
  }

  /** The first user, in insertion order, with the given username. */
  function GetUserByUsername(s: Store, username: string): (r: Option<User>)
    ensures r.None? <==> forall i :: 0 <= i < |s.users| ==> s.users[i].username != username
    ensures r.Some? ==>
      && r.value.username == username
      && exists k :: 0 <= k < |s.users| && s.users[k] == r.value
           && forall j :: 0 <= j < k ==> s.users[j].username != username
  {
    Find(s.users, (u: User) => u.username == username)
  }

  /** Stores the user under the next user id and returns it. */
  function CreateUser(s: Store, u: InsertUser): (res: (Store, User))
    ensures res.1.id == s.nextUserId && res.1.username == u.username && res.1.password == u.password
    ensures res.0 == s.(users := s.users + [res.1], nextUserId := s.nextUserId + 1)
    ensures Valid(s) ==> Valid(res.0) && GetUser(s, res.1.id).None? && GetUser(res.0, res.1.id) == Some(res.1)
  {
    var user := User(s.nextUserId, u.username, u.password);
    var s' := s.(users := s.users + [user], nextUserId := s.nextUserId + 1);
    FindAppend(s.users, user, (x: User) => x.id == user.id);
    (s', user)
  }

  // ---------------------------------------------------------------- categories

  /** The first category, in insertion order, with the given name. */
  function GetCategoryByName(s: Store, name: string): (r: Option<Category>)
    ensures r.None? <==> forall i :: 0 <= i < |s.categories| ==> s.categories[i].name != name
    ensures r.Some? ==>
      && r.value.name == name
      && exists k :: 0 <= k < |s.categories| && s.categories[k] == r.value
           && forall j :: 0 <= j < k ==> s.categories[j].name != name
  {
    Find(s.categories, (c: Category) => c.name == name)
  }

  /** Stores the category under the next category id; the name is not checked for uniqueness. */
  function CreateCategory(s: Store, c: InsertCategory): (res: (Store, Category))
    ensures res.1 == Category(s.nextCategoryId, c.name, c.description, None)
    ensures res.0 == s.(categories := s.categories + [res.1], nextCategoryId := s.nextCategoryId + 1)
    ensures Valid(s) ==> Valid(res.0)
  {
    var cat := Category(s.nextCategoryId, c.name, c.description, None);
    (s.(categories := s.categories + [cat], nextCategoryId := s.nextCategoryId + 1), cat)
  }

  /** Creating a category whose name is taken gives two categories of that name, although the
      table declaration marks the name unique. */
  lemma CreateCategoryKeepsDuplicates(s: Store, c: InsertCategory)
    requires GetCategoryByName(s, c.name).Some?
    ensures !UniqueCategoryNames(CreateCategory(s, c).0.categories)
    ensures GetCategoryByName(CreateCategory(s, c).0, c.name) == GetCategoryByName(s, c.name)
  {
    var cs := CreateCategory(s, c).0.categories;
    var taken := GetCategoryByName(s, c.name).value;
    var k :| 0 <= k < |s.categories| && s.categories[k] == taken;
    assert cs[k].name == cs[|cs| - 1].name;
    FindAppend(s.categories, CreateCategory(s, c).1, (x: Category) => x.name == c.name);
  }

  // ---------------------------------------------------------------- terms: reads

  function GetTerm(s: Store, id: int): (r: Option<Term>)
    ensures r.Some? <==> exists i :: 0 <= i < |s.terms| && s.terms[i].id == id
    ensures r.Some? ==> r.value in s.terms && r.value.id == id
  {
    Find(s.terms, HasTermId(id))
  }

  /** The terms of one category, in insertion order. */
  function GetTermsByCategory(s: Store, category: string): (r: seq<Term>)
    ensures forall t :: t in r <==> t in s.terms && t.category == category
    ensures SubseqOf(r, s.terms)
  {
    Filter(s.terms, (t: Term) => t.category == category)
  }

  /** The four fields a search looks at: name, definition, then every alias and tag. */
  function SearchFields(t: Term): seq<string> {
    [t.term, t.definition] + t.aliases.GetOr([]) + t.tags.GetOr([])
  }

  /** Some searched field, lower-cased, contains the (already lower-cased) query. */
  predicate MatchesLowered(t: Term, lowered: string) {
    exists i :: 0 <= i < |SearchFields(t)| && Contains(Lower(SearchFields(t)[i]), lowered)
  }

  /** Case-insensitive substring search over name, definition, aliases and tags, in insertion order. */
  function SearchTerms(s: Store, query: string): (r: seq<Term>)
    ensures forall t :: t in r <==> t in s.terms && MatchesLowered(t, Lower(query))
    ensures SubseqOf(r, s.terms)
  {
    var q := Lower(query);
    Filter(s.terms, (t: Term) => MatchesLowered(t, q))
  }

  /** An empty query matches every term, since every string contains the empty string. */
  lemma SearchEmptyQuery(s: Store)
    ensures SearchTerms(s, "") == s.terms
  {
    forall t | t in s.terms
      ensures MatchesLowered(t, Lower(""))
    {
      ContainsEmpty(Lower(SearchFields(t)[0]));
    }
    FilterAll(s.terms, (t: Term) => MatchesLowered(t, Lower("")));
  }

  /** The query's letter case does not matter. */
  lemma SearchIgnoresCase(s: Store, query: string)
    ensures SearchTerms(s, query) == SearchTerms(s, Lower(query))
  {
    LowerIdempotent(query);
  }

  /** Searching for a stored term's own name, in any letter case, finds it. */
  lemma SearchFindsName(s: Store, t: Term)
    requires t in s.terms
    ensures t in SearchTerms(s, t.term)
  {
    assert StartsWith(Lower(t.term), Lower(t.term));
    assert SearchFields(t)[0] == t.term;
  }

  /** Category, related terms, references and learning paths play no part in a search. */
  lemma SearchIgnoresOtherFields(t: Term, q: string, category: string, related: Option<seq<string>>,
                                 references: Option<seq<string>>, lp: Option<map<string, int>>)
    ensures MatchesLowered(t, q)
      <==> MatchesLowered(t.(category := category, related := related, references := references, learningpaths := lp), q)
  {
    assert SearchFields(t) == SearchFields(t.(category := category, related := related, references := references, learningpaths := lp));
  }

  // ---------------------------------------------------------------- terms: writes

  /** The stored form of a new term: lists not supplied are `null`, and there are no learning paths. */
  function NewTerm(id: int, it: InsertTerm): Term {
    Term(id, it.term, it.category, OrNull(it.aliases), it.definition,
         OrNull(it.related), OrNull(it.tags), OrNull(it.references), None)
  }

  function CreateTerm(s: Store, it: InsertTerm): (res: (Store, Term))
    ensures res.1 == NewTerm(s.nextTermId, it)
    ensures res.0 == s.(terms := s.terms + [res.1], nextTermId := s.nextTermId + 1)
    ensures Valid(s) ==> Valid(res.0) && GetTerm(s, res.1.id).None? && GetTerm(res.0, res.1.id) == Some(res.1)
  {
    var t := NewTerm(s.nextTermId, it);
    FindAppend(s.terms, t, HasTermId(t.id));
    (s.(terms := s.terms + [t], nextTermId := s.nextTermId + 1), t)
  }

  /** Creating a term leaves every other id's lookup as it was. */
  lemma CreateTermFrame(s: Store, it: InsertTerm, id: int)
    requires Valid(s) && id != s.nextTermId
    ensures GetTerm(CreateTerm(s, it).0, id) == GetTerm(s, id)
  {
    FindAppend(s.terms, NewTerm(s.nextTermId, it), HasTermId(id));
  }

  /** Reading the created term back as a create request gives the request, except that a list
      left out comes back as `null`. */
  lemma CreateTermKeepsRequest(s: Store, it: InsertTerm)
    requires it.aliases != Missing && it.related != Missing && it.tags != Missing && it.references != Missing
    ensures var t := CreateTerm(s, it).1;
      InsertTerm(t.term, t.category, if t.aliases.Some? then Strings(t.aliases.value) else Null, t.definition,
                 if t.related.Some? then Strings(t.related.value) else Null,
                 if t.tags.Some? then Strings(t.tags.value) else Null,
                 if t.references.Some? then Strings(t.references.value) else Null) == it
  {
  }

  /** A list field of an update: not supplied keeps the stored list, `null` clears it. */
  function PatchList(stored: Option<seq<string>>, f: ArrayField): Option<seq<string>> {
    match f
    case Missing => stored
    case Null => None
    case Strings(xs) => Some(xs)
  }

  /** `{ ...existing, ...update }`: every supplied field replaces the stored one. */
  function Merge(t: Term, u: UpdateTerm): Term {
    Term(u.id, u.term.GetOr(t.term), u.category.GetOr(t.category), PatchList(t.aliases, u.aliases),
         u.definition.GetOr(t.definition), PatchList(t.related, u.related), PatchList(t.tags, u.tags),
         PatchList(t.references, u.references), t.learningpaths)
  }

  /** Applying the same update twice is the same as applying it once. */
  lemma MergeIdempotent(t: Term, u: UpdateTerm)
    ensures Merge(Merge(t, u), u) == Merge(t, u)
  {
  }

  /** An update carrying only the term's own id changes nothing. */
  lemma MergeIdOnly(t: Term)
    ensures Merge(t, Schema.UpdateTerm(t.id, None, None, Missing, None, Missing, Missing, Missing)) == t
  {
  }

  /** A later update overrides an earlier one on every field it supplies. */
  lemma MergeLaterWins(t: Term, u1: UpdateTerm, u2: UpdateTerm)
    requires u2.term.Some? && u2.category.Some? && u2.definition.Some?
    requires !u2.aliases.Missing? && !u2.related.Missing? && !u2.tags.Missing? && !u2.references.Missing?
    ensures Merge(Merge(t, u1), u2) == Merge(t, u2)
  {
  }

  /** Merges the update into the stored term with the update's id, keeping its place in the map;
      `None` when there is no such term. */
  function UpdateTerm(s: Store, u: UpdateTerm): (res: (Store, Option<Term>))
    ensures res.1.None? <==> GetTerm(s, u.id).None?
    ensures res.1.None? ==> res.0 == s
    ensures res.1.Some? ==> res.1.value == Merge(GetTerm(s, u.id).value, u) && GetTerm(res.0, u.id) == res.1
    ensures res.0 == s.(terms := res.0.terms)
    ensures |res.0.terms| == |s.terms| && forall i :: 0 <= i < |s.terms| ==> res.0.terms[i].id == s.terms[i].id
    ensures Valid(s) ==> Valid(res.0)
  {
    var k := FirstIndex(s.terms, HasTermId(u.id));
    if k == |s.terms| then (s, None)
    else
      var t := Merge(s.terms[k], u);
      FindUpdateHit(s.terms, k, t, HasTermId(u.id));
      (s.(terms := s.terms[k := t]), Some(t))
  }

  /** Updating one term leaves every other id's lookup as it was. */
  lemma UpdateTermFrame(s: Store, u: UpdateTerm, id: int)
    requires id != u.id
    ensures GetTerm(UpdateTerm(s, u).0, id) == GetTerm(s, id)
  {
    var k := FirstIndex(s.terms, HasTermId(u.id));
    if k < |s.terms| {
      FindUpdateMiss(s.terms, k, Merge(s.terms[k], u), HasTermId(id));
    }
  }

  /** Sending the same update twice leaves the store as sending it once. */
  lemma UpdateTermIdempotent(s: Store, u: UpdateTerm)
    ensures UpdateTerm(UpdateTerm(s, u).0, u).0 == UpdateTerm(s, u).0
  {
    var k := FirstIndex(s.terms, HasTermId(u.id));
    if k < |s.terms| {
      var s1 := UpdateTerm(s, u).0;
      var t := Merge(s.terms[k], u);
      FirstIndexIs(s1.terms, HasTermId(u.id), k);
      MergeIdempotent(s.terms[k], u);
      assert s1.terms[k := Merge(t, u)] == s1.terms;
    }
  }

  /** Removes the entry with the given id; `true` exactly when there was one. */
  function DeleteTerm(s: Store, id: int): (res: (Store, bool))
    ensures res.1 <==> GetTerm(s, id).Some?
    ensures GetTerm(res.0, id).None?
    ensures !res.1 ==> res.0 == s
    ensures res.0 == s.(terms := res.0.terms) && SubseqOf(res.0.terms, s.terms)
    ensures Valid(s) ==> Valid(res.0)
  {
    var rest := Filter(s.terms, NotTermId(id));
    KeyedFilter(s.terms, TermKey, s.nextTermId, NotTermId(id));
    if GetTerm(s, id).None? then
      DeleteMissing(s, id);
      (s.(terms := rest), false)
    else
      (s.(terms := rest), true)
  }

  lemma DeleteMissing(s: Store, id: int)
    requires GetTerm(s, id).None?
    ensures Filter(s.terms, NotTermId(id)) == s.terms
  {
    FilterAll(s.terms, NotTermId(id));
  }

  /** Deleting one term leaves every other id's lookup as it was. */
  lemma DeleteTermFrame(s: Store, id: int, other: int)
    requires other != id
    ensures GetTerm(DeleteTerm(s, id).0, other) == GetTerm(s, other)
  {
    FindFilterKeeps(s.terms, HasTermId(other), NotTermId(id));
  }

  /** A second delete of the same id reports that there was nothing to delete. */
  lemma DeleteTermTwice(s: Store, id: int)
    ensures !DeleteTerm(DeleteTerm(s, id).0, id).1
  {
  }

  /** Dropping entries from a keyed sequence keeps it keyed. */
  lemma {:induction false} KeyedFilter<T>(xs: seq<T>, key: T -> int, next: int, p: T -> bool)
    ensures Keyed(xs, key, next) ==> Keyed(Filter(xs, p), key, next)
    decreases |xs|
  {
    if |xs| > 0 && Keyed(xs, key, next) {
      var rest := Filter(xs[1..], p);
      KeyedTail(xs, key, next);
      KeyedFilter(xs[1..], key, next, p);
      if p(xs[0]) {
        forall i | 0 <= i < |rest|
          ensures key(xs[0]) < key(rest[i])
        {
          var j :| 0 <= j < |xs[1..]| && xs[1..][j] == rest[i];
          assert xs[j + 1] == rest[i];
        }
        KeyedCons(xs[0], rest, key, next);
      }
    }
  }

  lemma KeyedTail<T>(xs: seq<T>, key: T -> int, next: int)
    requires |xs| > 0 && Keyed(xs, key, next)
    ensures Keyed(xs[1..], key, next)
  {
    forall i, j | 0 <= i < j < |xs| - 1
      ensures key(xs[1..][i]) < key(xs[1..][j])
    {
      assert xs[1..][i] == xs[i + 1] && xs[1..][j] == xs[j + 1];
    }
  }

  lemma KeyedCons<T>(x: T, rest: seq<T>, key: T -> int, next: int)
    requires Keyed(rest, key, next) && 1 <= key(x) < next
    requires forall i :: 0 <= i < |rest| ==> key(x) < key(rest[i])
    ensures Keyed([x] + rest, key, next)
  {
    var r := [x] + rest;
    forall i, j | 0 <= i < j < |r|
      ensures key(r[i]) < key(r[j])
    {
      assert r[j] == rest[j - 1];
      if i > 0 {
        assert r[i] == rest[i - 1];
      }
    }
  }

  // ---------------------------------------------------------------- load and save

  /** A category read from the data file: its id is the counter value (a stored `id` is
      overridden), name, description and icon are kept as read. */
  function CategoryFromRecord(id: int, c: CategoryRecord): Category {
    Category(id, c.name, c.description, c.icon)
  }

  /** A term read from the data file: its id is the counter value (a stored `id` is overridden),
      every other field, learning paths included, is kept as read. */
  function TermFromRecord(id: int, r: TermRecord): Term {
    Term(id, r.term, r.category, r.aliases, r.definition, r.related, r.tags, r.references, r.learningpaths)
  }

  /** Inserts each record under the next category id, in file order. */
  function AddCategories(s: Store, recs: seq<CategoryRecord>): (r: Store)
    ensures r == s.(categories := r.categories, nextCategoryId := s.nextCategoryId + |recs|)
    ensures |r.categories| == |s.categories| + |recs|
    ensures r.categories[..|s.categories|] == s.categories
    ensures forall i :: 0 <= i < |recs| ==>
      r.categories[|s.categories| + i] == CategoryFromRecord(s.nextCategoryId + i, recs[i])
    ensures Valid(s) ==> Valid(r)
    decreases |recs|
  {
    if |recs| == 0 then s
    else
      var c := CategoryFromRecord(s.nextCategoryId, recs[0]);
      var s1 := s.(categories := s.categories + [c], nextCategoryId := s.nextCategoryId + 1);
      var r := AddCategories(s1, recs[1..]);
      assert r.categories[..|s.categories|] == r.categories[..|s1.categories|][..|s.categories|];
      assert forall i :: 1 <= i < |recs| ==> recs[i] == recs[1..][i - 1];
      r
  }

  /** Inserts each record under the next term id, in file order. */
  function AddTerms(s: Store, recs: seq<TermRecord>): (r: Store)
    ensures r == s.(terms := r.terms, nextTermId := s.nextTermId + |recs|)
    ensures |r.terms| == |s.terms| + |recs|
    ensures r.terms[..|s.terms|] == s.terms
    ensures forall i :: 0 <= i < |recs| ==> r.terms[|s.terms| + i] == TermFromRecord(s.nextTermId + i, recs[i])
    ensures Valid(s) ==> Valid(r)
    decreases |recs|
  {
    if |recs| == 0 then s
    else
      var t := TermFromRecord(s.nextTermId, recs[0]);
      var s1 := s.(terms := s.terms + [t], nextTermId := s.nextTermId + 1);
      var r := AddTerms(s1, recs[1..]);
      assert r.terms[..|s.terms|] == r.terms[..|s1.terms|][..|s.terms|];
      assert forall i :: 1 <= i < |recs| ==> recs[i] == recs[1..][i - 1];
      r
  }

  /** A missing or unreadable file loads nothing. */
  function LoadCategories(s: Store, file: Option<seq<CategoryRecord>>): Store {
    if file.Some? then AddCategories(s, file.value) else s
  }

  function LoadTerms(s: Store, file: Option<seq<TermRecord>>): Store {
    if file.Some? then AddTerms(s, file.value) else s
  }

  const Admin: InsertUser := InsertUser("admin", "admin123")

  /** `initializeData`: the admin user, then the categories file, then the terms file. */
  function Init(categoriesFile: Option<seq<CategoryRecord>>, termsFile: Option<seq<TermRecord>>): (r: Store)
    ensures Valid(r)
    ensures r.users == [User(1, "admin", "admin123")]
    ensures var cs := categoriesFile.GetOr([]);
      |r.categories| == |cs| && forall i :: 0 <= i < |cs| ==> r.categories[i] == CategoryFromRecord(i + 1, cs[i])
    ensures var ts := termsFile.GetOr([]);
      |r.terms| == |ts| && forall i :: 0 <= i < |ts| ==> r.terms[i] == TermFromRecord(i + 1, ts[i])
  {
    var s0 := CreateUser(Empty, Admin).0;
    LoadBoth(s0, categoriesFile, termsFile);
    LoadTerms(LoadCategories(s0, categoriesFile), termsFile)
  }

  /** Loading both files into a valid store without categories or terms numbers each from 1. */
  lemma LoadBoth(s: Store, categoriesFile: Option<seq<CategoryRecord>>, termsFile: Option<seq<TermRecord>>)
    requires Valid(s) && s.categories == [] && s.terms == []
    requires s.nextCategoryId == 1 && s.nextTermId == 1
    ensures var r := LoadTerms(LoadCategories(s, categoriesFile), termsFile);
      && Valid(r) && r.users == s.users
      && (var cs := categoriesFile.GetOr([]);
          |r.categories| == |cs| && forall i :: 0 <= i < |cs| ==> r.categories[i] == CategoryFromRecord(i + 1, cs[i]))
      && (var ts := termsFile.GetOr([]);
          |r.terms| == |ts| && forall i :: 0 <= i < |ts| ==> r.terms[i] == TermFromRecord(i + 1, ts[i]))
  {
    var s1 := LoadCategories(s, categoriesFile);
    LoadCategoriesFromEmpty(s, categoriesFile);
    LoadTermsFromEmpty(s1, termsFile);
  }

  /** Loading categories into a store without any numbers them from 1 and touches nothing else. */
  lemma LoadCategoriesFromEmpty(s: Store, file: Option<seq<CategoryRecord>>)
    requires s.categories == [] && s.nextCategoryId == 1
    ensures var r := LoadCategories(s, file);
      var cs := file.GetOr([]);
      && r.users == s.users && r.terms == s.terms && r.nextTermId == s.nextTermId
      && |r.categories| == |cs|
      && (forall i :: 0 <= i < |cs| ==> r.categories[i] == CategoryFromRecord(i + 1, cs[i]))
      && (Valid(s) ==> Valid(r))
  {
  }

  /** Loading terms into a store without any numbers them from 1 and touches nothing else. */
  lemma LoadTermsFromEmpty(s: Store, file: Option<seq<TermRecord>>)
    requires s.terms == [] && s.nextTermId == 1
    ensures var r := LoadTerms(s, file);
      var ts := file.GetOr([]);
      && r.users == s.users && r.categories == s.categories
      && |r.terms| == |ts|
      && (forall i :: 0 <= i < |ts| ==> r.terms[i] == TermFromRecord(i + 1, ts[i]))
      && (Valid(s) ==> Valid(r))
  {
  }

  /** The only user after start-up is the admin, found by name with its password. */
  lemma {:induction false} InitAdmin(categoriesFile: Option<seq<CategoryRecord>>, termsFile: Option<seq<TermRecord>>)
    ensures GetUserByUsername(Init(categoriesFile, termsFile), "admin") == Some(User(1, "admin", "admin123"))
    ensures forall name :: name != "admin" ==> GetUserByUsername(Init(categoriesFile, termsFile), name).None?
  {
    OnlyUser(Init(categoriesFile, termsFile), User(1, "admin", "admin123"));
  }

  /** In a store with a single user, that user's name finds it and every other name finds nobody. */
  lemma OnlyUser(s: Store, u: User)
    requires s.users == [u]
    ensures GetUserByUsername(s, u.username) == Some(u)
    ensures forall name :: name != u.username ==> GetUserByUsername(s, name).None?
  {
  }

  /** What `saveCategoriesToFile` writes for one category: name and description only. */
  function SavedCategory(c: Category): CategoryRecord {
    CategoryRecord(None, c.name, c.description, None)
  }

  function SaveCategories(s: Store): (r: seq<CategoryRecord>)
    ensures |r| == |s.categories|
    ensures forall i :: 0 <= i < |r| ==> r[i] == SavedCategory(s.categories[i])
  {
    seq(|s.categories|, i requires 0 <= i < |s.categories| => SavedCategory(s.categories[i]))
  }

  /** A `null` list is written as `[]`. */
  function Listed(xs: Option<seq<string>>): Option<seq<string>> {
    Some(xs.GetOr([]))
  }

  /** The record the data file's layout calls for: no id, lists never `null`, and the learning
      paths the term carries. */
  function SavedTerm(t: Term): TermRecord {
    TermRecord(None, t.term, t.category, Listed(t.aliases), t.definition,
               Listed(t.related), Listed(t.tags), Listed(t.references), t.learningpaths)
  }

  function SaveTerms(s: Store): (r: seq<TermRecord>)
    ensures |r| == |s.terms|
    ensures forall i :: 0 <= i < |r| ==> var t := s.terms[i];
      && r[i].id.None? && r[i].term == t.term && r[i].category == t.category && r[i].definition == t.definition
      && r[i].aliases == Some(t.aliases.GetOr([])) && r[i].related == Some(t.related.GetOr([]))
      && r[i].tags == Some(t.tags.GetOr([])) && r[i].references == Some(t.references.GetOr([]))
      && r[i].learningpaths == t.learningpaths
  {
    seq(|s.terms|, i requires 0 <= i < |s.terms| => SavedTerm(s.terms[i]))
  }

  /** What `saveTermsToFile` writes for one term, as written: its projection names every field but
      the learning paths. */
  function SavedTermAsWritten(t: Term): TermRecord {
    TermRecord(None, t.term, t.category, Listed(t.aliases), t.definition,
               Listed(t.related), Listed(t.tags), Listed(t.references), None)
  }

  /** The save as written: the corrected records with the learning paths dropped. */
  function SaveTermsAsWritten(s: Store): (r: seq<TermRecord>)
    ensures |r| == |s.terms|
    ensures forall i :: 0 <= i < |r| ==> r[i].learningpaths.None? && r[i] == SaveTerms(s)[i].(learningpaths := None)
  {
    seq(|s.terms|, i requires 0 <= i < |s.terms| => SavedTermAsWritten(s.terms[i]))
  }

  /** The two saves write the same file exactly when no term carries learning paths. */
  lemma SaveAsWrittenAgrees(s: Store)
    ensures SaveTermsAsWritten(s) == SaveTerms(s) <==> forall i :: 0 <= i < |s.terms| ==> s.terms[i].learningpaths.None?
  {
    if SaveTermsAsWritten(s) == SaveTerms(s) {
      forall i | 0 <= i < |s.terms|
        ensures s.terms[i].learningpaths.None?
      {
        assert SaveTermsAsWritten(s)[i].learningpaths == SaveTerms(s)[i].learningpaths;
      }
    }
  }

  /** A term as it comes back from the file it was saved to: numbered by position, with `null`
      lists turned into empty ones. */
  function Reloaded(t: Term, id: int): Term {
    t.(id := id, aliases := Listed(t.aliases), related := Listed(t.related),
       tags := Listed(t.tags), references := Listed(t.references))
  }

  /** Restarting on the files saved from any store gives back its categories and terms, renumbered
      from 1 in the same order; category icons are not part of the file and come back empty. */
  lemma SaveLoadRoundTrip(s: Store)
    ensures var r := Init(Some(SaveCategories(s)), Some(SaveTerms(s)));
      && |r.terms| == |s.terms|
      && (forall i :: 0 <= i < |s.terms| ==> r.terms[i] == Reloaded(s.terms[i], i + 1))
      && |r.categories| == |s.categories|
      && (forall i :: 0 <= i < |s.categories| ==> r.categories[i] == s.categories[i].(id := i + 1, icon := None))
  {
  }

  /** After one restart the files are a fixed point: saving again writes the same records. */
  lemma SaveLoadStable(s: Store)
    ensures var r := Init(Some(SaveCategories(s)), Some(SaveTerms(s)));
      SaveTerms(r) == SaveTerms(s) && SaveCategories(r) == SaveCategories(s)
  {
  }

  /** Restarting on the file as written gives back every term renumbered from 1, as the
      corrected save does, but with no learning paths. */
  lemma SaveAsWrittenReload(s: Store, categoriesFile: Option<seq<CategoryRecord>>)
    ensures var r := Init(categoriesFile, Some(SaveTermsAsWritten(s)));
      && |r.terms| == |s.terms|
      && (forall i :: 0 <= i < |s.terms| ==> r.terms[i] == Reloaded(s.terms[i], i + 1).(learningpaths := None))
  {
  }

  /** The file as written loses a term's learning paths: restarting on it gives back none. */
  lemma SaveDropsLearningPaths()
    ensures var t := Term(1, "API", "Web", None, "Interface", None, None, None, Some(map["p" := 1]));
      var s := Init(None, None).(terms := [t], nextTermId := 2);
      var r := Init(None, Some(SaveTermsAsWritten(s)));
      r.terms[0].learningpaths == None != s.terms[0].learningpaths
  {
  }
}

=== FILE: term_card.dfy ===
/** The term card's two category decorations: the colour classes looked up by category name, and the
    CSS class name derived from the category (lower-cased, every other character a dash, runs of
    dashes collapsed). */
module TermCard {
  import opened Text
  import opened Seqs

  // ---------------------------------------------------------------- colour classes

  /** The three classes of one colour family: a light background, dark text and a mid-tone border. */
  function Shades(hue: string): (r: string)
    ensures |r| == 3 * |hue| + 28
    ensures forall i :: 0 <= i < |hue| ==> r[3 + i] == hue[i]
  {
    "bg-" + hue + "-50 text-" + hue + "-700 border-" + hue + "-200"
  }

  /** The neutral colours of a category without its own. */
  const Fallback: string := Shades("secondary")

  /** The colour family of each of the twelve categories with their own colours. Every value of the
      colour table is the three shades of one family, so the table is stored by family. */
  const CategoryHues: map<string, string> := map[
    "AI Fundamentals" := "primary",
    "Machine Learning Algorithms" := "green",
    "Deep Learning Architectures" := "purple",
    "Natural Language Processing" := "blue",
    "Generative AI" := "orange",
    "AI Agents & Autonomy" := "red",
    "Knowledge & Retrieval Systems" := "teal",
    "Data Engineering for AI" := "indigo",
    "Model Deployment & Operations" := "pink",
    "AI Infrastructure & Ecosystem" := "yellow",
    "Ethics & Governance" := "gray",
    "Applied AI Domains" := "emerald"]

  /** `categoryColors[category] || fallback`: the category's colours, or the neutral ones. */
  function CategoryColor(category: string): (r: string)
    ensures category in CategoryHues ==> r == Shades(CategoryHues[category])
    ensures category !in CategoryHues ==> r == Fallback
  {
    if category in CategoryHues then Shades(CategoryHues[category]) else Fallback
  }

  /** Different families give different classes. */
  lemma ShadesDistinct(h1: string, h2: string)
    requires h1 != h2
    ensures Shades(h1) != Shades(h2)
  {
    if |h1| == |h2| {
      var i :| 0 <= i < |h1| && h1[i] != h2[i];
      assert Shades(h1)[3 + i] != Shades(h2)[3 + i];
    }
  }

  /** The twelve categories get twelve different colour families, none of them the neutral one. */
  lemma HuesDistinct(a: string, b: string)
    requires a in CategoryHues && b in CategoryHues && a != b
    ensures CategoryHues[a] != CategoryHues[b]
    ensures CategoryHues[a] != "secondary"
  {
  }

  /** The twelve categories get twelve different colours, none of them the neutral one. */
  lemma ColorsDistinct(a: string, b: string)
    requires a in CategoryHues && b in CategoryHues && a != b
    ensures CategoryColor(a) != CategoryColor(b)
    ensures CategoryColor(a) != Fallback
  {
    HuesDistinct(a, b);
    ShadesDistinct(CategoryHues[a], CategoryHues[b]);
    ShadesDistinct(CategoryHues[a], "secondary");
  }

  /** The lookup is exact: another spelling of a listed category gets the neutral colours. */
  lemma ColorLookupExact()
    ensures CategoryColor("ai fundamentals") == Fallback
    ensures CategoryColor("AI Fundamentals ") == Fallback
  {
  }

  // ---------------------------------------------------------------- class name

  predicate IsClassChar(c: char) {
    IsLowerAlnum(c) || c == '-'
  }

  function SanitizeChar(c: char): char {
    if IsLowerAlnum(LowerChar(c)) then LowerChar(c) else '-'
  }

  /** `toLowerCase().replace(/[^a-z0-9]/g, '-')`. */
  function Sanitize(s: string): (r: string)
    ensures |r| == |s|
    ensures forall i :: 0 <= i < |s| ==> r[i] == SanitizeChar(s[i])
    ensures forall i :: 0 <= i < |r| ==> IsClassChar(r[i])
    decreases |s|
  {
    if |s| == 0 then "" else [SanitizeChar(s[0])] + Sanitize(s[1..])
  }

  predicate NoDoubleDash(s: string) {
    forall i :: 0 <= i < |s| - 1 ==> !(s[i] == '-' && s[i + 1] == '-')
  }

  /** `replace(/-+/g, '-')`: every run of dashes becomes one dash. */
  function CollapseDashes(s: string): (r: string)
    ensures |s| > 0 ==> |r| > 0 && r[0] == s[0]
    ensures NoDoubleDash(r)
    ensures forall c :: c in r ==> c in s
    decreases |s|
  {
    if |s| <= 1 then s
    else if s[0] == '-' && s[1] == '-' then CollapseDashes(s[1..])
    else
      var rest := CollapseDashes(s[1..]);
      [s[0]] + rest
  }

  function NotDash(c: char): bool {
    c != '-'
  }

  /** Collapsing only removes dashes: the other characters are kept, in order. */
  lemma {:induction false} CollapseKeepsLetters(s: string)
    ensures Filter(CollapseDashes(s), NotDash) == Filter(s, NotDash)
    decreases |s|
  {
    if |s| > 1 {
      CollapseKeepsLetters(s[1..]);
      if !(s[0] == '-' && s[1] == '-') {
        assert ([s[0]] + CollapseDashes(s[1..]))[1..] == CollapseDashes(s[1..]);
      }
    }
  }

  /** A run of dashes counts once however long it is: doubling a dash anywhere changes nothing,
      so each run leaves exactly one dash where a single dash would. */
  lemma {:induction false} CollapseRun(x: string, y: string)
    ensures CollapseDashes(x + "--" + y) == CollapseDashes(x + "-" + y)
    decreases |x|
  {
    var s, s' := x + "--" + y, x + "-" + y;
    if |x| == 0 {
      assert s[1..] == s';
    } else {
      CollapseRun(x[1..], y);
      assert s[1..] == x[1..] + "--" + y;
      assert s'[1..] == x[1..] + "-" + y;
      assert s[0] == s'[0] && s[1] == s'[1];
    }
  }

  /** A string without a run of dashes is left alone. */
  lemma {:induction false} CollapseOfCollapsed(s: string)
    requires NoDoubleDash(s)
    ensures CollapseDashes(s) == s
    decreases |s|
  {
    if |s| > 1 {
      CollapseOfCollapsed(s[1..]);
      assert [s[0]] + s[1..] == s;
    }
  }

  /** The part after `category-`. */
  function ClassSuffix(category: string): (r: string)
    ensures forall i :: 0 <= i < |r| ==> IsClassChar(r[i])
    ensures NoDoubleDash(r)
    ensures |r| == 0 <==> |category| == 0
  {
    var t := Sanitize(category);
    var r := CollapseDashes(t);
    assert forall i :: 0 <= i < |r| ==> IsClassChar(r[i]) by {
      forall i | 0 <= i < |r|
        ensures IsClassChar(r[i])
      {
        assert r[i] in r;
      }
    }
    r
  }

  /** `getCategoryClassName`. */
  function CategoryClassName(category: string): (r: string)
    ensures StartsWith(r, "category-")
    ensures r[9..] == ClassSuffix(category)
  {
    "category-" + ClassSuffix(category)
  }

  /** The letters and digits of the category, lower-cased, survive in order. */
  lemma ClassKeepsLetters(category: string)
    ensures Filter(ClassSuffix(category), NotDash) == Filter(Sanitize(category), NotDash)
  {
    CollapseKeepsLetters(Sanitize(category));
  }

  /** A class suffix maps to itself, so deriving the class twice changes nothing. */
  lemma {:induction false} ClassSuffixStable(category: string)
    ensures ClassSuffix(ClassSuffix(category)) == ClassSuffix(category)
  {
    var r := ClassSuffix(category);
    assert Sanitize(r) == r by {
      forall i | 0 <= i < |r|
        ensures Sanitize(r)[i] == r[i]
      {
        assert IsClassChar(r[i]);
      }
    }
    CollapseOfCollapsed(r);
  }

  /** Names that differ only in letter case and punctuation share a class. */
  lemma ClassNamesCollide()
    ensures CategoryClassName("A & B") == CategoryClassName("a-b") == "category-a-b"
  {
    SanitizeExamples();
    CollapseExamples();
  }

  lemma SanitizeExamples()
    ensures Sanitize("A & B") == "a---b"
    ensures Sanitize("a-b") == "a-b"
  {
    assert SanitizeChar('A') == 'a' && SanitizeChar(' ') == '-' && SanitizeChar('&') == '-' && SanitizeChar('B') == 'b';
    assert SanitizeChar('a') == 'a' && SanitizeChar('-') == '-' && SanitizeChar('b') == 'b';
  }

  lemma CollapseExamples()
    ensures CollapseDashes("a---b") == "a-b"
    ensures CollapseDashes("a-b") == "a-b"
  {
    assert "-b"[1..] == "b";
    assert CollapseDashes("-b") == "-b";
    assert "--b"[1..] == "-b";
    assert CollapseDashes("--b") == "-b";
    assert "---b"[1..] == "--b";
    assert CollapseDashes("---b") == "-b";
    assert "a---b"[1..] == "---b";
    assert "a-b"[1..] == "-b";
  }
}

=== FILE: term_dialog.dfy ===
/** The add/edit term dialog: the form it prefills from the term being edited, the validation its
    form schema applies, and the create or update request it sends on submit. */
module TermDialog {
  import opened Common
  import opened Text
  import opened Schema
  import opened Utils
  import Storage

  /** The seven text inputs of the dialog. */
  datatype TermForm = TermForm(
    term: string,
    category: string,
    aliases: string,
    definition: string,
    related: string,
    tags: string,
    references: string)

  const EmptyForm: TermForm := TermForm("", "", "", "", "", "", "")

  /** The form schema: name, category and definition are required, the list fields are free text. */
  predicate FormValid(f: TermForm) {
    |f.term| >= 1 && |f.category| >= 1 && |f.definition| >= 1
  }

  /** `list?.join(sep) || ""`: a missing list shows as the empty string. */
  function ListText(xs: Option<seq<string>>, sep: string): string {
    Join(xs.GetOr([]), sep)
  }

  /** The values the form is reset to whenever the edited term changes (the reset runs as an
      effect of `editingTerm`, not on every opening): the edited term's fields, lists joined by
      `", "` and references one per line, an absent list as the empty string; or every field empty
      when adding. */
  function Prefill(editing: Option<Term>): (f: TermForm)
    ensures editing.None? ==> f == EmptyForm
    ensures editing.Some? ==>
      var t := editing.value;
      && f.term == t.term
      && f.category == t.category
      && f.definition == t.definition
      && f.aliases == Join(t.aliases.GetOr([]), ", ")
      && f.related == Join(t.related.GetOr([]), ", ")
      && f.tags == Join(t.tags.GetOr([]), ", ")
      && f.references == Join(t.references.GetOr([]), "\n")
    ensures editing.Some? ==>
      var t := editing.value;
      && (t.aliases.None? ==> f.aliases == "")
      && (t.related.None? ==> f.related == "")
      && (t.tags.None? ==> f.tags == "")
      && (t.references.None? ==> f.references == "")
  {
    match editing
    case None => EmptyForm
    case Some(t) =>
      TermForm(t.term, t.category, ListText(t.aliases, ", "), t.definition, ListText(t.related, ", "),
               ListText(t.tags, ", "), ListText(t.references, "\n"))
  }

  /** What the dialog asks the server to do. */
  datatype Submission =
    | CreateRequest(data: InsertTerm)
    | UpdateRequest(id: int, data: InsertTerm)

  /** The request body built from the form: the text fields as typed, the lists parsed out of
      their text, always supplied. */
  function TermData(f: TermForm): InsertTerm {
    InsertTerm(f.term, f.category, Strings(FormatArrayFromText(f.aliases)), f.definition,
               Strings(FormatArrayFromText(f.related)), Strings(FormatArrayFromText(f.tags)),
               Strings(FormatUrlsFromText(f.references)))
  }

  /** Submitting the dialog: nothing is sent while a required field is empty; otherwise an update
      of the edited term's id, or a create when no term is being edited. */
  function Submit(f: TermForm, editing: Option<Term>): (r: Option<Submission>)
    ensures r.None? <==> !FormValid(f)
    ensures r.Some? && editing.None? ==> r.value == CreateRequest(TermData(f))
    ensures r.Some? && editing.Some? ==> r.value == UpdateRequest(editing.value.id, TermData(f))
  {
    if !FormValid(f) then None
    else if editing.None? then Some(CreateRequest(TermData(f)))
    else Some(UpdateRequest(editing.value.id, TermData(f)))
  }

  /** The update the server validates out of an update submission: every field supplied. */
  function AsUpdate(id: int, d: InsertTerm): UpdateTerm {
    Schema.UpdateTerm(id, Some(d.term), Some(d.category), d.aliases, Some(d.definition), d.related, d.tags, d.references)
  }

  /** Opening the add dialog and submitting it untouched sends nothing. */
  lemma EmptyFormRejected(editing: Option<Term>)
    ensures Submit(Prefill(None), editing).None?
  {
  }

  /** A list the form can show and read back unchanged: every entry clean. */
  predicate CleanList(xs: Option<seq<string>>) {
    xs.Some? && forall i :: 0 <= i < |xs.value| ==> CleanItem(xs.value[i])
  }

  /** A references list the form can show and read back unchanged. */
  predicate UrlList(xs: Option<seq<string>>) {
    xs.Some? && forall i :: 0 <= i < |xs.value| ==> IsUrlLine(xs.value[i]) && '\n' !in xs.value[i]
  }

  /** Editing a term and saving without touching the form sends the term's own fields back, as
      long as its lists are present and hold entries the text format can carry. */
  lemma PrefillSubmitRoundTrip(t: Term)
    requires |t.term| >= 1 && |t.category| >= 1 && |t.definition| >= 1
    requires CleanList(t.aliases) && CleanList(t.related) && CleanList(t.tags) && UrlList(t.references)
    ensures Submit(Prefill(Some(t)), Some(t)) == Some(UpdateRequest(t.id, InsertTerm(
      t.term, t.category, Strings(t.aliases.value), t.definition,
      Strings(t.related.value), Strings(t.tags.value), Strings(t.references.value))))
  {
    FormatArrayJoin(t.aliases.value, " ");
    FormatArrayJoin(t.related.value, " ");
    FormatArrayJoin(t.tags.value, " ");
    assert [','] + " " == ", ";
    FormatUrlsJoin(t.references.value);
  }

  /** ... and the server then stores exactly the term it already had. */
  lemma UnchangedEditKeepsTerm(t: Term)
    requires |t.term| >= 1 && |t.category| >= 1 && |t.definition| >= 1
    requires CleanList(t.aliases) && CleanList(t.related) && CleanList(t.tags) && UrlList(t.references)
    ensures var r := Submit(Prefill(Some(t)), Some(t));
      r.Some? && Storage.Merge(t, AsUpdate(r.value.id, r.value.data)) == t
  {
    PrefillSubmitRoundTrip(t);
  }

  /** A term whose list is missing comes back from an unchanged edit with an empty list instead. */
  lemma UnchangedEditFillsMissingList(t: Term)
    requires |t.term| >= 1 && |t.category| >= 1 && |t.definition| >= 1
    requires t.aliases.None?
    ensures var r := Submit(Prefill(Some(t)), Some(t));
      r.Some? && Storage.Merge(t, AsUpdate(r.value.id, r.value.data)).aliases == Some([])
  {
  }
}

=== FILE: text.dfy ===
/** String helpers shared by every part of the model: the ASCII subset of JavaScript's
    `toLowerCase`, `trim`, `split`, `join`, `includes`, `startsWith` and the default
    `Array.prototype.sort` order on strings. */
module Text {

  /** ASCII whitespace: what `\s` matches and `String.prototype.trim` removes, restricted to ASCII. */
  predicate IsWs(c: char) {
    c == ' ' || c == '\t' || c == '\n' || c == '\r' || c == '\U{000B}' || c == '\U{000C}'
  }

  predicate IsUpper(c: char) {
    'A' <= c <= 'Z'
  }

  predicate IsLowerAlnum(c: char) {
    'a' <= c <= 'z' || '0' <= c <= '9'
  }

  function LowerChar(c: char): char {
    if IsUpper(c) then (c as int + 32) as char else c
  }

  /** `toLowerCase` on ASCII letters; every other character is kept. */
  function Lower(s: string): (r: string)
    ensures |r| == |s|
    ensures forall i :: 0 <= i < |s| ==> r[i] == LowerChar(s[i])
  {
    if |s| == 0 then "" else [LowerChar(s[0])] + Lower(s[1..])
  }

  lemma LowerIdempotent(s: string)
    ensures Lower(Lower(s)) == Lower(s)
  {
  }

  lemma LowerConcat(a: string, b: string)
    ensures Lower(a + b) == Lower(a) + Lower(b)
  {
  }

  predicate IsTrimmed(s: string) {
    |s| == 0 || (!IsWs(s[0]) && !IsWs(s[|s| - 1]))
  }

  /** Where the whitespace run starting at `i` ends. */
  function LeadingFrom(s: string, i: nat): (k: nat)
    requires i <= |s|
    ensures i <= k <= |s|
    ensures forall j :: i <= j < k ==> IsWs(s[j])
    ensures k < |s| ==> !IsWs(s[k])
    decreases |s| - i
  {
    if i < |s| && IsWs(s[i]) then LeadingFrom(s, i + 1) else i
  }

  /** The number of leading whitespace characters. */
  function LeadingWs(s: string): (k: nat)
    ensures k <= |s|
    ensures forall i :: 0 <= i < k ==> IsWs(s[i])
    ensures k < |s| ==> !IsWs(s[k])
  {
    LeadingFrom(s, 0)
  }

  /** Where the whitespace run ending just before `j` starts. */
  function TrailingTo(s: string, j: nat): (k: nat)
    requires j <= |s|
    ensures k <= j
    ensures forall i :: k <= i < j ==> IsWs(s[i])
    ensures k > 0 ==> !IsWs(s[k - 1])
    decreases j
  {
    if j > 0 && IsWs(s[j - 1]) then TrailingTo(s, j - 1) else j
  }

  /** Where the trailing whitespace starts. */
  function TrailingWs(s: string): (k: nat)
    ensures k <= |s|
    ensures forall i :: k <= i < |s| ==> IsWs(s[i])
    ensures k > 0 ==> !IsWs(s[k - 1])
  {
    TrailingTo(s, |s|)
  }

  /** The leading whitespace count is the one position with whitespace before and none at it. */
  lemma LeadingWsUnique(s: string, k: nat)
    requires k <= |s|
    requires forall i :: 0 <= i < k ==> IsWs(s[i])
    requires k < |s| ==> !IsWs(s[k])
    ensures LeadingWs(s) == k
  {
  }

  /** The trailing whitespace start is the one position with whitespace after and none before. */
  lemma TrailingWsUnique(s: string, k: nat)
    requires k <= |s|
    requires forall i :: k <= i < |s| ==> IsWs(s[i])
    requires k > 0 ==> !IsWs(s[k - 1])
    ensures TrailingWs(s) == k
  {
  }

  /** Drops the leading whitespace. */
  function TrimStart(s: string): (r: string)
    ensures |r| <= |s|
    ensures |r| > 0 ==> !IsWs(r[0])
  {
    s[LeadingWs(s)..]
  }

  /** `String.prototype.trim`: the text between the leading and the trailing whitespace. */
  function Trim(s: string): (r: string)
    ensures IsTrimmed(r)
    ensures |r| <= |s|
    ensures |r| == 0 <==> forall i :: 0 <= i < |s| ==> IsWs(s[i])
  {
    var a := LeadingWs(s);
    if a == |s| then ""
    else
      assert !IsWs(s[a]);
      s[a..TrailingWs(s)]
  }

  lemma TrimOfTrimmed(s: string)
    requires IsTrimmed(s)
    ensures Trim(s) == s
  {
    if |s| > 0 {
      LeadingWsUnique(s, 0);
      TrailingWsUnique(s, |s|);
    }
  }

  lemma TrimIdempotent(s: string)
    ensures Trim(Trim(s)) == Trim(s)
  {
    TrimOfTrimmed(Trim(s));
  }

  /** Whitespace in front adds its length to the leading whitespace count. */
  lemma LeadingWsPrefix(w: string, s: string)
    requires forall i :: 0 <= i < |w| ==> IsWs(w[i])
    ensures LeadingWs(w + s) == |w| + LeadingWs(s)
  {
    var k := |w| + LeadingWs(s);
    var ws := w + s;
    assert forall i :: |w| <= i < |ws| ==> ws[i] == s[i - |w|];
    LeadingWsUnique(ws, k);
  }

  lemma TrimStartPrefixWs(w: string, s: string)
    requires forall i :: 0 <= i < |w| ==> IsWs(w[i])
    ensures TrimStart(w + s) == TrimStart(s)
  {
    LeadingWsPrefix(w, s);
    assert (w + s)[|w| + LeadingWs(s)..] == s[LeadingWs(s)..];
  }

  /** Whitespace in front moves the trailing whitespace by its length, unless the text is all
      whitespace. */
  lemma TrailingWsPrefix(w: string, s: string)
    requires forall i :: 0 <= i < |w| ==> IsWs(w[i])
    requires LeadingWs(s) < |s|
    ensures TrailingWs(w + s) == |w| + TrailingWs(s)
  {
    var ws := w + s;
    var b := TrailingWs(s);
    assert b > LeadingWs(s) by {
      assert !IsWs(s[LeadingWs(s)]);
    }
    var k := |w| + b;
    forall i | k <= i < |ws|
      ensures IsWs(ws[i])
    {
      assert ws[i] == s[i - |w|];
    }
    assert ws[k - 1] == s[b - 1];
    TrailingWsUnique(ws, k);
  }

  /** Leading whitespace never survives a trim. */
  lemma TrimPrefixWs(w: string, s: string)
    requires forall i :: 0 <= i < |w| ==> IsWs(w[i])
    ensures Trim(w + s) == Trim(s)
  {
    LeadingWsPrefix(w, s);
    TrimBetween(w + s);
    TrimBetween(s);
    if LeadingWs(s) < |s| {
      TrailingWsPrefix(w, s);
      SliceAfterPrefix(w, s, LeadingWs(s), TrailingWs(s));
    }
  }

  /** The trimmed text lies between the leading and the trailing whitespace. */
  lemma TrimBetween(x: string)
    ensures LeadingWs(x) == |x| ==> Trim(x) == ""
    ensures LeadingWs(x) < |x| ==> LeadingWs(x) < TrailingWs(x) && Trim(x) == x[LeadingWs(x)..TrailingWs(x)]
  {
    if LeadingWs(x) < |x| {
      assert !IsWs(x[LeadingWs(x)]);
    }
  }

  lemma SliceAfterPrefix<T>(w: seq<T>, s: seq<T>, a: nat, b: nat)
    requires a <= b <= |s|
    ensures (w + s)[|w| + a..|w| + b] == s[a..b]
  {
  }

  predicate StartsWith(s: string, p: string) {
    |p| <= |s| && s[..|p|] == p
  }

  predicate EndsWith(s: string, p: string) {
    |p| <= |s| && s[|s| - |p|..] == p
  }

  /** `s.includes(p)`. */
  predicate Contains(s: string, p: string)
    decreases |s|
  {
    StartsWith(s, p) || (|s| > 0 && Contains(s[1..], p))
  }

  /** `p` occurs in `s` starting at position `i`. */
  predicate OccursAt(s: string, p: string, i: int) {
    0 <= i <= |s| - |p| && s[i..i + |p|] == p
  }

  /** The recursive substring test agrees with "p occurs at some position of s". */
  lemma {:induction false} ContainsIff(s: string, p: string)
    ensures Contains(s, p) <==> exists i :: OccursAt(s, p, i)
    decreases |s|
  {
    if StartsWith(s, p) {
      assert OccursAt(s, p, 0);
    }
    if |s| > 0 {
      ContainsIff(s[1..], p);
      if Contains(s[1..], p) {
        var i :| OccursAt(s[1..], p, i);
        assert s[i + 1..i + 1 + |p|] == s[1..][i..i + |p|];
        assert OccursAt(s, p, i + 1);
      }
      if exists i :: OccursAt(s, p, i) {
        var i :| OccursAt(s, p, i);
        if i > 0 {
          assert s[1..][i - 1..i - 1 + |p|] == s[i..i + |p|];
          assert OccursAt(s[1..], p, i - 1);
        }
      }
    } else if exists i :: OccursAt(s, p, i) {
      var i :| OccursAt(s, p, i);
      assert i == 0 && |p| == 0;
    }
  }

  lemma ContainsEmpty(s: string)
    ensures Contains(s, "")
  {
  }

  /** `s.split(sep)` for a one-character separator: the pieces between separators,
      so the empty string splits into `[""]`. */
  function Split(s: string, sep: char): (r: seq<string>)
    ensures |r| >= 1
    ensures forall i :: 0 <= i < |r| ==> sep !in r[i]
    decreases |s|
  {
    if |s| == 0 then [""]
    else
      var rest := Split(s[1..], sep);
      if s[0] == sep then [""] + rest
      else [[s[0]] + rest[0]] + rest[1..]
  }

  /** `parts.join(sep)`; joining no parts yields the empty string. */
  function Join(parts: seq<string>, sep: string): string
    decreases |parts|
  {
    if |parts| == 0 then ""
    else if |parts| == 1 then parts[0]
    else parts[0] + sep + Join(parts[1..], sep)
  }

  /** Splitting and re-joining with the same separator gives back the text. */
  lemma {:induction false} JoinSplit(s: string, sep: char)
    ensures Join(Split(s, sep), [sep]) == s
    decreases |s|
  {
    if |s| > 0 {
      var rest := Split(s[1..], sep);
      JoinSplit(s[1..], sep);
      if s[0] == sep {
        assert Split(s, sep) == [""] + rest;
        assert ([""] + rest)[1..] == rest;
      } else {
        var r := Split(s, sep);
        assert r == [[s[0]] + rest[0]] + rest[1..];
        if |rest| == 1 {
          assert r == [[s[0]] + rest[0]];
        } else {
          assert r[1..] == rest[1..];
          assert Join(rest, [sep]) == rest[0] + [sep] + Join(rest[1..], [sep]);
        }
      }
    }
  }

  lemma {:induction false} SplitNoSep(x: string, sep: char)
    requires sep !in x
    ensures Split(x, sep) == [x]
    decreases |x|
  {
    if |x| > 0 {
      SplitNoSep(x[1..], sep);
      assert [x[0]] + x[1..] == x;
    }
  }

  lemma {:induction false} SplitPiece(x: string, sep: char, t: string)
    requires sep !in x
    ensures Split(x + [sep] + t, sep) == [x] + Split(t, sep)
    decreases |x|
  {
    var s := x + [sep] + t;
    if |x| == 0 {
      assert s[1..] == t;
    } else {
      assert s[1..] == x[1..] + [sep] + t;
      SplitPiece(x[1..], sep, t);
      assert [x[0]] + x[1..] == x;
    }
  }

  /** Joining separator-free pieces and splitting again gives back the pieces. */
  lemma {:induction false} SplitJoin(parts: seq<string>, sep: char)
    requires |parts| >= 1
    requires forall i :: 0 <= i < |parts| ==> sep !in parts[i]
    ensures Split(Join(parts, [sep]), sep) == parts
    decreases |parts|
  {
    if |parts| == 1 {
      SplitNoSep(parts[0], sep);
    } else {
      SplitJoin(parts[1..], sep);
      SplitPiece(parts[0], sep, Join(parts[1..], [sep]));
      assert [parts[0]] + parts[1..] == parts;
    }
  }

  /** A separator-free prefix is glued onto the first piece. */
  lemma {:induction false} SplitPrefix(w: string, sep: char, t: string)
    requires sep !in w
    ensures Split(w + t, sep) == [w + Split(t, sep)[0]] + Split(t, sep)[1..]
    decreases |w|
  {
    if |w| == 0 {
      var r := Split(t, sep);
      assert w + t == t && w + r[0] == r[0];
      assert [r[0]] + r[1..] == r;
    } else {
      assert (w + t)[1..] == w[1..] + t;
      SplitPrefix(w[1..], sep, t);
      assert [w[0]] + (w[1..] + Split(t, sep)[0]) == w + Split(t, sep)[0];
    }
  }

  /** Splitting at a separator splits the two sides independently. */
  lemma {:induction false} SplitConcat(a: string, sep: char, b: string)
    ensures Split(a + [sep] + b, sep) == Split(a, sep) + Split(b, sep)
    decreases |a|
  {
    var s := a + [sep] + b;
    if |a| == 0 {
      assert s[1..] == b;
    } else {
      assert s[1..] == a[1..] + [sep] + b;
      SplitConcat(a[1..], sep, b);
    }
  }

  /** Trimming only removes characters. */
  lemma TrimChars(s: string)
    ensures forall c :: c in Trim(s) ==> c in s
  {
    var r := Trim(s);
    forall c | c in r
      ensures c in s
    {
      var i :| 0 <= i < |r| && r[i] == c;
      assert s[LeadingWs(s) + i] == c;
    }
  }

  /** The strict order of JavaScript's default `sort` on strings, compared character by character. */
  predicate Less(a: string, b: string)
    decreases |a|
  {
    |b| > 0 && (|a| == 0 || a[0] < b[0] || (a[0] == b[0] && Less(a[1..], b[1..])))
  }

  lemma {:induction false} LessIrreflexive(a: string)
    ensures !Less(a, a)
    decreases |a|
  {
    if |a| > 0 {
      LessIrreflexive(a[1..]);
    }
  }

  lemma {:induction false} LessTransitive(a: string, b: string, c: string)
    requires Less(a, b) && Less(b, c)
    ensures Less(a, c)
    decreases |a|
  {
    if |a| > 0 && a[0] == b[0] && b[0] == c[0] {
      LessTransitive(a[1..], b[1..], c[1..]);
    }
  }

  lemma {:induction false} LessTotal(a: string, b: string)
    requires a != b
    ensures Less(a, b) || Less(b, a)
    decreases |a|
  {
    if |a| > 0 && |b| > 0 && a[0] == b[0] {
      assert a == [a[0]] + a[1..] && b == [b[0]] + b[1..];
      LessTotal(a[1..], b[1..]);
    }
  }

  lemma LessAsymmetric(a: string, b: string)
    requires Less(a, b)
    ensures !Less(b, a)
  {
    if Less(b, a) {
      LessTransitive(a, b, a);
      LessIrreflexive(a);
    }
  }

  predicate StrictlySorted(s: seq<string>) {
    forall i, j :: 0 <= i < j < |s| ==> Less(s[i], s[j])
  }

  /** Inserts `x` into a strictly sorted list unless it is already there. */
  function InsertSorted(x: string, s: seq<string>): (r: seq<string>)
    requires StrictlySorted(s)
    ensures StrictlySorted(r)
    ensures forall y :: y in r <==> y in s || y == x
    decreases |s|
  {
    if |s| == 0 then [x]
    else if x == s[0] then s
    else if Less(x, s[0]) then
      assert forall j :: 0 < j < |s| ==> Less(x, s[j]) by {
        forall j | 0 < j < |s| {
          LessTransitive(x, s[0], s[j]);
        }
      }
      [x] + s
    else
      LessTotal(x, s[0]);
      var t := InsertSorted(x, s[1..]);
      assert forall y :: y in t ==> Less(s[0], y);
      [s[0]] + t
  }

  /** `Array.from(new Set(xs)).sort()`: the distinct values of `xs` in ascending order. */
  function SortDistinct(xs: seq<string>): (r: seq<string>)
    ensures StrictlySorted(r)
    ensures forall y :: y in r <==> y in xs
    decreases |xs|
  {
    if |xs| == 0 then []
    else
      var init := xs[..|xs| - 1];
      assert xs == init + [xs[|xs| - 1]];
      InsertSorted(xs[|xs| - 1], SortDistinct(init))
  }

  /** Two strictly sorted lists with the same elements start with the same element. */
  lemma SortedSameHead(a: seq<string>, b: seq<string>)
    requires StrictlySorted(a) && StrictlySorted(b)
    requires forall y :: y in a <==> y in b
    requires |a| > 0
    ensures |b| > 0 && a[0] == b[0]
  {
    assert a[0] in a;
    assert b[0] in b;
    if a[0] != b[0] {
      var i :| 0 <= i < |a| && a[i] == b[0];
      var j :| 0 <= j < |b| && b[j] == a[0];
      assert Less(a[0], b[0]) && Less(b[0], a[0]);
      LessAsymmetric(a[0], b[0]);
    }
  }

  /** An element after the shared head of one strictly sorted list comes after it in the other. */
  lemma SortedTailMember(a: seq<string>, b: seq<string>, y: string)
    requires StrictlySorted(a) && StrictlySorted(b)
    requires forall y :: y in a <==> y in b
    requires |a| > 0 && |b| > 0 && a[0] == b[0]
    requires y in a[1..]
    ensures y in b[1..]
  {
    var k :| 1 <= k < |a| && a[k] == y;
    assert Less(a[0], y);
    LessIrreflexive(y);
    assert y in b && y != b[0];
    var m :| 0 <= m < |b| && b[m] == y;
    assert b[1..][m - 1] == y;
  }

  /** A strictly sorted list is determined by its elements. */
  lemma {:induction false} SortedUnique(a: seq<string>, b: seq<string>)
    requires StrictlySorted(a) && StrictlySorted(b)
    requires forall y :: y in a <==> y in b
    ensures a == b
    decreases |a|
  {
    if |a| > 0 {
      SortedSameHead(a, b);
      forall y
        ensures y in a[1..] <==> y in b[1..]
      {
        if y in a[1..] {
          SortedTailMember(a, b, y);
        }
        if y in b[1..] {
          SortedTailMember(b, a, y);
        }
      }
      SortedUnique(a[1..], b[1..]);
      assert a == [a[0]] + a[1..] && b == [b[0]] + b[1..];
    } else if |b| > 0 {
      SortedSameHead(b, a);
    }
  }

  /** A strictly sorted list has no repeated element, so its length is the number of
      distinct values it holds. */
  lemma {:induction false} SortedCard(s: seq<string>)
    requires StrictlySorted(s)
    ensures |set y | y in s| == |s|
    decreases |s|
  {
    if |s| > 0 {
      SortedCard(s[1..]);
      LessIrreflexive(s[0]);
      assert s[0] !in s[1..];
      assert (set y | y in s) == (set y | y in s[1..]) + {s[0]};
    }
  }
}

=== FILE: use_terms.dfy ===
/** The client's term-list hook: the cache key it files a list under, the query string it sends to
    the API, and the in-browser filter it applies instead when it reads the static `terms.json`. */
module UseTerms {
  import opened Common
  import opened Text
  import opened Schema
  import opened Seqs
  import opened Storage
  import Routes

  /** The category the hook filters by: a non-empty one other than `all`. */
  function EffectiveCategory(category: Option<string>): (r: Option<string>)
    ensures r.Some? <==> Truthy(category) && category.value != "all"
    ensures r.Some? ==> r == category
  {
    if Truthy(category) && category.value != "all" then category else None
  }

  /** The search the hook filters by: a non-empty one. */
  function EffectiveSearch(search: Option<string>): (r: Option<string>)
    ensures r.Some? <==> Truthy(search)
    ensures r.Some? ==> r == search
  {
    if Truthy(search) then search else None
  }

  /** The query key: the list's path, then `category, c` and `search, s` for the filters in force. */
  function QueryKey(category: Option<string>, search: Option<string>): (k: seq<string>)
    ensures |k| >= 1 && k[0] == "/api/terms"
  {
    var c := EffectiveCategory(category);
    var s := EffectiveSearch(search);
    ["/api/terms"]
      + (if c.Some? then ["category", c.value] else [])
      + (if s.Some? then ["search", s.value] else [])
  }

  /** Two filter settings share a cache entry exactly when they filter the same way. */
  lemma QueryKeyDistinguishes(c1: Option<string>, s1: Option<string>, c2: Option<string>, s2: Option<string>)
    ensures QueryKey(c1, s1) == QueryKey(c2, s2)
      <==> EffectiveCategory(c1) == EffectiveCategory(c2) && EffectiveSearch(s1) == EffectiveSearch(s2)
  {
    var k1 := QueryKey(c1, s1);
    var k2 := QueryKey(c2, s2);
    if k1 == k2 {
      var e1, e2 := EffectiveCategory(c1), EffectiveCategory(c2);
      var f1, f2 := EffectiveSearch(s1), EffectiveSearch(s2);
      assert |k1| == 1 + (if e1.Some? then 2 else 0) + (if f1.Some? then 2 else 0);
      assert |k2| == 1 + (if e2.Some? then 2 else 0) + (if f2.Some? then 2 else 0);
      assert e1.Some? ==> k1[1] == "category";
      assert e1.None? && f1.Some? ==> k1[1] == "search";
      assert e2.Some? ==> k2[1] == "category";
      assert e2.None? && f2.Some? ==> k2[1] == "search";
      if e1.Some? && e2.Some? {
        assert k1[2] == e1.value && k2[2] == e2.value;
      }
      if f1.Some? && f2.Some? {
        assert k1[|k1| - 1] == f1.value && k2[|k2| - 1] == f2.value;
      }
    }
  }

  /** `URLSearchParams` built by the hook: the filters in force, category first. */
  function UrlParams(category: Option<string>, search: Option<string>): seq<(string, string)> {
    var c := EffectiveCategory(category);
    var s := EffectiveSearch(search);
    (if c.Some? then [("category", c.value)] else []) + (if s.Some? then [("search", s.value)] else [])
  }

  /** No name occurs twice among the pairs. */
  predicate NamesOnce(params: seq<(string, string)>) {
    forall i, j :: 0 <= i < j < |params| ==> params[i].0 != params[j].0
  }

  /** The hook names each parameter at most once. */
  lemma UrlParamsNamesOnce(category: Option<string>, search: Option<string>)
    ensures NamesOnce(UrlParams(category, search))
  {
  }

  /** The value read for a query parameter: the first one given under its name. A query string
      that names each parameter once, as the hook's do, has one value for it, which this is. */
  function QueryParam(params: seq<(string, string)>, name: string): (r: Option<string>)
    ensures r.None? <==> forall i :: 0 <= i < |params| ==> params[i].0 != name
    ensures r.Some? ==> exists i :: 0 <= i < |params| && params[i] == (name, r.value)
                                   && forall j :: 0 <= j < i ==> params[j].0 != name
    ensures NamesOnce(params) ==> forall i :: 0 <= i < |params| && params[i].0 == name ==> r == Some(params[i].1)
    decreases |params|
  {
    if |params| == 0 then None
    else if params[0].0 == name then Some(params[0].1)
    else
      var r := QueryParam(params[1..], name);
      if r.Some? then
        var i :| 0 <= i < |params[1..]| && params[1..][i] == (name, r.value)
                 && forall j :: 0 <= j < i ==> params[1..][j].0 != name;
        assert params[i + 1] == (name, r.value);
        assert forall j :: 0 <= j < i + 1 ==> params[j].0 != name by {
          forall j | 0 <= j < i + 1
            ensures params[j].0 != name
          {
            if j > 0 {
              assert params[j] == params[1..][j - 1];
            }
          }
        }
        r
      else r
  }

  /** The list the API sends back for the hook's request: the filters survive the trip through the
      query string, so it is the list the route computes from the hook's own arguments. */
  function ApiTerms(s: Store, category: Option<string>, search: Option<string>): (r: seq<Term>)
    ensures r == Routes.TermListFor(s, category, search)
  {
    var params := UrlParams(category, search);
    var c := QueryParam(params, "category");
    var q := QueryParam(params, "search");
    assert c == EffectiveCategory(category) by {
      if EffectiveCategory(category).Some? {
        assert params[0] == ("category", category.value);
      }
    }
    assert q == EffectiveSearch(search) by {
      if EffectiveSearch(search).Some? {
        assert params[|params| - 1] == ("search", search.value);
      }
    }
    Routes.TermListFor(s, c, q)
  }

  /** The static branch's match: name, definition, category, an alias or a tag contains the query. */
  predicate StaticMatch(r: TermRecord, lowered: string) {
    || Contains(Lower(r.term), lowered)
    || Contains(Lower(r.definition), lowered)
    || Contains(Lower(r.category), lowered)
    || (r.aliases.Some? && exists i :: 0 <= i < |r.aliases.value| && Contains(Lower(r.aliases.value[i]), lowered))
    || (r.tags.Some? && exists i :: 0 <= i < |r.tags.value| && Contains(Lower(r.tags.value[i]), lowered))
  }

  function InCategory(category: string): TermRecord -> bool {
    (r: TermRecord) => r.category == category
  }

  function StaticMatches(lowered: string): TermRecord -> bool {
    (r: TermRecord) => StaticMatch(r, lowered)
  }

  /** Whether the static branch keeps a record: in the category (if one is in force) and matching
      the search (if one is in force). */
  predicate StaticRecordKept(x: TermRecord, category: Option<string>, search: Option<string>) {
    && (EffectiveCategory(category).Some? ==> x.category == category.value)
    && (EffectiveSearch(search).Some? ==> StaticMatch(x, Lower(search.value)))
  }

  /** The static branch: the file's records, kept when they are in the category (if one is in force)
      and match the search (if one is in force), in file order and each as often as it is listed. */
  function StaticTerms(all: seq<TermRecord>, category: Option<string>, search: Option<string>): (r: seq<TermRecord>)
    ensures forall x :: x in r <==> x in all && StaticRecordKept(x, category, search)
    ensures SubseqOf(r, all)
    ensures forall x :: multiset(r)[x] == (if StaticRecordKept(x, category, search) then multiset(all)[x] else 0)
  {
    var inCategory := InCategory(category.GetOr(""));
    var matches := StaticMatches(Lower(search.GetOr("")));
    FilterWhenTwice(all, EffectiveCategory(category).Some?, inCategory, EffectiveSearch(search).Some?, matches);
    assert forall x :: (StaticRecordKept(x, category, search)
      == ((EffectiveCategory(category).Some? ==> inCategory(x)) && (EffectiveSearch(search).Some? ==> matches(x))));
    FilterWhen(FilterWhen(all, EffectiveCategory(category).Some?, inCategory), EffectiveSearch(search).Some?, matches)
  }



  /** The static search reads every field the API's search reads, and the category too. */
  lemma StaticMatchIff(r: TermRecord, id: int, lowered: string)
    ensures StaticMatch(r, lowered) <==> MatchesLowered(TermFromRecord(id, r), lowered) || Contains(Lower(r.category), lowered)
  {
    var t := TermFromRecord(id, r);
    var fs := SearchFields(t);
    var als := r.aliases.GetOr([]);
    var ts := r.tags.GetOr([]);
    assert fs == [r.term, r.definition] + als + ts;
    assert fs[0] == r.term && fs[1] == r.definition;
    if r.aliases.Some? && exists i :: 0 <= i < |als| && Contains(Lower(als[i]), lowered) {
      var i :| 0 <= i < |als| && Contains(Lower(als[i]), lowered);
      assert fs[2 + i] == als[i];
    }
    if r.tags.Some? && exists i :: 0 <= i < |ts| && Contains(Lower(ts[i]), lowered) {
      var i :| 0 <= i < |ts| && Contains(Lower(ts[i]), lowered);
      assert fs[2 + |als| + i] == ts[i];
    }
    if MatchesLowered(t, lowered) {
      var i :| 0 <= i < |fs| && Contains(Lower(fs[i]), lowered);
      if 2 <= i < 2 + |als| {
        assert als[i - 2] == fs[i];
      } else if 2 + |als| <= i {
        assert ts[i - 2 - |als|] == fs[i];
      }
    }
  }

  /** With both a category and a search in force the two branches disagree: the API lets the search
      win over the category ... */
  lemma ApiIgnoresCategoryWhenSearching()
    ensures var a := TermRecord(None, "x", "A", None, "d", None, None, None, None);
      var b := TermRecord(None, "x", "B", None, "d", None, None, None, None);
      |ApiTerms(Init(None, Some([a, b])), Some("A"), Some("x"))| == 2
  {
    var a := TermRecord(None, "x", "A", None, "d", None, None, None, None);
    var b := TermRecord(None, "x", "B", None, "d", None, None, None, None);
    var s := Init(None, Some([a, b]));
    assert |s.terms| == 2;
    assert Lower("x") == "x";
    forall t | t in s.terms
      ensures MatchesLowered(t, Lower("x"))
    {
      assert t.term == "x";
      assert SearchFields(t)[0] == "x";
      assert StartsWith("x", "x");
    }
    FilterAll(s.terms, (t: Term) => MatchesLowered(t, Lower("x")));
  }

  /** ... while the static branch applies both. */
  lemma StaticAppliesCategoryWhenSearching()
    ensures var a := TermRecord(None, "x", "A", None, "d", None, None, None, None);
      var b := TermRecord(None, "x", "B", None, "d", None, None, None, None);
      StaticTerms([a, b], Some("A"), Some("x")) == [a]
  {
    var a := TermRecord(None, "x", "A", None, "d", None, None, None, None);
    var b := TermRecord(None, "x", "B", None, "d", None, None, None, None);
    assert Filter([a, b], InCategory("A")) == [a] by {
      assert [a, b][1..] == [b];
    }
    assert Lower("x") == "x";
    assert StaticMatch(a, "x") by {
      assert StartsWith(Lower(a.term), "x");
    }
  }
}

=== FILE: utils.dfy ===
/** The two helpers the term form uses to turn its free-text fields into lists: the comma list of
    aliases, related terms and tags, and the one-link-per-line list of references. */
module Utils {
  import opened Text
  import opened Seqs

  /** A list entry as the comma-list helper produces it: non-empty, trimmed, without a comma. */
  predicate CleanItem(x: string) {
    |x| > 0 && IsTrimmed(x) && ',' !in x
  }

  /** The trimmed pieces, with the empty ones dropped, in order. */
  function TrimmedNonEmpty(parts: seq<string>): (r: seq<string>)
    requires forall i :: 0 <= i < |parts| ==> ',' !in parts[i]
    ensures |r| <= |parts|
    ensures forall i :: 0 <= i < |r| ==> CleanItem(r[i])
    decreases |parts|
  {
    if |parts| == 0 then []
    else
      var rest := TrimmedNonEmpty(parts[1..]);
      var x := Trim(parts[0]);
      if |x| > 0 then
        assert ',' !in x by { TrimChars(parts[0]); }
        [x] + rest
      else rest
  }

  lemma {:induction false} TrimmedNonEmptyConcat(a: seq<string>, b: seq<string>)
    requires forall i :: 0 <= i < |a| ==> ',' !in a[i]
    requires forall i :: 0 <= i < |b| ==> ',' !in b[i]
    ensures TrimmedNonEmpty(a + b) == TrimmedNonEmpty(a) + TrimmedNonEmpty(b)
    decreases |a|
  {
    if |a| == 0 {
      assert a + b == b;
    } else {
      assert (a + b)[1..] == a[1..] + b;
      TrimmedNonEmptyConcat(a[1..], b);
    }
  }

  /** `formatArrayFromText`: the comma-separated entries of `text`, each trimmed, empty ones
      dropped; no text gives no entries. */
  function FormatArrayFromText(text: string): (r: seq<string>)
    ensures |text| == 0 ==> r == []
    ensures forall i :: 0 <= i < |r| ==> CleanItem(r[i])
  {
    if |text| == 0 then [] else TrimmedNonEmpty(Split(text, ','))
  }

  /** The empty-text guard changes nothing: splitting "" gives one empty piece, which is dropped. */
  lemma FormatArraySplit(text: string)
    ensures FormatArrayFromText(text) == TrimmedNonEmpty(Split(text, ','))
  {
  }

  /** Entries on either side of a comma are read independently, so the order of the text is the
      order of the result. */
  lemma FormatArrayConcat(a: string, b: string)
    ensures FormatArrayFromText(a + [','] + b) == FormatArrayFromText(a) + FormatArrayFromText(b)
  {
    SplitConcat(a, ',', b);
    TrimmedNonEmptyConcat(Split(a, ','), Split(b, ','));
    FormatArraySplit(a);
    FormatArraySplit(b);
  }

  /** Whitespace in front of the text never produces an entry. */
  lemma FormatArrayPadded(w: string, t: string)
    requires forall i :: 0 <= i < |w| ==> IsWs(w[i])
    ensures FormatArrayFromText(w + t) == FormatArrayFromText(t)
  {
    assert ',' !in w;
    SplitPrefix(w, ',', t);
    var parts := Split(t, ',');
    TrimPrefixWs(w, parts[0]);
    FormatArraySplit(w + t);
    FormatArraySplit(t);
    assert Split(w + t, ',')[1..] == parts[1..];
  }

  /** Clean entries joined by a comma and any whitespace read back as the same entries; with
      `", "` this is the join the form uses to prefill an existing term. */
  lemma {:induction false} FormatArrayJoin(xs: seq<string>, w: string)
    requires forall i :: 0 <= i < |xs| ==> CleanItem(xs[i])
    requires forall i :: 0 <= i < |w| ==> IsWs(w[i])
    ensures FormatArrayFromText(Join(xs, [','] + w)) == xs
    decreases |xs|
  {
    if |xs| == 1 {
      FormatArrayClean(xs[0]);
    } else if |xs| > 1 {
      var sep := [','] + w;
      var rest := Join(xs[1..], sep);
      assert Join(xs, sep) == xs[0] + [','] + (w + rest);
      FormatArrayJoin(xs[1..], w);
      FormatArrayPadded(w, rest);
      FormatArrayClean(xs[0]);
      FormatArrayConcat(xs[0], w + rest);
      assert xs == [xs[0]] + xs[1..];
    }
  }

  /** A clean entry on its own reads back as itself. */
  lemma FormatArrayClean(x: string)
    requires CleanItem(x)
    ensures FormatArrayFromText(x) == [x]
  {
    SplitNoSep(x, ',');
    TrimOfTrimmed(x);
  }

  /** Reading a list back from its own comma join changes nothing. */
  lemma FormatArrayStable(text: string)
    ensures FormatArrayFromText(Join(FormatArrayFromText(text), ",")) == FormatArrayFromText(text)
  {
    FormatArrayJoin(FormatArrayFromText(text), "");
    assert [','] + "" == ",";
  }

  /** A line that, once trimmed, starts with `http`. */
  predicate IsUrlLine(line: string) {
    StartsWith(Trim(line), "http")
  }

  /** `formatUrlsFromText`: the lines of `text` that start with `http` after trimming, kept
      untrimmed and in order; no text gives no lines. */
  function FormatUrlsFromText(text: string): (r: seq<string>)
    ensures |text| == 0 ==> r == []
    ensures forall i :: 0 <= i < |r| ==> IsUrlLine(r[i]) && '\n' !in r[i]
    ensures SubseqOf(r, Split(text, '\n'))
    ensures |text| > 0 ==> forall l :: l in Split(text, '\n') && IsUrlLine(l) ==> l in r
    ensures |text| > 0 ==> forall l :: multiset(r)[l] == if IsUrlLine(l) then multiset(Split(text, '\n'))[l] else 0
  {
    if |text| == 0 then []
    else
      FilterMultiplicity(Split(text, '\n'), IsUrlLine);
      Filter(Split(text, '\n'), IsUrlLine)
  }

  /** Links written one per line read back as the same links. */
  lemma FormatUrlsJoin(urls: seq<string>)
    requires forall i :: 0 <= i < |urls| ==> IsUrlLine(urls[i]) && '\n' !in urls[i]
    ensures FormatUrlsFromText(Join(urls, "\n")) == urls
  {
    if |urls| > 0 {
      SplitJoin(urls, '\n');
      assert Join(urls, "\n") == Join(urls, ['\n']);
      assert |Join(urls, "\n")| > 0 by {
        if |urls| > 1 {
          assert Join(urls, "\n") == urls[0] + "\n" + Join(urls[1..], "\n");
        }
      }
      FilterAll(urls, IsUrlLine);
    }
  }
}
